=== FILE: README.md ===
# tot — a Dafny model of the app's pure rules

tot is an Electron desktop reader. Its main process keeps the WPM presets, the
current-text snapshots, a stopwatch and the editor's find-in-page state. Its
renderer windows count words, cap the editor text and validate the preset form.
Most of the code is IPC and DOM glue. This project models the decisions that sit
inside that glue, one Dafny module per source file, and proves what they promise.

- **WpmCurve** (`public/js/wpm_curve.js`): the discrete slider mapping. It covers
  run allocation for the linear curve, the `wpmByPos`/`firstPosByWpm` tables and
  the two conversions between control value and WPM.
- **Presets** (`public/js/presets.js`): how the renderer merges default and user
  presets.
- **PresetStore** (`electron/presets_main.js`): the effective language and the
  settings transforms of create, delete, restore-defaults and edit.
- **Snapshots** and **SnapshotNames** (`electron/current_text_snapshots_main.js`):
  - relative-path normalisation and resolution, and the inside-the-folder check;
  - the decisions of the load handler;
  - base-name sanitising and the next default file name.
- **Updater** (`electron/updater.js`): version comparison and the "offer an
  update" decision.
- **FindMain** (`electron/editor_find_main.js`) and **FindUi**
  (`public/editor_find.js`): the find state machine, the shortcut dispatch, the
  sender check, state normalisation and the status line.
- **Count** (`public/js/count.js`): the simple, fallback and segmenter-based
  counts.
- **MainProcess** (`electron/main.js`): the stopwatch, `formatTimerMs` and the
  payload of the preset window.
- **Editor** (`public/editor.js`) and **AppConstants** (`public/js/constants.js`):
  - capped insertion and the splice fallback;
  - paste, drop and typing limits;
  - external updates;
  - `applyConfig`.
- **Log** (`electron/log.js`) and **LogRenderer** (`public/js/log.js`): level
  normalisation, the level gate, and `warnOnce`/`errorOnce` dedupe. The renderer
  adds the initial level and its persistence.
- **Menu** (`public/js/menu.js`): the menu-action registry and its click
  subscription.
- **PresetModal** (`public/preset_modal.js`): form validation, the length caps,
  the WPM auto-name and the save flow.

Two shared modules model the JavaScript the code relies on:

- **Js**: JavaScript values, `Number(...)` on strings and arrays, `Math.round`
  and truthiness.
- **Strings**: `trim`, ASCII `toLowerCase`, `split`/`join`, `String(n)` and
  `padStart`.

### How the model works

Strings are `seq<char>`, one element per UTF-16 unit. The exception is Count,
which tells code points from UTF-16 units. Numbers are exact reals with explicit
NaN and infinities.

The following are parameters of the model:

- the clock;
- dialog answers;
- file contents and directory listings;
- `JSON.parse`/`JSON.stringify`, and `String(...)` of fractional numbers, objects, arrays and functions;
- the `Intl.Segmenter` segmentations;
- the `localeCompare` collation key;
- the ids `findInPage` returns.

State is immutable. Every handler is a function from the old state, plus its
inputs, to the new state and its answer.

## Model

| member | source | states |
|---|---|---|
| Js.StringToNumber | public/js/constants.js:23 | `Number` of blank text is 0. Otherwise the trimmed text reads as a finite number exactly when it is a signed decimal, and `Infinity` with an optional sign is infinite. |
| Js.ToNumber | public/js/constants.js:23 | `Number` keeps a number and reads a string as text. An empty array is 0, an array of two or more values is NaN, and a one-element array converts its element's text. `undefined`, plain objects and functions are NaN. |
| Js.WholeNumberText | public/editor.js:443 | `String(payload || '')` writes a whole number other than zero as its decimal numeral, with a leading minus sign when it is negative. |
| Js.WholeNumberTextReadsBack | public/editor.js:443 | The text a positive whole number is written as reads back through `Number` as the same number. |
| Js.NestedSingletonNumber | public/js/constants.js:23 | Wrapping a number, a string or `null` in any depth of one-element arrays leaves its `Number` unchanged. |
| AppConstants.ApplyConfig | public/js/constants.js:22-28 | When `Number(cfg.maxTextChars)` is finite and positive it is the limit exactly (not rounded). This includes a numeric string or a one-element array such as `[5000]`. Any other value falls back to `MAX_TEXT_CHARS`, so the limit is always positive. A `null` argument is an error. |
| AppConstants.ApplyConfigCases | public/js/constants.js:23-27 | A positive configured limit is kept. A zero or negative limit, an absent configuration, NaN and `Infinity` all give the 10,000,000 default. |
| AppConstants.ApplyConfigArrays | public/js/constants.js:23-25 | A limit inside a one-element array is that limit. An empty array, or one holding two values, gives the default. |
| AppConstants.ApplyConfigIdempotent | public/js/constants.js:22-28 | Feeding the effective limit back in as the configuration yields the same limit. |
| Count.Utf16Length | public/js/count.js:22 | `length` counts UTF-16 units: at least one and at most two per code point. |
| Count.RemoveSpaces | public/js/count.js:23 | Removing white-space runs leaves only non-space characters of the input. The result is empty exactly when the text is all white space. |
| Count.RemoveSpacesKeepsNonSpace | public/js/count.js:23 | Every non-white-space character survives as often as it occurs in the input. |
| Count.RemoveSpacesSnoc | public/js/count.js:23 | Appending a character appends it to the result exactly when it is not white space. |
| Count.RemoveSpacesCounts | public/js/count.js:23 | The text without white space has one code point per non-white-space position of the input. Its UTF-16 length adds one more unit for each such position outside the Basic Multilingual Plane. |
| Count.PositionsSnoc | public/js/count.js:52 | One more character adds its position to a filter's positions exactly when it passes the filter. |
| Count.Utf16LengthAppend | public/js/count.js:22 | UTF-16 length adds up over concatenation. |
| Count.RemoveSpacesShorter | public/js/count.js:23 | `sinEspacios` never exceeds `conEspacios`, measured in UTF-16 units. |
| Count.SplitOnSpaces | public/js/count.js:24 | Splitting on white space always yields at least one piece. |
| Count.SplitCountsWords | public/js/count.js:24 | The number of pieces is one more than the number of white-space runs: one per word that follows white space, plus one for trailing white space. |
| Count.WordRunsOfTrim | public/js/count.js:24 | Trimming the text does not change its number of maximal non-space runs. |
| Count.CountWords | public/js/count.js:24 | The word count is 0 exactly for blank text. Otherwise it equals the independently defined number of maximal non-space runs. |
| Count.CountSimple | public/js/count.js:21-26 | `conEspacios` is the UTF-16 length. `sinEspacios` is the UTF-16 length of the non-white-space characters: one unit per non-space position, plus one per astral one. It is at most `conEspacios`, and 0 for blank text. `palabras` is the number of word runs and is 0 exactly for blank text. |
| Count.CountFallback | public/js/count.js:49-55 | `conEspacios` is the number of code points. `sinEspacios` is the number of non-white-space code points, so at most `conEspacios`. The words are counted as in the simple mode. |
| Count.SimpleAgreesWithFallback | public/js/count.js:49-55 | Both modes always agree on words. They agree entirely on text inside the Basic Multilingual Plane. |
| Count.BmpLength | public/js/count.js:22 | On text inside the Basic Multilingual Plane the UTF-16 length is the number of code points. |
| Count.CountWithoutSpace | public/js/count.js:81 | The count of graphemes free of white space is never more than the number of graphemes. |
| Count.CountWithoutSpaceAll | public/js/count.js:81 | Every grapheme is counted exactly when none of them holds white space. |
| Count.CountWordLike | public/js/count.js:85 | Never more words than there are segments. |
| Count.CountWithoutSpacePositions | public/js/count.js:81 | The "without spaces" count is the number of graphemes that hold no white space. |
| Count.CountWordLikePositions | public/js/count.js:85 | The word count is the number of segments flagged `isWordLike`. |
| Count.CountWordLikeNone | public/js/count.js:85 | No word is counted exactly when no segment is word-like. |
| Count.CountPrecise | public/js/count.js:71-88 | Without a segmenter the result is the fallback count. With one, `conEspacios` is the number of graphemes, `sinEspacios` the number of graphemes holding no white space, and `palabras` the number of word-like segments. |
| Count.CountText | public/js/count.js:97-107 | Only the exact mode `"simple"` selects the simple count. Any other or missing mode is precise, in the given language or else the default `es`. |
| Editor.InsertAtSelection | public/editor.js:308-312 | The splice fallback keeps the text before and after the selection and puts the new text in between. The caret ends right after the inserted text. |
| Editor.InsertionIsUndone | public/editor.js:308-312 | Cutting the inserted text back out restores the text around the old selection. |
| Editor.InsertTextAtCursor | public/editor.js:385-417 | With no room left nothing changes and `{0, false}` is reported. Otherwise the longest prefix that fits is spliced in, `truncated` holds exactly when the text was longer than the room, and the result stays within the limit. |
| Editor.InsertKeepsLimit | public/editor.js:394-412 | A text within the limit stays within it. The inserted part is a prefix of what was asked for. |
| Editor.EnforceLimit | public/editor.js:446-450 | A text over the limit becomes its prefix of exactly the limit's length. A text within the limit is unchanged. |
| Editor.EnforceLimitIdempotent | public/editor.js:712-713 | Cutting twice is cutting once, and the result is within the limit. |
| Editor.Paste | public/editor.js:620-645 | A paste goes through exactly when the editor is writable and the clipboard text is non-empty and at most `PASTE_ALLOW_LIMIT`; it then acts as the capped insert. A too-long paste is refused, and a refused paste changes nothing. |
| Editor.Drop | public/editor.js:648-700 | A drop is accepted exactly when the editor is writable and the text is non-empty and at most `PASTE_ALLOW_LIMIT`. The result is then cut to the limit. |
| Editor.OnInput | public/editor.js:709-732 | Suppressed or read-only input is ignored. A value over the limit is cut to its prefix of the limit's length. Otherwise a send is scheduled exactly when calculating while typing is on. |
| Editor.UpdateText | public/editor.js:439-444 | An object with its own `text` gives that text, with its `meta` when truthy and `null` otherwise. Any other payload is itself converted to text and carries a `null` meta. |
| Editor.MetaField | public/editor.js:467-468 | A meta field reads as a truthy value or `null`. |
| Editor.ExternalUpdate | public/editor.js:434-580 | An echo of the editor's own publication leaves the editor as it is. Every other update leaves the value equal to the incoming text cut to the limit. A cut is reported only if the text was longer than the limit. |
| Editor.ExternalUpdateCorrected | public/editor.js:434-580 | The same decision, except that a cut is reported exactly when the incoming text was longer than the limit. |
| Editor.EditorPayload | public/editor.js:323-330 | The editor publishes its text under `text`. |
| Editor.EchoIgnored | public/editor.js:453-455 | An update carrying the editor's own publication changes nothing and reports nothing. |
| Editor.ExternalUpdateIdempotent | public/editor.js:457-462 | Applying the same update a second time leaves the value where the first application put it. |
| Editor.AppendCutNotReported | public/editor.js:470-494 | A small `append_newline` from the main window whose text was cut ends with the cut text unreported. The corrected decision reports it. |
| FindMain.ClearedState | electron/editor_find_main.js:127-133 | The cleared state has query `''`, no request id, 0 matches, active 0 and `finalUpdate` true. |
| FindMain.PublicState | electron/editor_find_main.js:74-81 | The published state carries query, matches, active match and `finalUpdate`, and never the request id. |
| FindMain.RunFind | electron/editor_find_main.js:153-171 | A search that starts records its request id and answers with it. Without an editor window, or when the call throws, the state is unchanged and the answer is a failure. |
| FindMain.SetQuery | electron/editor_find_main.js:173-194 | An empty query clears the whole state. Any other query is stored with matches and active at 0 and `finalUpdate` false. The request id changes only when the search starts, and a failure is reported exactly when it does not. |
| FindMain.Navigate | electron/editor_find_main.js:196-211 | Without a query nothing changes and the answer is `skipped`. Otherwise query and counts are kept, `finalUpdate` is cleared, and the request id changes exactly when the search starts. |
| FindMain.HandleFoundInPage | electron/editor_find_main.js:213-228 | A non-object result, or a stale one (its finite request id differs from a recorded one), is ignored. Otherwise matches and active become non-negative whole numbers. The query and request id never change. |
| FindMain.StaleResultDropped | electron/editor_find_main.js:216-219 | Once a search has started, a result carrying any other request id leaves the state as it was. |
| FindMain.EditorKeyAction | electron/editor_find_main.js:350-373 | Only key-down events act. Ctrl/Cmd+F without Alt opens the find UI. F3 navigates, forward exactly without Shift. Escape closes only when a find window exists. |
| FindMain.FindKeyAction | electron/editor_find_main.js:375-399 | In the find window the open shortcut re-focuses the query. F3 navigates as in the editor, and Escape always closes. Only key-down events act. |
| FindMain.WindowsAgreeOnNavigation | electron/editor_find_main.js:350-399 | Apart from the open shortcut, both windows react to a key alike while the find window is open. |
| FindMain.CloseFindUi | electron/editor_find_main.js:325-348 | Closing the find UI clears the search state and answers `{ok: true}`. |
| FindMain.HandleFindRequest | electron/editor_find_main.js:523-580 | A request from any sender other than the find window answers `unauthorized` and leaves the state unchanged. The find window itself is never refused. |
| FindMain.NoFindWindowNoChange | electron/editor_find_main.js:523-527 | Without a find window every request is unauthorized, whoever sends it. |
| FindMain.ApplyKeyAction | electron/editor_find_main.js:350-399 | Opening or re-focusing leaves the search state alone, and closing clears it. No key ever changes the query except to clear it. |
| FindMain.KeyUpChangesNothing | electron/editor_find_main.js:351 | A key release changes nothing in either window. |
| FindUi.NormalizeState | public/editor_find.js:59-70 | A payload that is not an object leaves the state unchanged. Otherwise the query is the payload's string query or `''`, and matches and active are non-negative whole numbers. |
| FindUi.PublishedStateArrivesIntact | public/editor_find.js:59-70 | The state the main process publishes arrives unchanged in the find window. |
| FindUi.ResolveStatus | public/editor_find.js:79-88 | An empty query shows the empty-query message and zero matches shows the no-matches message. Otherwise `current/matches` is shown with `1 <= current <= matches`; an active value inside the range is shown as itself, 0 is shown as 1, and a value above `matches` is shown as `matches`. |
| FindUi.StatusText | public/editor_find.js:79-88 | The two messages are shown as given, and a position as `current/total`. |
| FindUi.PositionTextReadsBack | public/editor_find.js:86-87 | The position text splits back into the shown current match and total. |
| FindUi.ApplyUiState | public/editor_find.js:90-99 | The input shows the query. The prev and next buttons are disabled exactly when the query is empty. |
| Log.Rank | electron/log.js:4 | Level ranks run from 0 to 4, and only silent has 0. |
| Log.LevelNamed | electron/log.js:4 | An own key of `LEVELS` names exactly one level, the one whose name it is. |
| Log.RankOrdersLevels | electron/log.js:4 | Distinct levels have distinct ranks. |
| Log.LevelsLookup | electron/log.js:9 | Looking up `LEVELS[s]` finds an own level exactly for the five names. It finds an inherited value exactly for `constructor` and `__proto__`. |
| Log.NormalizeLevelNameAsWritten | electron/log.js:7-10 | The written rule keeps every key whose lookup is not `undefined`, inherited keys included, and maps everything else to `warn`. |
| Log.KeepDefinedKey | electron/log.js:9 | A key with a defined lookup is kept, and any other key becomes `warn`. |
| Log.InheritedKeySilences | electron/log.js:12-20 | An inherited key is kept as the level name although it names no level, and then the gate lets no message through. |
| Log.ConstructorIsInherited | electron/log.js:7-9 | `"constructor"` is such a key. |
| Log.NormalizeLevelName | electron/log.js:7-10 | The intended rule: a key that names a level gives that level, and every other input gives `warn`. |
| Log.LevelOfKey | electron/log.js:9 | A level name gives its level, and anything else gives `warn`. |
| Log.AsWrittenIdempotent | electron/log.js:7-10 | Normalising a returned name again gives it back, inherited names included. |
| Log.DefinedNameIsKey | electron/log.js:7-10 | A name `LEVELS` defines is its own key and is kept by the written rule. |
| Log.NormalizeAgreesOffInherited | electron/log.js:7-10 | The intended and written rules agree on every input that is not an inherited key. |
| Log.NormalizeRoundTrip | electron/log.js:7-10 | A level's own name normalises to that level, and normalising is idempotent. |
| Log.NormalizeIgnoresCaseAndSpace | electron/log.js:8 | Case and surrounding white space do not matter to normalisation. |
| Log.ShouldAsWrittenOfName | electron/log.js:18-20 | On a current name that is one of the five, the written gate `LEVELS[current] >= LEVELS[level]` is the comparison of ranks. |
| Log.ShouldIsMonotone | electron/log.js:18-20 | A message is printed exactly when the current rank is at least the message's. The gate is monotone, silent prints nothing and debug prints everything. |
| Log.Initial | electron/log.js:12-16 | The initial level name is `TOT_LOG_LEVEL`'s key when `LEVELS` defines it, inherited names included, and `warn` otherwise. An inherited name silences every message. No dedupe key is used yet. |
| Log.SetLevel | electron/log.js:77-81 | The level name becomes the argument's key when `LEVELS` defines it, inherited names included, and `warn` otherwise. An inherited name silences every message. The dedupe keys are kept. |
| Log.GetLevel | electron/log.js:83-85 | The stored name is reported. For a name `normalizeLevelName` returned, that is one of the five level names or an inherited one. |
| Log.GetLevelAfterSetLevel | electron/log.js:77-85 | `getLevel()` reports what `normalizeLevelName` returned for the latest `setLevel`, a name `LEVELS` defines. |
| Log.SetLevelOffInherited | electron/log.js:77-85 | Except for an inherited key, the reported name names the intended level, so the gate is that level's. |
| Log.KeyLevelAgrees | electron/log.js:9-20 | Except for an inherited key, the kept key names the intended level and gates like it. |
| Log.SetLevelConstructorSilences | electron/log.js:77-85 | After `setLevel('constructor')`, `getLevel()` answers `constructor`, which names no level, and nothing is printed, errors included. |
| Log.SetLevelCorrected | electron/log.js:77-85 | The intended `setLevel` always stores one of the five names. It agrees with the written one except on inherited keys. |
| Log.ScopeName | electron/log.js:40 | An empty scope becomes `app`, so the scope is never empty. |
| Log.KeyFromArgs | electron/log.js:26-37 | A string first argument of at most 200 characters follows `level:scope:` in full. Otherwise the key is a prefix, at most 500 long, of `level:scope:` followed by the JSON of the arguments; when they cannot be serialised it ends in `[unkeyable]`. Every key starts with the level's name. |
| Log.OnceKey | electron/log.js:54-56 | Every dedupe key starts with its level's name. |
| Log.OnceKeysNamespaced | electron/log.js:56 | Warn keys and error keys never collide, whatever the scopes and arguments. |
| Log.Once | electron/log.js:51-73 | When the written gate refuses, nothing happens and no key is used. Otherwise a new key is printed and recorded, and a seen key prints nothing. |
| Log.OncePrintsAtMostOnce | electron/log.js:58-59 | A second call with the same key prints nothing. |
| Log.SuppressedKeepsKey | electron/log.js:52 | A `warnOnce` the gate suppresses does not use up its key. |
| LogRenderer.ReadInitialLevel | public/js/log.js:15-20 | A truthy `window.TOT_LOG_LEVEL` decides the level name. Otherwise the stored value decides, and with neither it is `warn`. The deciding value's key is kept when `LEVELS` defines it, inherited names included, and is `warn` otherwise. |
| LogRenderer.EmptyKeyIsWarn | public/js/log.js:6-9 | A falsy value normalises to `warn`. |
| LogRenderer.Start | public/js/log.js:22-25 | The page starts at the initial level with no dedupe key used. |
| LogRenderer.SetLevel | public/js/log.js:80-85 | The level changes as in the main process. The name it was given is stored unless `persist` is false, an inherited name included. |
| LogRenderer.PersistedLevelSurvivesReload | public/js/log.js:15-20 | A persisted level is the next page's level unless the window variable overrides it. This holds for inherited names too. |
| LogRenderer.WindowLevelWins | public/js/log.js:16-17 | A level named by the window variable takes precedence over whatever is stored. |
| MainProcess.TruncRem | electron/main.js:494-495 | JavaScript `%` agrees with the mathematical remainder for non-negative operands, and its result has the sign of the dividend. |
| MainProcess.TwoDigits | electron/main.js:496 | The padded field has at least two characters. |
| MainProcess.FormatTimerMs | electron/main.js:491-497 | A non-negative duration gives `HH:MM:SS`: at least two hour digits, with minutes and seconds two digits each and below 60. A negative one gives a text starting with `-`. |
| MainProcess.TimerReadsBack | electron/main.js:491-497 | The display of a non-negative duration reads back as its whole seconds. |
| MainProcess.SplitSeconds | electron/main.js:493-495 | Hours, minutes and seconds add back up to the whole seconds. |
| MainProcess.TimerDisplayDependsOnSeconds | electron/main.js:492 | Two non-negative durations show the same display exactly when they have the same whole seconds. |
| MainProcess.ElapsedAt | electron/main.js:499-502 | The shown time is `elapsed` when stopped and `elapsed + (now - startTs)` when running. |
| MainProcess.GetCronoState | electron/main.js:499-502 | The view reports the running flag and the shown time. When the shown time is non-negative, the display reads back as its whole seconds. |
| MainProcess.Start | electron/main.js:523-530 | Starting a running stopwatch changes nothing. A stopped one starts at `now` with its elapsed time kept, so the shown time does not jump. |
| MainProcess.Stop | electron/main.js:532-539 | Stopping a stopped stopwatch changes nothing. A running one banks its run and clears `running` and `startTs`, so the shown time does not jump. |
| MainProcess.Reset | electron/main.js:541-546 | After a reset the stopwatch is stopped and shows 0 at every time. |
| MainProcess.ElapsedArgument | electron/main.js:549 | An argument converting to a finite number is taken as that number, and one converting to NaN becomes 0. |
| MainProcess.SetElapsed | electron/main.js:548-553 | The time shown at `now` becomes the argument. The running flag is kept, and a stopped stopwatch keeps its missing start time. |
| MainProcess.Toggle | electron/main.js:559-563 | Toggling flips the running flag without changing the shown time. |
| MainProcess.RunAccumulates | electron/main.js:523-539 | A run started at `t0` and stopped at `t1` adds exactly `t1 - t0` to the shown time. |
| MainProcess.RunningAdvances | electron/main.js:499-502 | While running, the shown time advances exactly with the clock. |
| MainProcess.PresetModalData | electron/main.js:648-657 | Without a main window nothing opens. Otherwise a number becomes `{wpm}`, an object or array is passed as is, and anything else becomes `{}`. |
| MainProcess.PresetModalDataLoads | electron/main.js:651-652 | A number sent to the preset window reaches its `onInit` as `{wpm}`. A preset with a blank name then opens in new mode with the rounded WPM and is named after it. |
| MainProcess.PresetModalDataPassesObjects | electron/main.js:653-654 | A truthy object or array reaches the preset window unchanged, so its `onInit` sees exactly what was sent. |
| Menu.Lookup | public/js/menu.js:29 | A callback is found exactly for a registered payload. |
| Menu.Set | public/js/menu.js:15 | `Map.set` gives the payload the new callback and leaves every other payload's callback alone. An existing key keeps its place, and a new one goes last. |
| Menu.Remove | public/js/menu.js:20 | Removing a payload from the key order keeps every other key, in order and without duplicates. |
| Menu.Delete | public/js/menu.js:20 | `Map.delete` answers true exactly when the key was present. Afterwards the key is gone and every other key is untouched. |
| Menu.RegisterMenuAction | public/js/menu.js:8-17 | Registration fails exactly for a non-string or blank payload, or a callback that is not a function. Otherwise the payload maps to the new callback and every other payload is untouched. |
| Menu.UnregisterMenuAction | public/js/menu.js:19-21 | It answers true exactly when the payload was registered, and afterwards the payload is gone. |
| Menu.ListMenuActions | public/js/menu.js:23-25 | The list holds exactly the registered payloads, each once. |
| Menu.HandleMenuClick | public/js/menu.js:27-39 | A click runs exactly the callback registered for its payload. An unknown payload runs nothing. |
| Menu.RegisterThenClick | public/js/menu.js:8-39 | After registering, a click runs the new callback. After unregistering, it runs nothing. |
| Menu.SetupListener | public/js/menu.js:42-69 | With an unsubscribe function stored nothing happens. Otherwise a successful subscription is counted, and a returned function is stored exactly when it is a function. |
| Menu.SetupIsOnce | public/js/menu.js:43-47 | Once an unsubscribe function is stored, no number of further setups subscribes again. |
| Menu.SetupAll | public/js/menu.js:42-69 | Repeated setups never lose a subscription. |
| Menu.StopListening | public/js/menu.js:83-95 | The stored function is forgotten, and the count of subscriptions is kept. |
| PresetModal.Blank | public/preset_modal.js:13-14 | The window opens in new mode with no original name. |
| PresetModal.Validate | public/preset_modal.js:54-69 | The form is refused exactly when the trimmed name is empty or the WPM is not a finite number above 0. Otherwise the trimmed name, the rounded WPM and the trimmed description are returned. |
| PresetModal.SmallWpmRoundsToZero | public/preset_modal.js:63-68 | A WPM strictly between 0 and 0.5 passes validation and is saved as 0. |
| PresetModal.SmallDecimalText | public/preset_modal.js:56 | Texts such as `"0.4"` read as such a WPM. |
| PresetModal.ValidateCorrected | public/preset_modal.js:54-69 | The intended rule: it also refuses a WPM that rounds below 1, so a saved preset's WPM is at least 1. |
| PresetModal.ValidateCorrectedStable | public/preset_modal.js:54-69 | What validation returns, written back into the form, validates to itself. |
| PresetModal.ValidateInteger | public/preset_modal.js:54-69 | A trimmed name with an integral WPM of at least 1 validates unchanged under both rules. |
| PresetModal.Cap | public/preset_modal.js:77-80 | A value at or over the cap becomes its prefix of the cap's length. A shorter value is unchanged. |
| PresetModal.CapIdempotent | public/preset_modal.js:84-88 | Capping twice is capping once. |
| PresetModal.DescriptionInput | public/preset_modal.js:72-81 | The description is capped at 120. The counter shows 120 minus the typed length and is negative exactly when the text was over the cap. |
| PresetModal.NameInput | public/preset_modal.js:84-88 | The name is a prefix of what was typed, at most 13 characters long. A short name is unchanged. |
| PresetModal.WpmInput | public/preset_modal.js:129-134 | Only the name can change. It changes only when it was blank and the WPM is positive, and then it becomes `"{wpm}wpm"`. |
| PresetModal.AutoNamePassesValidate | public/preset_modal.js:129-134 | An auto-filled name no longer blocks saving. |
| PresetModal.AutoNamedValidates | public/preset_modal.js:54-69 | A name `"{k}wpm"` with WPM text `k >= 1` validates to that name and WPM. |
| PresetModal.RoundedText | public/preset_modal.js:34 | A finite number is shown as its rounded integer. A non-finite one is not a digit string. |
| PresetModal.OnInit | public/preset_modal.js:19-43 | Falsy data changes nothing. Edit mode is entered exactly for `mode: 'edit'` with a truthy preset name, and it loads the preset. Otherwise a numeric WPM is loaded, and only a blank name may change, to `"{wpm}wpm"`. |
| PresetModal.OpenWithWpm | public/preset_modal.js:36-42 | Opening with a WPM of at least 0.5 fills a blank name so that saving it validates. |
| PresetModal.NewWithWpmLoads | public/preset_modal.js:36-42 | Opening a new preset with a finite WPM and a blank name loads the rounded WPM and names the preset after it, in new mode. |
| PresetModal.EditRoundTrip | public/preset_modal.js:24-34 | Opening a saved preset for edit records its original name, and the loaded form validates back to that same preset. |
| PresetModal.EditLoads | public/preset_modal.js:24-34 | An edit request with a string name and description and a whole-number WPM loads exactly those values and records the original name. |
| PresetModal.SaveRequest | public/preset_modal.js:91-121 | A request is sent exactly when validation succeeds and the API is available. It carries the validated preset, and it is an edit, with the original name, exactly in edit mode. |
| PresetModal.AfterSave | public/preset_modal.js:98-115 | `{ok}` closes the window. A cancelled edit stays quietly. |
| Presets.LexLeTotal | public/js/presets.js:29 | The name order is total. |
| Presets.LexLeTrans | public/js/presets.js:29 | The name order is transitive. |
| Presets.InsertSorted | public/js/presets.js:29 | Insertion adds exactly the one preset. |
| Presets.InsertSortedKeepsOrder | public/js/presets.js:29 | Inserting into a sorted list keeps it sorted. |
| Presets.SortByName | public/js/presets.js:29 | Sorting is a permutation of its input. |
| Presets.SortByNameSorted | public/js/presets.js:29 | The sorted list is ordered by name. |
| Presets.SortByNameUnique | public/js/presets.js:29 | Sorting keeps names unique. |
| Presets.FindIndex | electron/presets_main.js:274 | `findIndex` finds the first preset with the name, and none exactly when no preset has it. |
| Presets.Upsert | electron/presets_main.js:274-279 | The preset replaces the first one with its name in place, or is appended. Every other entry stays where it was. |
| Presets.UpsertMembers | public/js/presets.js:24-26 | With unique names the upsert keeps names unique. It holds the new preset and every other preset not sharing its name. |
| Presets.LastNamed | public/js/presets.js:26 | The last preset with a name exists exactly when some preset has that name. |
| Presets.ShadowMembers | public/js/presets.js:24-26 | After the `Map.set` pass, each name holds the last preset carrying it, and names are unique. |
| Presets.Language | public/js/presets.js:5 | The language is the settings' language or `"es"`, never empty. |
| Presets.WithoutNames | public/js/presets.js:19-21 | Filtering drops exactly the presets whose name is listed. |
| Presets.Combine | public/js/presets.js:4-30 | The result is sorted by name with unique names. A preset appears exactly when it is the user's last preset with that name, or else the last enabled default of the language. |
| Presets.CombineShowsEveryName | public/js/presets.js:24-26 | Every user preset's name and every enabled default's name appears, and no other name does. |
| Presets.UniqueLastNamed | public/js/presets.js:26 | In a list with unique names, the last preset with a name is the only one. |
| Presets.LastNamedWithout | public/js/presets.js:20 | Filtering other names out does not change the last preset with a name. |
| PresetStore.BaseTag | electron/presets_main.js:19 | The base tag is the text before the first `-` or `_`. |
| PresetStore.SanitizeLangCode | electron/presets_main.js:17-21 | The result is `''` or a non-empty run of `[a-z0-9]`. A non-string gives `''`. |
| PresetStore.SanitizeKeepsCode | electron/presets_main.js:17-21 | A valid code is kept as it is. |
| PresetStore.SanitizeIdempotent | electron/presets_main.js:17-21 | Sanitizing twice is sanitizing once. |
| PresetStore.EffectiveLanguage | electron/presets_main.js:149-156 | The effective language is always a valid code, falling back to `es`. |
| PresetStore.FallbackLanguageIsCode | electron/presets_main.js:154-155 | `es` is itself a valid code. |
| PresetStore.EffectiveLanguageOfCode | electron/presets_main.js:149-156 | A language that is already a code is its own effective language. |
| PresetStore.LoadDefaultsCombined | electron/presets_main.js:41-51 | For a valid code the defaults are the general list followed by that language's list. |
| PresetStore.WithDisabled | electron/presets_main.js:355-358 | Only the language's disabled list changes. |
| PresetStore.DisableName | electron/presets_main.js:365-367 | Afterwards the language's disabled list holds the name and its old entries, and nothing else. Other languages are untouched. |
| PresetStore.RemoveAt | electron/presets_main.js:365 | `splice(i, 1)` removes exactly the one entry. |
| PresetStore.Create | electron/presets_main.js:268-300 | Create is an upsert. The preset is present afterwards, every other-named preset is kept, and nothing else is added. With unique names, the new preset is the one under its name. |
| PresetStore.CreateKeepsAbsent | electron/presets_main.js:274-279 | Creating a preset with another name never introduces a name that was absent. |
| PresetStore.RemoveFirstNamed | electron/presets_main.js:351-365 | At most one preset is removed, and only when one has the name. Every preset with another name is kept. With unique names, the name is gone afterwards. |
| PresetStore.RemoveNamed | electron/presets_main.js:351-433 | The outcome is `deleted_and_ignored` for a user preset that is also a default, `deleted_custom` for a user-only one, `ignored_default` for a default-only one, and none otherwise. The user entry is removed, a default's name is added to the disabled list, and other languages are untouched. |
| PresetStore.Delete | electron/presets_main.js:301-441 | An empty name gives `NO_NAME`. Otherwise an unconfirmed deletion is `CANCELLED`, and a name that is neither a user preset nor a default gives `NOT_FOUND`. Any other name is deleted as in the shared step. |
| PresetStore.RemovedNotEnabled | electron/presets_main.js:362-412 | After the deletion step, the name is not among the enabled defaults of a list that has it only where the bundled list does. |
| PresetStore.DeleteHidesPreset | electron/presets_main.js:301-441 | After a confirmed deletion the name no longer appears in the renderer's combined list. The renderer's configuration-folder defaults may differ from the bundled ones the request reads, as long as they hold that name only where the bundled ones do. |
| PresetStore.ConfigOnlyDefaultStaysShown | electron/presets_main.js:348-436 | A default that only the configuration copy holds is neither disabled nor removed by a deletion. The request answers `NOT_FOUND` or deletes only the user preset, and the renderer keeps showing the name. |
| PresetStore.EnabledHasName | public/js/presets.js:16-21 | A default name the user has not disabled is enabled. |
| PresetStore.Edit | electron/presets_main.js:569-671 | A missing original name is refused, and an unconfirmed edit is `CANCELLED`. Otherwise the deletion step runs on the original name, then the new preset is upserted. |
| PresetStore.EditShowsNewPreset | electron/presets_main.js:613-621 | After a confirmed edit the new preset is shown, whatever defaults either process reads. |
| PresetStore.EditHidesOriginal | electron/presets_main.js:588-621 | After a confirmed edit that renames, nothing is shown under the original name, when the renderer's defaults hold that name only where the bundled ones do. |
| PresetStore.KeepCustom | electron/presets_main.js:476-483 | Restore keeps exactly the named user presets that do not shadow a default. It reports exactly the shadowing names as removed. |
| PresetStore.KeepDisabled | electron/presets_main.js:491-498 | The disabled list keeps exactly its non-default names and reports the others as re-enabled. |
| PresetStore.PruneDisabled | electron/presets_main.js:500-512 | The language's list is set, and deleted when empty. The map is deleted when it becomes empty. |
| PresetStore.SetOrDrop | electron/presets_main.js:500-506 | An empty list removes the language's entry. |
| PresetStore.Restore | electron/presets_main.js:444-540 | An unconfirmed restore is `CANCELLED`. Otherwise user presets shadowing defaults or unnamed are dropped, and default names leave the disabled list. The removed and re-enabled names are reported, and no empty list or map is left behind. |
| PresetStore.RestoreShowsDefaults | electron/presets_main.js:444-540 | After a restore, every name among the bundled defaults of the language shows the renderer's last default of that name. This holds whichever user preset or disabled entry hid it before. |
| SnapshotNames.KeepSafe | electron/current_text_snapshots_main.js:112 | Only `[A-Za-z0-9_-]` is kept, and every letter and digit survives. |
| SnapshotNames.ReplaceRunsNoDouble | electron/current_text_snapshots_main.js:113 | After collapsing runs, the replacement character never repeats. |
| SnapshotNames.DropLeadingSeps | electron/current_text_snapshots_main.js:114 | Only leading `_` and `-` are dropped, and the result does not start with one. |
| SnapshotNames.DropTrailingSeps | electron/current_text_snapshots_main.js:114 | Only trailing `_` and `-` are dropped, and the result does not end with one. |
| SnapshotNames.CollapseSeparators | electron/current_text_snapshots_main.js:110-113 | The result has only safe characters and no doubled `_` or `-`. It keeps the letters and digits. |
| SnapshotNames.SanitizeSnapshotBaseName | electron/current_text_snapshots_main.js:109-116 | The result is non-empty, has only `[A-Za-z0-9_-]`, no repeated `_` or `-`, and no separator at either end. It keeps the input's letters and digits, and is `current_text` when there are none. |
| SnapshotNames.SanitizeKeepsCleanName | electron/current_text_snapshots_main.js:109-116 | A name that is already clean is kept. |
| SnapshotNames.SanitizeIdempotent | electron/current_text_snapshots_main.js:109-116 | Sanitizing twice is sanitizing once. |
| SnapshotNames.SnapshotNumber | electron/current_text_snapshots_main.js:39 | Only a name longer than `current_text_` plus `.json` can carry a number; its reverse partner is `NumberedNameNumber`. |
| SnapshotNames.MaxNumber | electron/current_text_snapshots_main.js:93-102 | The result bounds every numbered name's number, and is 0 or the number of one of them. |
| SnapshotNames.DefaultSnapshotName | electron/current_text_snapshots_main.js:92-107 | The result is numbered exactly one past the largest listed number, so it clashes with no numbered name in any case. An empty or unreadable folder gives `current_text_1.json`. |
| SnapshotNames.SameLowerSameNumber | electron/current_text_snapshots_main.js:39 | The number is read without regard to case, so names equal up to case carry the same number. |
| SnapshotNames.NumberedNameNumber | electron/current_text_snapshots_main.js:39 | `current_text_<n>.json` reads back as `n`. |
| Snapshots.NonEmpty | electron/current_text_snapshots_main.js:76 | `filter(Boolean)` keeps exactly the non-empty pieces. |
| Snapshots.NormalizeSnapshotRelPath | electron/current_text_snapshots_main.js:69-82 | The result is `''` or a `/`-led path of non-empty segments, none `.` or `..`, ending in `.json` in any case. A non-string or blank input gives `''`. |
| Snapshots.SegmentsOf | electron/current_text_snapshots_main.js:72-76 | The segments hold neither kind of slash and are never empty. |
| Snapshots.RelOf | electron/current_text_snapshots_main.js:77-81 | The rebuilt path is `''` or a valid relative path. |
| Snapshots.NormalizeFixedPoints | electron/current_text_snapshots_main.js:69-82 | Normalisation leaves a string unchanged exactly when it is `''` or a valid relative path. |
| Snapshots.NormalizeIdempotent | electron/current_text_snapshots_main.js:69-82 | Normalising twice is normalising once. |
| Snapshots.CommonPrefixLength | electron/current_text_snapshots_main.js:64 | This is the length of the longest shared leading segment run. |
| Snapshots.Relative | electron/current_text_snapshots_main.js:64 | The relative path has one entry per unshared segment of either path: the `..` steps out of the root, then the steps down. |
| Snapshots.InsideRootIsPrefix | electron/current_text_snapshots_main.js:62-67 | Whatever the check accepts lies inside the folder. |
| Snapshots.PrefixIsInsideRoot | electron/current_text_snapshots_main.js:62-67 | The check accepts every path inside the folder whose first segment below it does not start with `..`. |
| Snapshots.DotDotNamedFileRejected | electron/current_text_snapshots_main.js:66 | The check refuses `..notes.json` directly inside the folder. |
| Snapshots.ChildNamedDotDotRefused | electron/current_text_snapshots_main.js:62-67 | Any child of the folder whose name starts with `..` is refused by the written check. |
| Snapshots.InsideRootExactly | electron/current_text_snapshots_main.js:62-67 | The intended check holds for a resolved path exactly when it lies inside the folder. |
| Snapshots.RelSegments | electron/current_text_snapshots_main.js:87 | A valid relative path gives at least one resolved segment. |
| Snapshots.ResolveSnapshotFromRelPath | electron/current_text_snapshots_main.js:84-90 | An invalid path gives null. A resolved path lies strictly inside the folder and names a `.json` file. |
| Snapshots.ResolveRel | electron/current_text_snapshots_main.js:86-89 | The resolved path is the folder followed by the relative path's segments. |
| Snapshots.ResolvedKeepsSuffix | electron/current_text_snapshots_main.js:80 | The last segment of a valid relative path ends in `.json`. |
| Snapshots.ResolveSnapshotCorrected | electron/current_text_snapshots_main.js:84-90 | With the intended check, every valid relative path resolves strictly inside the folder, and only those do. |
| Snapshots.DotDotNamedRelPathRefused | electron/current_text_snapshots_main.js:84-90 | The valid relative path `/..x.json` is refused as written, though it names a file in the folder. The corrected resolution accepts it. |
| Snapshots.StripBom | electron/current_text_snapshots_main.js:374 | One leading byte-order mark is removed, and nothing else is. |
| Snapshots.SnapshotText | electron/current_text_snapshots_main.js:373-388 | Blank or unparsable content is `INVALID_JSON`. A parsed value without a string `text` is `INVALID_SCHEMA`. Otherwise the snapshot's text is returned. |
| Snapshots.SnapshotTextIgnoresBom | electron/current_text_snapshots_main.js:374 | One byte-order mark in front of content that has none changes nothing. |
| Snapshots.ChooseSnapshot | electron/current_text_snapshots_main.js:333-361 | The chosen file lies inside the folder. A request naming a path is tagged `task-editor`, and a cancelled picker is `CANCELLED`. |
| Snapshots.Load | electron/current_text_snapshots_main.js:321-400 | No folder gives `READ_FAILED`. A loaded snapshot is a confirmed file inside the folder whose content passes the checks. It is tagged `task-editor` exactly when a path was requested. |
| Updater.DigitPrefix | electron/updater.js:34 | This is the longest run of digits at the start. |
| Updater.ParseInt | electron/updater.js:34 | `parseInt` fails exactly when no digit follows the leading white space and an optional sign. |
| Updater.Component | electron/updater.js:34 | A component that does not parse counts as 0. |
| Updater.VersionComponents | electron/updater.js:34-35 | A version has at least one component. |
| Updater.CompareVersions | electron/updater.js:33-44 | The result is 1, 0 or -1. |
| Updater.CompareFromMeaning | electron/updater.js:36-43 | The loop gives 0 exactly when the zero-padded lists agree, and 1 exactly when the first difference is larger on the left. |
| Updater.CompareVersionsAntisymmetric | electron/updater.js:37-43 | Swapping the arguments negates the result. |
| Updater.CompareVersionsReflexive | electron/updater.js:33-44 | Every version equals itself. |
| Updater.CompareVersionsTransitive | electron/updater.js:37-43 | The comparison is transitive, strictly when either step is strict. |
| Updater.TrailingZerosIgnored | electron/updater.js:38-39 | Trailing zero components change no comparison. |
| Updater.DotZeroIgnored | electron/updater.js:38-39 | `v` and `v.0` compare equal, so `"1.2"` equals `"1.2.0"`. |
| Updater.ExtraZeroEqual | electron/updater.js:36-43 | Versions whose components differ only by one trailing 0 compare equal. |
| Updater.CheckForUpdates | electron/updater.js:61-149 | An update is offered exactly when both versions are known, the remote one is newer and a main window exists. Download starts exactly on the first button. Failure and up-to-date dialogs appear only on manual checks with a window. |
| Updater.SameVersionNotOffered | electron/updater.js:99 | The same version is never offered. |
| Updater.OfferIsOneWay | electron/updater.js:99-117 | If `b` is offered over `a`, then `a` is never offered over `b`. |
| Updater.ScheduleInitialCheck | electron/updater.js:152-159 | The automatic check runs exactly when it has not run before. |
| Updater.InitialCheckRunsOnce | electron/updater.js:152-159 | A second scheduling runs nothing. |
| WpmCurve.LinearRunsSum | public/js/wpm_curve.js:60-67 | The linear runs add up to `finalPosCount`. |
| WpmCurve.LinearRunsShape | public/js/wpm_curve.js:66-109 | Every run is at least one long. Runs differ by at most one, with the longer ones first. |
| WpmCurve.AddFloored | public/js/wpm_curve.js:86-94 | Every run grows by the floored share, and the used count adds those shares up. |
| WpmCurve.HandOutLeftover | public/js/wpm_curve.js:96-109 | The leftover positions go one each to the first runs. |
| WpmCurve.AllocateLinearRuns | public/js/wpm_curve.js:60-110 | There is one run per WPM, each at least one long, differing by at most one. Together they equal the reference linear allocation. |
| WpmCurve.BuildTables | public/js/wpm_curve.js:112-122 | `wpmByPos` is the run-length expansion of the runs, and `firstPosByWpm` is their prefix sums. |
| WpmCurve.Expand | public/js/wpm_curve.js:112-122 | The expansion is as long as the runs add up to. |
| WpmCurve.RunOf | public/js/wpm_curve.js:115-121 | Each position lies in exactly one run. |
| WpmCurve.ExpandAt | public/js/wpm_curve.js:115-121 | The WPM at a position is `minWpm` plus the index of its run. |
| WpmCurve.WpmByPos | public/js/wpm_curve.js:112 | There is one WPM per position, `finalPosCount = max(posCount, wpmCount)`. |
| WpmCurve.FirstPosByWpm | public/js/wpm_curve.js:113-116 | A WPM's first position is a valid position. |
| WpmCurve.WpmByPosNonDecreasing | public/js/wpm_curve.js:7 | `wpmByPos` is non-decreasing. |
| WpmCurve.WpmByPosInRange | public/js/wpm_curve.js:112-122 | Every position shows a WPM in `[minWpm, maxWpm]`. |
| WpmCurve.FirstPosShowsWpm | public/js/wpm_curve.js:9 | Every WPM in the range occurs in the table, at its first position. |
| WpmCurve.NothingBeforeFirstPos | public/js/wpm_curve.js:113-116 | No earlier position shows that WPM or a larger one. |
| WpmCurve.Build | public/js/wpm_curve.js:35-158 | Construction fails exactly on an invalid WPM range, an invalid control range or a non-positive step, checked in that order; valid arguments always build. A built mapper is valid, its `posCount` spans the control range, and its runs differ by at most one, the longer ones first. |
| WpmCurve.Assemble | public/js/wpm_curve.js:60-122 | A checked range yields a valid mapper whose `posCount` spans the control range. |
| WpmCurve.ClampInt | public/js/wpm_curve.js:12-16 | The result lies in `[lo, hi]`. Non-finite input gives `lo`, and an input inside the range is rounded. |
| WpmCurve.ClampReal | public/js/wpm_curve.js:18-22 | The result lies in `[lo, hi]`. Non-finite input gives `lo`, and an input inside the range is kept. |
| WpmCurve.ControlToPosWithin | public/js/wpm_curve.js:124-129 | A control maps to a valid position. |
| WpmCurve.ClampedPos | public/js/wpm_curve.js:124-129 | The position never exceeds the last one. |
| WpmCurve.WpmFromControl | public/js/wpm_curve.js:137-140 | The WPM shown for any control lies in `[minWpm, maxWpm]`. |
| WpmCurve.ControlFromWpm | public/js/wpm_curve.js:142-147 | The control is that of a slider position that shows the clamped WPM, with every earlier position showing a smaller WPM: the first position of that WPM. It is at least `minControl`. |
| WpmCurve.ControlOfPosMapsBack | public/js/wpm_curve.js:124-135 | A position within the control span maps back to itself through its control. |
| WpmCurve.ShowsPosition | public/js/wpm_curve.js:137-140 | The control of such a position shows that position's WPM. |
| WpmCurve.RoundTrip | public/js/wpm_curve.js:137-147 | When `posCount >= wpmCount`, `wpmFromControl(controlFromWpm(w))` is the clamped `w`. |
| WpmCurve.WpmOfControlOfWpm | public/js/wpm_curve.js:142-147 | A WPM's first-position control shows that WPM. |
| WpmCurve.TopWpmUnreachable | public/js/wpm_curve.js:124-140 | When `posCount < wpmCount`, no control shows `maxWpm`, against the promise that every WPM is reachable. |
| WpmCurve.StepTwoNeverShowsTop | public/js/wpm_curve.js:35-147 | WPM 50–60 on a control 50–60 with step 2 builds, but never shows 60. |
| WpmCurve.CoveringControlMax | public/js/wpm_curve.js:125 | The corrected upper clamp lies at or above `minControl`. |
| WpmCurve.WpmFromControlCovering | public/js/wpm_curve.js:137-140 | With the corrected clamp, the shown WPM still lies in `[minWpm, maxWpm]`. |
| WpmCurve.ControlOfPosMapsBackCovering | public/js/wpm_curve.js:124-135 | With the corrected clamp every position maps back to itself. |
| WpmCurve.CoveringRoundTrip | public/js/wpm_curve.js:137-147 | With the corrected clamp the round trip holds for every mapper, so every WPM is reachable. |
| WpmCurve.ShowsPositionCovering | public/js/wpm_curve.js:137-140 | With the corrected clamp, every position's control shows that position's WPM. |
| WpmCurve.WpmOfControlOfWpmCovering | public/js/wpm_curve.js:137-147 | With the corrected clamp, the control of every WPM in the range shows that WPM. |

## Left out

- I/O is not modelled: window creation, dialogs, focus, notifications, `execCommand`, IPC sends, file reads and writes, `https`, `shell` and the timers (the crono broadcast interval, the input debounce). The decisions around them are modelled, and their results are parameters.
- `fetchRemoteVersion`, `copyDefaultPresetsIfMissing`, `loadPresetArrayFromJs` and `open-default-presets-folder` are left out. They are network or file-system glue; the version texts and default lists are inputs.
- The save, select and folder-listing handlers of the snapshot module are left out, as is `normalizeSavePath`. They are file-system and `path` glue around the modelled name rules. `realpath` and `stat` failures become "not in `files`" or "a directory".
- Paths are modelled as resolved segment lists. `path.resolve`, `path.isAbsolute` and platform separators are left out, and the load handler's `snapshotRelPath` reply is not modelled.
- `Intl.Segmenter` and `localeCompare` are parameters. So are `JSON.parse` and `JSON.stringify`. `String(...)` is modelled for strings, falsy values, `true`, the infinities and whole numbers; for fractional numbers, objects, arrays and functions it is a parameter.
- Floating point is exact here. `getStepPrecision` and `roundToPrecision` (`toFixed`) are left out, so `posIndexToControl` returns the exact control.
- Js.StringToNumber: covers optionally signed decimals and `Infinity`. Exponent notation (`1e3`) and the `0x`/`0o`/`0b` prefixes read as NaN here, where `Number` accepts them.
- Js.ToNumber: a number inside an array is taken to read back as itself, as JavaScript's shortest round-trip `String(n)` guarantees. An object with its own `valueOf` or `toString` method converts like a plain object, to NaN.
- Presets.Preset: a preset whose `name` is missing is not modelled. `combinePresets` would throw on it, because it calls `localeCompare` on every name. The empty string stands for the empty name that the main process's `!p.name` tests refuse.
- WpmCurve.Build: `buildDiscreteWpmMapper`'s destructuring defaults, `controlStep = 1` and the default curve, are explicit arguments here.
- PresetStore: the bundled defaults the requests read and the configuration-folder copies the renderer combines are separate inputs. Lemmas about what the renderer shows state how far the two must agree.
- The exponential curve of `buildDiscreteWpmMapper` is left out because it relies on `Math.exp` weights. So is the sort's tie-breaking that only matters for it. With the linear curve all remainders are equal and the stable sort keeps index order.
- `createMapperFromConstants` is left out. It only supplies defaults to the modelled builder.
- SnapshotNames.MaxNumber: a digit run so long that `Number` gives `Infinity` is skipped by the source but counted here, because numbers are unbounded.
- Lower-casing covers ASCII only. Lone surrogates are not distinguished from other characters.
- Count: the grapheme and word segmentations are inputs. Only their counting is modelled.
- `contarTexto` on a non-string text and the other non-string payloads of the IPC handlers are left out, except where the source branches on the type.
- Editor: the native `execCommand` path versus the `setRangeText`/assignment fallbacks are treated as one outcome, the resulting value. `onForceClear` and the editor's own translation loading are left out.
- MainProcess.SetElapsed: requires a finite or NaN argument. An infinite argument, which the source would store, is not modelled, because the shown time is an exact real.
- MainProcess.ElapsedArgument: requires a finite or NaN argument, for the same reason.
- Editor: `maxTextChars` is a natural number. A fractional limit from `applyConfig` would need rounding that `slice` performs, and is not modelled.
- PresetStore: a preset's fields other than its name are not inspected. Settings are persisted by a store that is not part of this model.
- The preset form's number inputs are texts read by `Number(...)`. The browser's own sanitising of `type=number` inputs is not modelled, and the `${v}` rendering of a WPM is a parameter.
- PresetModal: alerts and `window.close` are reduced to outcomes. The `presetAPI` callbacks' asynchrony is left out.
- Updater: the dialog texts and their `{local}`/`{remote}` substitution are left out.

## Findings

| source | as written | input that shows it | evidently intended | confidence | as-written member | corrected member |
|---|---|---|---|---|---|---|
| public/js/wpm_curve.js:124-129 | The control is clamped to `maxControl`, so only the first `posCount` positions can be reached, though `finalPosCount` may be larger. | WPM 50–60, control 50–60, step 2: six positions for eleven WPM values, and 60 is never shown. | Every WPM in the range is reachable (line 9): the clamp should reach the last position. | not executed; high | WpmCurve.TopWpmUnreachable | WpmCurve.CoveringRoundTrip |
| electron/current_text_snapshots_main.js:62-67 | `rel.startsWith('..')` also refuses a child whose name begins with two dots. | `/..notes.json`, a valid relative path naming a file in the folder, resolves to null. | Refuse only a first segment equal to `..`. | not executed; high | Snapshots.DotDotNamedRelPathRefused | Snapshots.ResolveSnapshotCorrected |
| electron/log.js:7-10 | `LEVELS[s] !== undefined` is true for the inherited keys `constructor` and `__proto__`. The level then compares as NaN and the gate lets nothing through. | `TOT_LOG_LEVEL=constructor` silences every message. | Only the five own keys are level names; anything else is `warn`. | not executed; high | Log.SetLevelConstructorSilences | Log.SetLevelCorrected |
| public/editor.js:470-494 | The small `append_newline` path returns without reporting a cut. | The current text plus a tail crosses the limit by less than 200,000 characters. | A cut is reported on every path that stores a cut text, as the other paths do. | not executed; medium | Editor.AppendCutNotReported | Editor.ExternalUpdateCorrected |
| public/preset_modal.js:63-68 | The check `wpm <= 0` runs before rounding, so a WPM in (0, 0.5) passes and is saved as 0. | The WPM text `"0.4"` with any name. | The saved WPM is positive: refuse a WPM that rounds below 1. | not executed; medium | PresetModal.SmallWpmRoundsToZero | PresetModal.ValidateCorrected |

=== FILE: constants.dfy ===
/** The renderer's shared constants and the `applyConfig` rule that picks the
    effective text limit (public/js/constants.js). */
module AppConstants {
  import opened Js

  const DefaultLang: string := "es"
  /** The renderer's fallback text limit, used until the main process sends its own. */
  const MaxTextChars: nat := 10_000_000
  const PasteAllowLimit: nat := 10_000
  const SmallUpdateThreshold: nat := 200_000
  const WpmMin: nat := 50
  const WpmMax: nat := 500
  const PresetNameMax: nat := 20
  const PresetDescMax: nat := 120

  /** `applyConfig` throws a `TypeError` when called with `null`. */
  datatype ConfigError = NullConfig

  /** `applyConfig(cfg)`: `Number(cfg.maxTextChars)` when that is finite and positive,
      else the default limit. A missing argument is `{}`. The value is not rounded. */
  function ApplyConfig(cfg: Value): (r: Result<real, ConfigError>)
    ensures r.Err? <==> cfg.Null?
    ensures r.Ok? ==> r.value > 0.0
    ensures r.Ok? ==>
              (var n := ToNumber(Get(cfg, "maxTextChars"));
               if n.Finite? && n.value > 0.0 then r.value == n.value else r.value == MaxTextChars as real)
  {
    if cfg.Null? then Err(NullConfig)
    else
      var max := ToNumber(Get(cfg, "maxTextChars"));
      if max.Finite? && max.value > 0.0 then Ok(max.value) else Ok(MaxTextChars as real)
  }

  /** The rule keeps a configured limit exactly and ignores a missing, zero,
      negative or non-numeric one. */
  lemma ApplyConfigCases(limit: real)
    ensures ApplyConfig(Obj(map["maxTextChars" := Num(Finite(limit))])) ==
              Ok(if limit > 0.0 then limit else MaxTextChars as real)
    ensures ApplyConfig(Undefined) == Ok(MaxTextChars as real)
    ensures ApplyConfig(Obj(map["maxTextChars" := Num(NaN)])) == Ok(MaxTextChars as real)
    ensures ApplyConfig(Obj(map["maxTextChars" := Num(PosInf)])) == Ok(MaxTextChars as real)
  {
  }

  /** A limit sent inside a one-element array counts as the limit itself, because
      `Number` reads the array's joined text; an empty array, or one with two
      limits, gives the default. */
  lemma ApplyConfigArrays(limit: real, other: Value)
    ensures ApplyConfig(Obj(map["maxTextChars" := Arr([Num(Finite(limit))])])) ==
              Ok(if limit > 0.0 then limit else MaxTextChars as real)
    ensures ApplyConfig(Obj(map["maxTextChars" := Arr([])])) == Ok(MaxTextChars as real)
    ensures ApplyConfig(Obj(map["maxTextChars" := Arr([Num(Finite(limit)), other])])) == Ok(MaxTextChars as real)
  {
  }

  /** Applying the rule to its own result as a configuration gives it back. */
  lemma ApplyConfigIdempotent(cfg: Value)
    requires !cfg.Null?
    ensures ApplyConfig(Obj(map["maxTextChars" := Num(Finite(ApplyConfig(cfg).value))])) == ApplyConfig(cfg)
  {
  }
}

=== FILE: count.dfy ===
/** Character and word counts (public/js/count.js). Here a text is a sequence of
    Unicode scalar values (one `char` per code point), so that the simple mode's
    UTF-16 length and the fallback's code-point count can be told apart.
    `Intl.Segmenter` is a parameter: its grapheme and word segmentations are given
    as functions of the text and the language. */
module Count {
  import opened Strings
  import opened Js
  import AppConstants

  /** `{ conEspacios, sinEspacios, palabras }`. */
  datatype Counts = Counts(withSpaces: nat, withoutSpaces: nat, words: nat)

  // ---------------------------------------------------------------------------
  // Lengths
  // ---------------------------------------------------------------------------

  /** The number of UTF-16 code units of one code point. */
  function Utf16Units(c: char): (n: nat)
    ensures n == 1 || n == 2
  {
    if c as int >= 0x1_0000 then 2 else 1
  }

  /** `s.length`: UTF-16 code units. */
  function Utf16Length(s: string): (n: nat)
    ensures |s| <= n <= 2 * |s|
  {
    if s == [] then 0 else Utf16Units(s[0]) + Utf16Length(s[1..])
  }

  /** `s.replace(/\s+/g, '')`: every non-white-space character is kept as often as
      it occurs, and no white space is. */
  function RemoveSpaces(s: string): (r: string)
    ensures |r| <= |s|
    ensures forall i | 0 <= i < |r| :: !IsSpace(r[i])
    ensures forall c | c in r :: c in s
    ensures AllSpace(s) <==> r == []
  {
    if s == [] then []
    else if IsSpace(s[0]) then RemoveSpaces(s[1..])
    else [s[0]] + RemoveSpaces(s[1..])
  }

  /** Each non-white-space character stays as often as it occurs. */
  lemma {:induction false} RemoveSpacesKeepsNonSpace(s: string)
    ensures forall c | !IsSpace(c) :: multiset(RemoveSpaces(s))[c] == multiset(s)[c]
  {
    if s != [] {
      RemoveSpacesKeepsNonSpace(s[1..]);
      assert s == [s[0]] + s[1..];
      assert multiset(s) == multiset{s[0]} + multiset(s[1..]);
      if !IsSpace(s[0]) {
        assert multiset(RemoveSpaces(s)) == multiset{s[0]} + multiset(RemoveSpaces(s[1..]));
      }
    }
  }

  /** Removing white space from a text with one more character at the end. */
  lemma {:induction false} RemoveSpacesSnoc(a: string, c: char)
    ensures RemoveSpaces(a + [c]) == RemoveSpaces(a) + (if IsSpace(c) then [] else [c])
    decreases |a|
  {
    if a == [] {
      assert a + [c] == [c];
      assert [c][1..] == [];
    } else {
      var s := a + [c];
      var tail: string := if IsSpace(c) then [] else [c];
      assert s[0] == a[0];
      assert s[1..] == a[1..] + [c];
      RemoveSpacesSnoc(a[1..], c);
      if !IsSpace(a[0]) {
        calc {
          RemoveSpaces(s);
          [a[0]] + RemoveSpaces(a[1..] + [c]);
          [a[0]] + (RemoveSpaces(a[1..]) + tail);
          ([a[0]] + RemoveSpaces(a[1..])) + tail;
        }
      }
    }
  }

  /** The positions of `s` whose element satisfies `p`. */
  function Positions<T>(s: seq<T>, p: T -> bool): set<nat> {
    set i: nat | i < |s| && p(s[i])
  }

  /** The positions of the non-white-space characters: the reference meaning of
      `sinEspacios` in code points. */
  function NonSpacePositions(s: string): set<nat> {
    Positions(s, c => !IsSpace(c))
  }

  /** Those of them holding a character outside the Basic Multilingual Plane, which
      takes two UTF-16 units. */
  function AstralNonSpacePositions(s: string): set<nat> {
    Positions(s, c => !IsSpace(c) && c as int >= 0x1_0000)
  }

  /** `length` of the text without white space: one unit per non-white-space code
      point, and a second one for each astral one. */
  lemma {:induction false} RemoveSpacesCounts(s: string)
    ensures |RemoveSpaces(s)| == |NonSpacePositions(s)|
    ensures Utf16Length(RemoveSpaces(s)) == |NonSpacePositions(s)| + |AstralNonSpacePositions(s)|
    decreases |s|
  {
    if s != [] {
      var n := |s| - 1;
      var a := s[..n];
      var c := s[n];
      assert s == a + [c];
      RemoveSpacesCounts(a);
      RemoveSpacesSnoc(a, c);
      var tail: string := if IsSpace(c) then [] else [c];
      Utf16LengthAppend(RemoveSpaces(a), tail);
      PositionsSnoc(a, c, c => !IsSpace(c));
      PositionsSnoc(a, c, c => !IsSpace(c) && c as int >= 0x1_0000);
      if !IsSpace(c) {
        assert Utf16Length(tail) == Utf16Units(c) by { assert tail[1..] == []; }
      }
    }
  }

  /** One more element at the end adds its position when it satisfies `p`. */
  lemma PositionsSnoc<T>(a: seq<T>, c: T, p: T -> bool)
    ensures |Positions(a + [c], p)| == |Positions(a, p)| + (if p(c) then 1 else 0)
  {
    var s := a + [c];
    var n := |a|;
    var extra: set<nat> := if p(c) then {n} else {};
    assert Positions(s, p) == Positions(a, p) + extra by {
      forall i: nat ensures i in Positions(s, p) <==> i in Positions(a, p) + extra {
        if i < n { assert s[i] == a[i]; }
      }
    }
  }

  /** UTF-16 length adds up over concatenation. */
  lemma {:induction false} Utf16LengthAppend(a: string, b: string)
    ensures Utf16Length(a + b) == Utf16Length(a) + Utf16Length(b)
    decreases |a|
  {
    if a == [] {
      assert a + b == b;
    } else {
      assert (a + b)[0] == a[0];
      assert (a + b)[1..] == a[1..] + b;
      Utf16LengthAppend(a[1..], b);
    }
  }

  lemma {:induction false} RemoveSpacesShorter(s: string)
    ensures Utf16Length(RemoveSpaces(s)) <= Utf16Length(s)
  {
    if s != [] {
      RemoveSpacesShorter(s[1..]);
      if !IsSpace(s[0]) {
        assert ([s[0]] + RemoveSpaces(s[1..]))[1..] == RemoveSpaces(s[1..]);
      }
    }
  }

  // ---------------------------------------------------------------------------
  // Words
  // ---------------------------------------------------------------------------

  /** The number of maximal runs of non-white-space characters, `prevSpace` saying
      whether the character before `s` was white space. This is the reference
      meaning of a word count. */
  function WordRuns(s: string, prevSpace: bool): nat {
    if s == [] then 0
    else (if !IsSpace(s[0]) && prevSpace then 1 else 0) + WordRuns(s[1..], IsSpace(s[0]))
  }

  /** `t.split(/\s+/)`: the pieces between maximal runs of white space. */
  function SplitOnSpaces(t: string): (parts: seq<string>)
    ensures |parts| >= 1
    decreases |t|
  {
    if t == [] then [""]
    else if IsSpace(t[0]) then
      var rest := TrimStart(t);
      assert |rest| < |t|;
      [""] + SplitOnSpaces(rest)
    else
      var rest := SplitOnSpaces(t[1..]);
      [[t[0]] + rest[0]] + rest[1..]
  }

  /** The word count both simple modes compute: 0 for blank text, else the number
      of pieces of the trimmed text split on white space. */
  function CountWords(s: string): (n: nat)
    ensures n == 0 <==> AllSpace(s)
    ensures n == WordRuns(s, true)
  {
    var t := Trim(s);
    if t == [] then
      WordRunsOfSpaces(s, true);
      0
    else
      SplitCountsWords(t);
      WordRunsOfTrim(s);
      assert WordRuns(t, true) == 1 + WordRuns(t, false);
      |SplitOnSpaces(t)|
  }

  predicate EndsWithSpace(t: string) { t != [] && IsSpace(t[|t| - 1]) }

  /** Splitting on white space gives one piece more than there are white-space runs:
      one per word run not at the start, plus one for a trailing run. */
  lemma {:induction false} SplitCountsWords(t: string)
    ensures |SplitOnSpaces(t)| == 1 + WordRuns(t, false) + (if EndsWithSpace(t) then 1 else 0)
    decreases |t|
  {
    if t == [] {
    } else if IsSpace(t[0]) {
      var u := TrimStart(t);
      assert |u| < |t|;
      SplitCountsWords(u);
      var d := |t| - |u|;
      assert t == t[..d] + u;
      WordRunsAfterSpaces(t[..d], u, false);
      if u == [] {
        assert AllSpace(t);
        WordRunsOfSpaces(t, false);
      } else {
        assert t[|t| - 1] == u[|u| - 1];
      }
    } else {
      SplitCountsWords(t[1..]);
      if |t| == 1 {
        assert t[1..] == [];
      } else {
        assert t[|t| - 1] == t[1..][|t[1..]| - 1];
      }
    }
  }

  lemma {:induction false} WordRunsOfSpaces(s: string, p: bool)
    requires AllSpace(s)
    ensures WordRuns(s, p) == 0
  {
    if s != [] {
      WordRunsOfSpaces(s[1..], true);
    }
  }

  /** After a non-empty run of white space the count starts as after a space. */
  lemma {:induction false} WordRunsAfterSpaces(spaces: string, u: string, p: bool)
    requires spaces != [] && AllSpace(spaces)
    ensures WordRuns(spaces + u, p) == WordRuns(u, true)
    decreases |spaces|
  {
    assert (spaces + u)[1..] == spaces[1..] + u;
    if |spaces| > 1 {
      WordRunsAfterSpaces(spaces[1..], u, true);
    } else {
      assert spaces[1..] + u == u;
    }
  }

  /** White space appended at the end adds no word run. */
  lemma {:induction false} WordRunsBeforeSpaces(u: string, spaces: string, p: bool)
    requires AllSpace(spaces)
    ensures WordRuns(u + spaces, p) == WordRuns(u, p)
    decreases |u|
  {
    if u == [] {
      assert u + spaces == spaces;
      WordRunsOfSpaces(spaces, p);
    } else {
      assert (u + spaces)[1..] == u[1..] + spaces;
      WordRunsBeforeSpaces(u[1..], spaces, IsSpace(u[0]));
    }
  }

  /** Trimming does not change the word runs. */
  lemma WordRunsOfTrim(s: string)
    ensures WordRuns(Trim(s), true) == WordRuns(s, true)
  {
    WordRunsOfTrimStart(s);
    WordRunsOfTrimEnd(TrimStart(s));
  }

  lemma WordRunsOfTrimStart(s: string)
    ensures WordRuns(TrimStart(s), true) == WordRuns(s, true)
  {
    var a := TrimStart(s);
    var d := |s| - |a|;
    assert s == s[..d] + a;
    if d > 0 {
      WordRunsAfterSpaces(s[..d], a, true);
    }
  }

  lemma WordRunsOfTrimEnd(a: string)
    ensures WordRuns(TrimEnd(a), true) == WordRuns(a, true)
  {
    var t := TrimEnd(a);
    assert a == t + a[|t|..];
    WordRunsBeforeSpaces(t, a[|t|..], true);
  }

  // ---------------------------------------------------------------------------
  // The three strategies
  // ---------------------------------------------------------------------------

  /** `contarTextoSimple`. */
  function CountSimple(s: string): (c: Counts)
    ensures c.withSpaces == Utf16Length(s)
    ensures c.withoutSpaces == |NonSpacePositions(s)| + |AstralNonSpacePositions(s)|
    ensures c.withoutSpaces <= c.withSpaces
    ensures AllSpace(s) ==> c.withoutSpaces == 0
    ensures c.words == WordRuns(s, true)
    ensures c.words == 0 <==> AllSpace(s)
  {
    RemoveSpacesShorter(s);
    RemoveSpacesCounts(s);
    Counts(Utf16Length(s), Utf16Length(RemoveSpaces(s)), CountWords(s))
  }

  /** `contarTextoPrecisoFallback`: code points instead of UTF-16 units. */
  function CountFallback(s: string): (c: Counts)
    ensures c.withSpaces == |s|
    ensures c.withoutSpaces == |NonSpacePositions(s)| <= c.withSpaces
    ensures c.words == WordRuns(s, true)
  {
    RemoveSpacesCounts(s);
    Counts(|s|, |RemoveSpaces(s)|, CountWords(s))
  }

  /** For text without characters outside the Basic Multilingual Plane the simple
      and fallback counts coincide; otherwise they agree on words only. */
  lemma SimpleAgreesWithFallback(s: string)
    ensures CountSimple(s).words == CountFallback(s).words
    ensures (forall i | 0 <= i < |s| :: s[i] as int < 0x1_0000) ==> CountSimple(s) == CountFallback(s)
  {
    if forall i | 0 <= i < |s| :: s[i] as int < 0x1_0000 {
      BmpLength(s);
      var r := RemoveSpaces(s);
      forall i | 0 <= i < |r| ensures r[i] as int < 0x1_0000 {
        assert r[i] in s;
      }
      BmpLength(r);
    }
  }

  lemma {:induction false} BmpLength(s: string)
    requires forall i | 0 <= i < |s| :: s[i] as int < 0x1_0000
    ensures Utf16Length(s) == |s|
  {
    if s != [] {
      BmpLength(s[1..]);
    }
  }

  /** A segment of the word segmentation. */
  datatype WordSegment = WordSegment(segment: string, isWordLike: bool)

  /** `/\s/.test(g)`: the segment holds some white space. */
  predicate HasSpace(g: string) { exists i | 0 <= i < |g| :: IsSpace(g[i]) }

  function CountWithoutSpace(gs: seq<string>): (n: nat)
    ensures n <= |gs|
  {
    if gs == [] then 0 else (if HasSpace(gs[0]) then 0 else 1) + CountWithoutSpace(gs[1..])
  }

  /** Every grapheme is counted "without spaces" exactly when none holds white space. */
  lemma {:induction false} CountWithoutSpaceAll(gs: seq<string>)
    ensures CountWithoutSpace(gs) == |gs| <==> forall i | 0 <= i < |gs| :: !HasSpace(gs[i])
  {
    if gs != [] {
      CountWithoutSpaceAll(gs[1..]);
      if forall i | 0 <= i < |gs[1..]| :: !HasSpace(gs[1..][i]) {
        if !HasSpace(gs[0]) {
          forall i | 0 <= i < |gs| ensures !HasSpace(gs[i]) {
            if i > 0 { assert gs[i] == gs[1..][i - 1]; }
          }
        }
      } else {
        var i :| 0 <= i < |gs[1..]| && HasSpace(gs[1..][i]);
        assert HasSpace(gs[i + 1]);
      }
    }
  }

  function CountWordLike(ws: seq<WordSegment>): (n: nat)
    ensures n <= |ws|
  {
    if ws == [] then 0 else (if ws[0].isWordLike then 1 else 0) + CountWordLike(ws[1..])
  }

  /** The positions of the graphemes without white space: the reference meaning of
      `sinEspacios` in the precise mode. */
  function SpaceFreePositions(gs: seq<string>): set<nat> {
    Positions(gs, (g: string) => !HasSpace(g))
  }

  /** The positions of the word-like segments: the reference meaning of `palabras`
      in the precise mode. */
  function WordLikePositions(ws: seq<WordSegment>): set<nat> {
    Positions(ws, (w: WordSegment) => w.isWordLike)
  }

  lemma {:induction false} CountWithoutSpaceAppend(a: seq<string>, b: seq<string>)
    ensures CountWithoutSpace(a + b) == CountWithoutSpace(a) + CountWithoutSpace(b)
    decreases |a|
  {
    if a == [] {
      assert a + b == b;
    } else {
      assert (a + b)[0] == a[0];
      assert (a + b)[1..] == a[1..] + b;
      CountWithoutSpaceAppend(a[1..], b);
    }
  }

  /** The "without spaces" count is the number of graphemes holding no white space. */
  lemma {:induction false} CountWithoutSpacePositions(gs: seq<string>)
    ensures CountWithoutSpace(gs) == |SpaceFreePositions(gs)|
    decreases |gs|
  {
    if gs != [] {
      var n := |gs| - 1;
      assert gs == gs[..n] + [gs[n]];
      CountWithoutSpacePositions(gs[..n]);
      CountWithoutSpaceAppend(gs[..n], [gs[n]]);
      assert [gs[n]][1..] == [];
      PositionsSnoc(gs[..n], gs[n], (g: string) => !HasSpace(g));
    }
  }

  lemma {:induction false} CountWordLikeAppend(a: seq<WordSegment>, b: seq<WordSegment>)
    ensures CountWordLike(a + b) == CountWordLike(a) + CountWordLike(b)
    decreases |a|
  {
    if a == [] {
      assert a + b == b;
    } else {
      assert (a + b)[0] == a[0];
      assert (a + b)[1..] == a[1..] + b;
      CountWordLikeAppend(a[1..], b);
    }
  }

  /** The word count is the number of word-like segments. */
  lemma {:induction false} CountWordLikePositions(ws: seq<WordSegment>)
    ensures CountWordLike(ws) == |WordLikePositions(ws)|
    decreases |ws|
  {
    if ws != [] {
      var n := |ws| - 1;
      assert ws == ws[..n] + [ws[n]];
      CountWordLikePositions(ws[..n]);
      CountWordLikeAppend(ws[..n], [ws[n]]);
      assert [ws[n]][1..] == [];
      PositionsSnoc(ws[..n], ws[n], (w: WordSegment) => w.isWordLike);
    }
  }

  /** No word is counted exactly when no segment is word-like. */
  lemma {:induction false} CountWordLikeNone(ws: seq<WordSegment>)
    ensures CountWordLike(ws) == 0 <==> forall i | 0 <= i < |ws| :: !ws[i].isWordLike
  {
    CountWordLikePositions(ws);
    if forall i | 0 <= i < |ws| :: !ws[i].isWordLike {
      assert WordLikePositions(ws) == {};
    } else {
      var i :| 0 <= i < |ws| && ws[i].isWordLike;
      assert i in WordLikePositions(ws);
    }
  }

  /** `contarTextoPreciso`: with a segmenter, graphemes and word-like segments;
      without one, the fallback. */
  function CountPrecise(s: string, language: string, hasSegmenter: bool,
                        graphemes: (string, string) -> seq<string>,
                        words: (string, string) -> seq<WordSegment>): (c: Counts)
    ensures c.withoutSpaces <= c.withSpaces
    ensures !hasSegmenter ==> c == CountFallback(s)
    ensures hasSegmenter ==> c.withSpaces == |graphemes(s, language)|
                             && c.words <= |words(s, language)|
    ensures hasSegmenter ==> c.withoutSpaces == CountWithoutSpace(graphemes(s, language))
                             && c.words == CountWordLike(words(s, language))
    ensures hasSegmenter ==> c.withoutSpaces == |SpaceFreePositions(graphemes(s, language))|
                             && c.words == |WordLikePositions(words(s, language))|
  {
    if !hasSegmenter then CountFallback(s)
    else
      var gs := graphemes(s, language);
      CountWithoutSpacePositions(gs);
      CountWordLikePositions(words(s, language));
      Counts(|gs|, CountWithoutSpace(gs), CountWordLike(words(s, language)))
  }

  /** `contarTexto`: only the exact mode `"simple"` selects the simple count; any
      other mode, or none, is precise. An empty or missing language is the
      default one. */
  function CountText(s: string, mode: Option<string>, language: Option<string>, hasSegmenter: bool,
                     graphemes: (string, string) -> seq<string>,
                     words: (string, string) -> seq<WordSegment>): (c: Counts)
    ensures mode == Some("simple") ==> c == CountSimple(s)
    ensures mode != Some("simple") ==>
              c == CountPrecise(s, if language.Some? && language.value != "" then language.value else AppConstants.DefaultLang,
                                hasSegmenter, graphemes, words)
  {
    if mode == Some("simple") then CountSimple(s)
    else
      var lang := if language.Some? && language.value != "" then language.value else AppConstants.DefaultLang;
      CountPrecise(s, lang, hasSegmenter, graphemes, words)
  }
}

=== FILE: editor.dfy ===
/** The text-limit rules of the editor window (public/editor.js): capped insertion
    at the caret, the splice fallback, the handling of updates pushed by the main
    process, and the paste, drop and typing limits. The editor is its value and
    its selection; notifications, focus and the native `execCommand` path are
    reduced to the value they leave behind. */
module Editor {
  import opened Js
  import opened Strings
  import AppConstants

  /** The textarea: its value and its selection `[start, end)`. */
  datatype TextArea = TextArea(value: string, start: nat, end: nat)

  predicate ValidArea(e: TextArea) { e.start <= e.end <= |e.value| }

  // ---------------------------------------------------------------------------
  // Insertion at the selection
  // ---------------------------------------------------------------------------

  /** `tryNativeInsertAtSelection`: the selection is replaced by `text` and the caret
      put right after it. `insertText`, `setRangeText` and the splice fallback
      `before + text + after` all leave this value. */
  function InsertAtSelection(e: TextArea, text: string): (d: TextArea)
    requires ValidArea(e)
    ensures ValidArea(d)
    ensures |d.value| == |e.value| - (e.end - e.start) + |text|
    ensures d.value[..e.start] == e.value[..e.start]
    ensures d.value[e.start..e.start + |text|] == text
    ensures d.value[e.start + |text|..] == e.value[e.end..]
    ensures d.start == d.end == e.start + |text|
  {
    var before := e.value[..e.start];
    var after := e.value[e.end..];
    var v := before + text + after;
    assert v[..e.start] == before;
    assert v[e.start..e.start + |text|] == text;
    assert v[e.start + |text|..] == after;
    TextArea(v, e.start + |text|, e.start + |text|)
  }

  /** Taking the inserted text back out restores the text around the selection. */
  lemma InsertionIsUndone(e: TextArea, text: string)
    requires ValidArea(e)
    ensures var d := InsertAtSelection(e, text);
            d.value[..e.start] + d.value[d.end..] == e.value[..e.start] + e.value[e.end..]
  {
  }

  /** `{ inserted, truncated }` as `insertTextAtCursor` reports it. */
  datatype InsertReport = InsertReport(inserted: nat, truncated: bool)

  /** `insertTextAtCursor(rawText)` under the limit `maxTextChars`: with no room left
      nothing happens; otherwise the longest prefix of the text that fits the
      remaining room is inserted. */
  function InsertTextAtCursor(e: TextArea, rawText: string, maxTextChars: nat): (res: (InsertReport, TextArea))
    requires ValidArea(e)
    ensures var (rep, d) := res;
            && ValidArea(d)
            && rep.inserted <= |rawText|
            && (maxTextChars <= |e.value| ==> rep == InsertReport(0, false) && d == e)
            && (maxTextChars > |e.value| ==>
                  && rep.inserted <= maxTextChars - |e.value|
                  && (rep.truncated <==> |rawText| > maxTextChars - |e.value|)
                  && (rep.truncated ==> rep.inserted == maxTextChars - |e.value|)
                  && (!rep.truncated ==> rep.inserted == |rawText|)
                  && d == InsertAtSelection(e, rawText[..rep.inserted])
                  && |d.value| <= maxTextChars)
  {
    var available := maxTextChars - |e.value|;
    if available <= 0 then (InsertReport(0, false), e)
    else
      var toInsert := if |rawText| > available then rawText[..available] else rawText;
      (InsertReport(|toInsert|, |rawText| > available), InsertAtSelection(e, toInsert))
  }

  /** Inserting never pushes a text that was within the limit over it, and the
      inserted part is the start of what was asked for. */
  lemma InsertKeepsLimit(e: TextArea, rawText: string, maxTextChars: nat)
    requires ValidArea(e) && |e.value| <= maxTextChars
    ensures var (rep, d) := InsertTextAtCursor(e, rawText, maxTextChars);
            && |d.value| <= maxTextChars
            && rep.inserted <= |rawText|
            && d.value[e.start..e.start + rep.inserted] == rawText[..rep.inserted]
  {
  }

  // ---------------------------------------------------------------------------
  // Limits on paste, drop and typing
  // ---------------------------------------------------------------------------

  /** `value.slice(0, maxTextChars)` applied only when the value is over the limit. */
  function EnforceLimit(value: string, maxTextChars: nat): (r: string)
    ensures |r| <= maxTextChars || r == value
    ensures |value| <= maxTextChars ==> r == value
    ensures |value| > maxTextChars ==> |r| == maxTextChars && StartsWith(value, r)
  {
    if |value| > maxTextChars then value[..maxTextChars] else value
  }

  lemma EnforceLimitIdempotent(value: string, maxTextChars: nat)
    ensures EnforceLimit(EnforceLimit(value, maxTextChars), maxTextChars) == EnforceLimit(value, maxTextChars)
    ensures |EnforceLimit(value, maxTextChars)| <= maxTextChars
  {
  }

  datatype PasteOutcome =
    | ReadOnlyIgnored
    | NoText
    | TooBig
    | Pasted(report: InsertReport)

  /** The `paste` handler: a read-only editor ignores it; empty clipboard text and
      text over the paste allowance are refused; anything else goes through the
      capped insertion. */
  function Paste(e: TextArea, readOnly: bool, clipboard: string, maxTextChars: nat): (res: (PasteOutcome, TextArea))
    requires ValidArea(e)
    ensures res.0.Pasted? <==> !readOnly && clipboard != "" && |clipboard| <= AppConstants.PasteAllowLimit
    ensures !res.0.Pasted? ==> res.1 == e
    ensures res.0.Pasted? ==> (res.0.report, res.1) == InsertTextAtCursor(e, clipboard, maxTextChars)
    ensures res.0 == TooBig <==> !readOnly && |clipboard| > AppConstants.PasteAllowLimit
  {
    if readOnly then (ReadOnlyIgnored, e)
    else if clipboard == "" then (NoText, e)
    else if |clipboard| <= AppConstants.PasteAllowLimit then
      var (rep, d) := InsertTextAtCursor(e, clipboard, maxTextChars);
      (Pasted(rep), d)
    else (TooBig, e)
  }

  datatype DropOutcome = DropReadOnly | DropNoText | DropTooBig | Dropped(value: string, truncated: bool)

  /** The `drop` handler: small text is inserted by the browser (`afterNative` is the
      value it leaves), then cut to the limit on the next tick. */
  function Drop(readOnly: bool, text: string, afterNative: string, maxTextChars: nat): (r: DropOutcome)
    ensures r.Dropped? <==> !readOnly && text != "" && |text| <= AppConstants.PasteAllowLimit
    ensures r.Dropped? ==> r.value == EnforceLimit(afterNative, maxTextChars)
                           && |r.value| <= maxTextChars
                           && (r.truncated <==> |afterNative| > maxTextChars)
  {
    if readOnly then DropReadOnly
    else if text == "" then DropNoText
    else if |text| > AppConstants.PasteAllowLimit then DropTooBig
    else Dropped(EnforceLimit(afterNative, maxTextChars), |afterNative| > maxTextChars)
  }

  /** What the `input` handler does. */
  datatype InputOutcome = InputIgnored | Truncated(value: string) | Accepted(scheduleSend: bool)

  /** The `input` handler: while suppressed or read-only nothing happens; a value over
      the limit is cut back to it; otherwise the value stays and a send to the main
      process is scheduled when live calculation is on. */
  function OnInput(value: string, suppressed: bool, readOnly: bool, calcWhileTyping: bool, maxTextChars: nat): (r: InputOutcome)
    ensures (suppressed || readOnly) <==> r.InputIgnored?
    ensures r.Truncated? <==> !suppressed && !readOnly && |value| > maxTextChars
    ensures r.Truncated? ==> |r.value| == maxTextChars && StartsWith(value, r.value)
    ensures r.Accepted? ==> r.scheduleSend == calcWhileTyping
  {
    if suppressed || readOnly then InputIgnored
    else if value != "" && |value| > maxTextChars then Truncated(value[..maxTextChars])
    else Accepted(calcWhileTyping)
  }

  // ---------------------------------------------------------------------------
  // Updates from the main process
  // ---------------------------------------------------------------------------

  /** The text and the `meta` an update carries: an object with its own `text` has
      both; any other payload is text alone. */
  function UpdateText(payload: Value, stringify: Value -> string): (r: (string, Value))
    ensures payload.Obj? && "text" in payload.fields ==>
              r == (TextOf(payload.fields["text"], stringify),
                    if Truthy(Get(payload, "meta")) then Get(payload, "meta") else Null)
    ensures !(payload.Obj? && "text" in payload.fields) ==> r == (TextOf(payload, stringify), Null)
  {
    if payload.Obj? && "text" in payload.fields then
      var meta := Get(payload, "meta");
      (TextOf(payload.fields["text"], stringify), if Truthy(meta) then meta else Null)
    else (TextOf(payload, stringify), Null)
  }

  /** What an update does to the editor: its new value and whether the user is told
      that the text was cut. */
  datatype UpdateEffect = UpdateEffect(value: string, notifyTruncated: bool)

  /** A `meta` field read as `meta && meta.source ? meta.source : null`. */
  function MetaField(meta: Value, key: string): (r: Value)
    ensures Truthy(r) || r == Null
  {
    if Truthy(meta) && Truthy(Get(meta, key)) then Get(meta, key) else Null
  }

  /** `applyExternalUpdate` as written: the text is cut to the limit; an echo of the
      editor's own publication is dropped; an unchanged text only reports a cut;
      an `append_newline` from the main window that extends the text is appended,
      and when the appended part is small the cut is not reported; every other
      update replaces the value and reports a cut. */
  function ExternalUpdate(current: string, payload: Value, maxTextChars: nat, stringify: Value -> string): (r: UpdateEffect)
    ensures var (raw, meta) := UpdateText(payload, stringify);
            && (Get(meta, "source") == Str("editor") ==> r == UpdateEffect(current, false))
            && (Get(meta, "source") != Str("editor") ==> r.value == EnforceLimit(raw, maxTextChars))
            && (r.notifyTruncated ==> |raw| > maxTextChars)
  {
    var (raw, meta) := UpdateText(payload, stringify);
    var newText := EnforceLimit(raw, maxTextChars);
    var truncated := |raw| > maxTextChars;
    if Get(meta, "source") == Str("editor") then UpdateEffect(current, false)
    else if current == newText then UpdateEffect(current, truncated)
    else if MetaField(meta, "source") == Str("main-window") && MetaField(meta, "action") == Str("append_newline")
            && StartsWith(newText, current)
            && |newText| - |current| <= AppConstants.SmallUpdateThreshold then
      UpdateEffect(current + newText[|current|..], false)
    else UpdateEffect(newText, truncated)
  }

  /** The same decision with the cut reported on every path that takes a cut text. */
  function ExternalUpdateCorrected(current: string, payload: Value, maxTextChars: nat, stringify: Value -> string): (r: UpdateEffect)
    ensures var (raw, meta) := UpdateText(payload, stringify);
            && (Get(meta, "source") == Str("editor") ==> r == UpdateEffect(current, false))
            && (Get(meta, "source") != Str("editor") ==>
                  r.value == EnforceLimit(raw, maxTextChars) && (r.notifyTruncated <==> |raw| > maxTextChars))
  {
    var (raw, meta) := UpdateText(payload, stringify);
    var newText := EnforceLimit(raw, maxTextChars);
    var truncated := |raw| > maxTextChars;
    if Get(meta, "source") == Str("editor") then UpdateEffect(current, false)
    else if current == newText then UpdateEffect(current, truncated)
    else if MetaField(meta, "source") == Str("main-window") && MetaField(meta, "action") == Str("append_newline")
            && StartsWith(newText, current)
            && |newText| - |current| <= AppConstants.SmallUpdateThreshold then
      UpdateEffect(current + newText[|current|..], truncated)
    else UpdateEffect(newText, truncated)
  }

  /** The payload `sendCurrentTextToMain` publishes. */
  function EditorPayload(text: string, action: string): (p: Value)
    ensures Get(p, "text") == Str(text)
  {
    Obj(map["text" := Str(text), "meta" := Obj(map["source" := Str("editor"), "action" := Str(action)])])
  }

  /** The editor's own publication, echoed back, leaves the editor as it is. */
  lemma EchoIgnored(current: string, text: string, action: string, maxTextChars: nat, stringify: Value -> string)
    ensures ExternalUpdate(current, EditorPayload(text, action), maxTextChars, stringify) == UpdateEffect(current, false)
  {
    var p := EditorPayload(text, action);
    assert Get(p, "meta") == Obj(map["source" := Str("editor"), "action" := Str(action)]);
  }

  /** Applying an update twice is the same as applying it once: the second time the
      text is already there. */
  lemma ExternalUpdateIdempotent(current: string, payload: Value, maxTextChars: nat, stringify: Value -> string)
    ensures var once := ExternalUpdate(current, payload, maxTextChars, stringify).value;
            ExternalUpdate(once, payload, maxTextChars, stringify).value == once
  {
  }

  /** As written, a small `append_newline` whose text was cut leaves the cut
      unreported. */
  lemma AppendCutNotReported(current: string, tail: string, maxTextChars: nat, stringify: Value -> string)
    requires |current| < maxTextChars < |current + tail|
    requires maxTextChars - |current| <= AppConstants.SmallUpdateThreshold
    ensures var p := Obj(map["text" := Str(current + tail),
                             "meta" := Obj(map["source" := Str("main-window"), "action" := Str("append_newline")])]);
            && ExternalUpdate(current, p, maxTextChars, stringify) == UpdateEffect((current + tail)[..maxTextChars], false)
            && ExternalUpdateCorrected(current, p, maxTextChars, stringify) == UpdateEffect((current + tail)[..maxTextChars], true)
  {
    var raw := current + tail;
    var p := Obj(map["text" := Str(raw),
                     "meta" := Obj(map["source" := Str("main-window"), "action" := Str("append_newline")])]);
    var newText := raw[..maxTextChars];
    assert UpdateText(p, stringify) == (raw, Get(p, "meta"));
    assert newText[..|current|] == current;
    assert current + newText[|current|..] == newText;
  }
}

=== FILE: find_main.dfy ===
/** The main-process side of find-in-page for the editor window
    (electron/editor_find_main.js): the search state, its transitions, the keyboard
    shortcuts of the editor and find windows, and the sender check on the find IPC
    channels. `webContents.findInPage` is replaced by its result, passed in as a
    `FindCall`; windows are told apart by identities. */
module FindMain {
  import opened Js

  /** The search state the main process keeps and publishes to the find window. */
  datatype FindState = FindState(
    query: string,
    requestId: Option<int>,
    matches: nat,
    activeMatchOrdinal: nat,
    finalUpdate: bool)

  /** What calling `findInPage` did: there was no editor window, the call threw, or
      it returned a request id. */
  datatype FindCall = NoEditor | Threw | Returned(id: int)

  datatype FindError = EditorUnavailable | FindFailed | Unauthorized

  /** The `{ok, ...}` answers of the find operations. */
  datatype Response =
    | Done(requestId: Option<int>)  // ok, with the request id when a search ran
    | Skipped                       // ok, skipped: empty query
    | Failed(error: FindError)

  function HasQuery(s: FindState): bool { |s.query| > 0 }

  /** `clearStateOnly`. */
  function ClearedState(): (s: FindState)
    ensures s.query == "" && s.requestId.None? && s.matches == 0
    ensures s.activeMatchOrdinal == 0 && s.finalUpdate
  {
    FindState("", None, 0, 0, true)
  }

  /** `buildPublicState`: the object sent to the find window. */
  function PublicState(s: FindState): (v: Value)
    ensures v.Obj? && Get(v, "query") == Str(s.query)
    ensures Get(v, "matches") == Num(Finite(s.matches as real))
    ensures Get(v, "activeMatchOrdinal") == Num(Finite(s.activeMatchOrdinal as real))
    ensures Get(v, "finalUpdate") == Bool(s.finalUpdate)
    ensures "requestId" !in v.fields
  {
    Obj(map[
      "query" := Str(s.query),
      "matches" := Num(Finite(s.matches as real)),
      "activeMatchOrdinal" := Num(Finite(s.activeMatchOrdinal as real)),
      "finalUpdate" := Bool(s.finalUpdate)])
  }

  /** `runFind`: records the request id when the search started. */
  function RunFind(s: FindState, call: FindCall): (r: (FindState, Response))
    ensures call.Returned? ==> r.0 == s.(requestId := Some(call.id)) && r.1 == Done(Some(call.id))
    ensures !call.Returned? ==> r.0 == s && r.1.Failed?
  {
    match call
    case NoEditor => (s, Failed(EditorUnavailable))
    case Threw => (s, Failed(FindFailed))
    case Returned(id) => (s.(requestId := Some(id)), Done(Some(id)))
  }

  /** `setQuery`: an empty query clears everything; any other query resets the
      counts and starts a forward search. */
  function SetQuery(s: FindState, query: string, call: FindCall): (r: (FindState, Response))
    ensures query == "" ==> r == (ClearedState(), Done(None))
    ensures query != "" ==>
              r.0.query == query && r.0.matches == 0 && r.0.activeMatchOrdinal == 0 && !r.0.finalUpdate
    ensures query != "" ==> (r.0.requestId == if call.Returned? then Some(call.id) else s.requestId)
    ensures r.1.Failed? <==> query != "" && !call.Returned?
  {
    if query == "" then (ClearedState(), Done(None))
    else RunFind(FindState(query, s.requestId, 0, 0, false), call)
  }

  /** `navigate`: nothing happens without a query; otherwise the next or previous
      match is requested and the state marked as not final. */
  function Navigate(s: FindState, forward: bool, call: FindCall): (r: (FindState, Response))
    ensures !HasQuery(s) ==> r == (s, Skipped)
    ensures HasQuery(s) ==>
              && r.0.query == s.query && r.0.matches == s.matches
              && r.0.activeMatchOrdinal == s.activeMatchOrdinal && !r.0.finalUpdate
    ensures HasQuery(s) ==> (r.0.requestId == if call.Returned? then Some(call.id) else s.requestId)
  {
    if !HasQuery(s) then (s, Skipped)
    else RunFind(s.(finalUpdate := false), call)
  }

  /** A `found-in-page` result belongs to an older search: the state has a request
      id and the result carries a different finite one. */
  predicate IsStale(s: FindState, result: Value) {
    var rid := ToNumber(Get(result, "requestId"));
    s.requestId.Some? && rid.Finite? && rid.value != s.requestId.value as real
  }

  /** `handleFoundInPage`. */
  function HandleFoundInPage(s: FindState, result: Value): (r: FindState)
    ensures !Truthy(result) || !TypeofObject(result) || IsStale(s, result) ==> r == s
    ensures r.query == s.query && r.requestId == s.requestId
    ensures Truthy(result) && TypeofObject(result) && !IsStale(s, result) ==>
              && r.matches == PositiveFloorOrZero(ToNumber(Get(result, "matches")))
              && r.activeMatchOrdinal == PositiveFloorOrZero(ToNumber(Get(result, "activeMatchOrdinal")))
              && r.finalUpdate == Truthy(Get(result, "finalUpdate"))
  {
    if !Truthy(result) || !TypeofObject(result) then s
    else if IsStale(s, result) then s
    else
      s.(matches := PositiveFloorOrZero(ToNumber(Get(result, "matches"))),
         activeMatchOrdinal := PositiveFloorOrZero(ToNumber(Get(result, "activeMatchOrdinal"))),
         finalUpdate := Truthy(Get(result, "finalUpdate")))
  }

  /** Once a search has started, a result carrying another finite request id is
      dropped, and one carrying its own id sets the counts. */
  lemma StaleResultDropped(s: FindState, query: string, id: int, other: int, m: real)
    requires query != "" && other != id
    ensures var started := SetQuery(s, query, Returned(id)).0;
      && HandleFoundInPage(started, Obj(map["requestId" := Num(Finite(other as real)), "matches" := Num(Finite(m))])) == started
      && (m >= 1.0 ==> HandleFoundInPage(started, Obj(map["requestId" := Num(Finite(id as real)), "matches" := Num(Finite(m))])).matches == m.Floor)
  {
    var started := SetQuery(s, query, Returned(id)).0;
    var stale := Obj(map["requestId" := Num(Finite(other as real)), "matches" := Num(Finite(m))]);
    assert Get(stale, "requestId") == Num(Finite(other as real));
    assert IsStale(started, stale);
    var current := Obj(map["requestId" := Num(Finite(id as real)), "matches" := Num(Finite(m))]);
    assert Get(current, "requestId") == Num(Finite(id as real));
    assert Get(current, "matches") == Num(Finite(m));
    assert !IsStale(started, current);
  }

  // ---------------------------------------------------------------------------
  // Keyboard shortcuts
  // ---------------------------------------------------------------------------

  /** The fields of Electron's `before-input-event` input that the handlers read. */
  datatype KeyInput = KeyInput(kind: string, key: string, control: bool, meta: bool, alt: bool, shift: bool)

  predicate IsCmdOrCtrl(input: KeyInput) { input.control || input.meta }

  predicate IsF3(input: KeyInput) { input.key == "F3" }

  predicate IsEscape(input: KeyInput) { input.key == "Escape" }

  /** Ctrl/Cmd+F without Alt. */
  predicate IsOpenFindShortcut(input: KeyInput) {
    !input.alt && (input.key == "f" || input.key == "F") && IsCmdOrCtrl(input)
  }

  /** What a key press in one of the two windows leads to. `NoAction` also means the
      event is not prevented. */
  datatype KeyAction = NoAction | OpenFind | FocusQuery | NavigateFind(forward: bool) | CloseFind

  /** `handleEditorBeforeInput`. */
  function EditorKeyAction(input: KeyInput, findWindowOpen: bool): (a: KeyAction)
    ensures input.kind != "keyDown" ==> a == NoAction
    ensures a == OpenFind <==> input.kind == "keyDown" && IsOpenFindShortcut(input)
    ensures a.NavigateFind? <==> input.kind == "keyDown" && !IsOpenFindShortcut(input) && IsF3(input)
    ensures a.NavigateFind? ==> (a.forward <==> !input.shift)
    ensures a == CloseFind ==> findWindowOpen && IsEscape(input)
    ensures a != FocusQuery
  {
    if input.kind != "keyDown" then NoAction
    else if IsOpenFindShortcut(input) then OpenFind
    else if IsF3(input) then NavigateFind(!input.shift)
    else if IsEscape(input) && findWindowOpen then CloseFind
    else NoAction
  }

  /** `handleFindBeforeInput`: in the find window the open shortcut re-focuses the
      query field and Escape always closes. */
  function FindKeyAction(input: KeyInput): (a: KeyAction)
    ensures input.kind != "keyDown" ==> a == NoAction
    ensures a == FocusQuery <==> input.kind == "keyDown" && IsOpenFindShortcut(input)
    ensures a.NavigateFind? <==> input.kind == "keyDown" && !IsOpenFindShortcut(input) && IsF3(input)
    ensures a.NavigateFind? ==> (a.forward <==> !input.shift)
    ensures a == CloseFind <==> input.kind == "keyDown" && !IsOpenFindShortcut(input) && !IsF3(input) && IsEscape(input)
    ensures a != OpenFind
  {
    if input.kind != "keyDown" then NoAction
    else if IsOpenFindShortcut(input) then FocusQuery
    else if IsF3(input) then NavigateFind(!input.shift)
    else if IsEscape(input) then CloseFind
    else NoAction
  }

  /** The two windows treat F3 alike, and Escape alike while the find window is
      open; they differ only on the open shortcut. */
  lemma WindowsAgreeOnNavigation(input: KeyInput)
    requires !IsOpenFindShortcut(input)
    ensures EditorKeyAction(input, true) == FindKeyAction(input)
  {
  }

  // ---------------------------------------------------------------------------
  // Closing and IPC
  // ---------------------------------------------------------------------------

  /** `closeFindUi` as far as the search state goes: the search is cleared. */
  function CloseFindUi(s: FindState): (r: (FindState, Response))
    ensures r.0 == ClearedState() && r.1 == Done(None)
  {
    (ClearedState(), Done(None))
  }

  /** `isAuthorizedFindSender`: the sender is the find window's web contents. */
  predicate IsAuthorizedFindSender(findWindow: Option<nat>, sender: Option<nat>) {
    findWindow.Some? && sender.Some? && sender.value == findWindow.value
  }

  /** The requests the find window sends over IPC. */
  datatype FindRequest = SetQueryRequest(query: string) | NextRequest | PrevRequest | CloseRequest

  /** The `editor-find-*` IPC handlers. */
  function HandleFindRequest(s: FindState, findWindow: Option<nat>, sender: Option<nat>,
                             request: FindRequest, call: FindCall): (r: (FindState, Response))
    ensures !IsAuthorizedFindSender(findWindow, sender) ==> r == (s, Failed(Unauthorized))
    ensures IsAuthorizedFindSender(findWindow, sender) ==> r.1 != Failed(Unauthorized)
  {
    if !IsAuthorizedFindSender(findWindow, sender) then (s, Failed(Unauthorized))
    else
      match request
      case SetQueryRequest(q) => SetQuery(s, q, call)
      case NextRequest => Navigate(s, true, call)
      case PrevRequest => Navigate(s, false, call)
      case CloseRequest => CloseFindUi(s)
  }

  /** Without a find window no request is authorized, whoever sends it. */
  lemma NoFindWindowNoChange(s: FindState, sender: Option<nat>, request: FindRequest, call: FindCall)
    ensures HandleFindRequest(s, None, sender, request, call) == (s, Failed(Unauthorized))
  {
  }

  /** Applying a key action to the search state, with `call` the result of any
      search it starts. */
  function ApplyKeyAction(s: FindState, a: KeyAction, call: FindCall): (r: FindState)
    ensures a == NoAction || a == OpenFind || a == FocusQuery ==> r == s
    ensures a == CloseFind ==> r == ClearedState()
    ensures r.query == s.query || r.query == ""
  {
    match a
    case NoAction => s
    case OpenFind => s
    case FocusQuery => s
    case NavigateFind(forward) => Navigate(s, forward, call).0
    case CloseFind => CloseFindUi(s).0
  }

  /** Only key presses are handled: a key release changes nothing in either
      window. */
  lemma KeyUpChangesNothing(s: FindState, input: KeyInput, findWindowOpen: bool, call: FindCall)
    requires input.kind != "keyDown"
    ensures ApplyKeyAction(s, EditorKeyAction(input, findWindowOpen), call) == s
    ensures ApplyKeyAction(s, FindKeyAction(input), call) == s
  {
  }
}

=== FILE: find_ui.dfy ===
/** The find window's renderer (public/editor_find.js): how it normalizes the
    state the main process sends, the status line it shows and which buttons it
    enables. Translated messages are parameters. */
module FindUi {
  import opened Js
  import opened Strings
  import FindMain

  /** The renderer's copy of the search state. */
  datatype UiState = UiState(query: string, matches: nat, activeMatchOrdinal: nat, finalUpdate: bool)

  /** `normalizeState`: anything but an object leaves the state as it was; an object
      replaces every field, with a non-string query read as empty and counts that
      are not positive finite numbers read as 0. */
  function NormalizeState(s: UiState, payload: Value): (r: UiState)
    ensures !Truthy(payload) || !TypeofObject(payload) ==> r == s
    ensures Truthy(payload) && TypeofObject(payload) ==>
              && (Get(payload, "query").Str? ==> r.query == Get(payload, "query").s)
              && (!Get(payload, "query").Str? ==> r.query == "")
              && r.matches == PositiveFloorOrZero(ToNumber(Get(payload, "matches")))
              && r.activeMatchOrdinal == PositiveFloorOrZero(ToNumber(Get(payload, "activeMatchOrdinal")))
              && r.finalUpdate == Truthy(Get(payload, "finalUpdate"))
  {
    if !Truthy(payload) || !TypeofObject(payload) then s
    else
      var q := Get(payload, "query");
      UiState(if q.Str? then q.s else "",
              PositiveFloorOrZero(ToNumber(Get(payload, "matches"))),
              PositiveFloorOrZero(ToNumber(Get(payload, "activeMatchOrdinal"))),
              Truthy(Get(payload, "finalUpdate")))
  }

  /** What the state the main process publishes becomes in the find window: the
      same query, counts and final flag. */
  lemma PublishedStateArrivesIntact(s: UiState, m: FindMain.FindState)
    ensures NormalizeState(s, FindMain.PublicState(m))
         == UiState(m.query, m.matches, m.activeMatchOrdinal, m.finalUpdate)
  {
    var v := FindMain.PublicState(m);
    assert ToNumber(Get(v, "matches")) == Finite(m.matches as real);
    assert ToNumber(Get(v, "activeMatchOrdinal")) == Finite(m.activeMatchOrdinal as real);
    FloorOfNat(m.matches);
    FloorOfNat(m.activeMatchOrdinal);
  }

  lemma FloorOfNat(n: nat)
    ensures PositiveFloorOrZero(Finite(n as real)) == n
  {
  }

  /** The status line, before its messages are filled in. */
  datatype Status = EmptyQuery | NoMatches | Position(current: nat, total: nat)

  /** `resolveStatusText` without the translations. */
  function ResolveStatus(s: UiState): (st: Status)
    ensures st == EmptyQuery <==> s.query == ""
    ensures st == NoMatches <==> s.query != "" && s.matches == 0
    ensures st.Position? ==> 1 <= st.current <= st.total && st.total == s.matches
    ensures st.Position? && 1 <= s.activeMatchOrdinal <= s.matches ==> st.current == s.activeMatchOrdinal
    ensures st.Position? && s.activeMatchOrdinal == 0 ==> st.current == 1
    ensures st.Position? && s.activeMatchOrdinal > s.matches ==> st.current == s.matches
  {
    if s.query == "" then EmptyQuery
    else if s.matches == 0 then NoMatches
    else
      var wanted := if s.activeMatchOrdinal == 0 then 1 else s.activeMatchOrdinal;
      var capped := if wanted < s.matches then wanted else s.matches;
      Position(if capped < 1 then 1 else capped, s.matches)
  }

  /** The text shown: the translated messages for the two special cases, else
      `current/total`. */
  function StatusText(st: Status, emptyQueryText: string, noMatchesText: string): (t: string)
    ensures st == EmptyQuery ==> t == emptyQueryText
    ensures st == NoMatches ==> t == noMatchesText
    ensures st.Position? ==> t == NatToString(st.current) + "/" + NatToString(st.total)
  {
    match st
    case EmptyQuery => emptyQueryText
    case NoMatches => noMatchesText
    case Position(c, n) => NatToString(c) + "/" + NatToString(n)
  }

  /** What `applyUiState` puts on screen. */
  datatype View = View(inputValue: string, prevDisabled: bool, nextDisabled: bool, statusText: string)

  function ApplyUiState(s: UiState, emptyQueryText: string, noMatchesText: string): (v: View)
    ensures v.inputValue == s.query
    ensures v.prevDisabled <==> s.query == ""
    ensures v.nextDisabled <==> s.query == ""
    ensures s.query == "" ==> v.statusText == emptyQueryText
  {
    View(s.query, |s.query| == 0, |s.query| == 0, StatusText(ResolveStatus(s), emptyQueryText, noMatchesText))
  }

  /** The position text can be read back: the two numbers are the displayed match
      and the match count. */
  lemma PositionTextReadsBack(st: Status)
    requires st.Position?
    ensures var t := StatusText(st, "", "");
      var parts := Split(t, '/');
      |parts| == 2 && AllDigits(parts[0]) && AllDigits(parts[1])
      && DigitsValue(parts[0]) == st.current && DigitsValue(parts[1]) == st.total
  {
    var a := NatToString(st.current);
    var b := NatToString(st.total);
    assert forall i | 0 <= i < |a| :: a[i] != '/';
    assert forall i | 0 <= i < |b| :: b[i] != '/';
    SplitConcat(a, b, '/');
    SplitNoSeparator(b, '/');
    assert a + "/" + b == a + ['/'] + b;
    NatToStringValue(st.current);
    NatToStringValue(st.total);
  }
}

=== FILE: js.dfy ===
/** JavaScript values as they cross the application's IPC and JSON boundaries:
    numbers with NaN and the infinities, truthiness, `typeof`, property lookup and
    the `Number(...)` conversion. */
module Js {
  import opened Strings

  datatype Option<T> = None | Some(value: T)

  /** The outcome of an operation that the source either completes or refuses with
      an error code or an exception. */
  datatype Result<T, E> = Ok(value: T) | Err(error: E)

  /** A JavaScript number. Finite numbers are kept as exact reals: floating-point
      rounding is not modelled. */
  datatype Number = Finite(value: real) | NaN | PosInf | NegInf

  /** A JavaScript value. `Func` stands for a function object, told apart by an
      identity. Objects are plain records without a prototype chain. */
  datatype Value =
    | Undefined
    | Null
    | Bool(b: bool)
    | Num(n: Number)
    | Str(s: string)
    | Arr(items: seq<Value>)
    | Obj(fields: map<string, Value>)
    | Func(id: nat)

  /** `!!v`. */
  predicate Truthy(v: Value) {
    match v
    case Undefined => false
    case Null => false
    case Bool(b) => b
    case Num(n) => n != NaN && n != Finite(0.0)
    case Str(s) => s != ""
    case _ => true
  }

  /** `typeof v === 'object'`, which holds for `null` and arrays as well. */
  predicate TypeofObject(v: Value) {
    v.Null? || v.Arr? || v.Obj?
  }

  /** `v[key]` on a plain object; `undefined` for anything else. */
  function Get(v: Value, key: string): (r: Value)
    ensures !v.Obj? ==> r == Undefined
    ensures v.Obj? && key !in v.fields ==> r == Undefined
  {
    if v.Obj? && key in v.fields then v.fields[key] else Undefined
  }

  /** `Math.round`: the nearest integer, halves going up. */
  function Round(x: real): (r: int)
    ensures x - 0.5 < r as real <= x + 0.5
  {
    (x + 0.5).Floor
  }

  /** `10` to the power `n`. */
  function Pow10(n: nat): (p: nat)
    ensures p >= 1
  {
    if n == 0 then 1 else 10 * Pow10(n - 1)
  }

  /** The value of the digits after a decimal point. */
  function Fraction(b: string): (r: real)
    requires AllDigits(b)
    ensures 0.0 <= r
  {
    DigitsValue(b) as real / Pow10(|b|) as real
  }

  /** An unsigned decimal numeral: digits with at most one `.` among them and at
      least one digit (`"12"`, `"0.4"`, `".5"`, `"5."`). */
  function UnsignedDecimal(t: string): (r: Option<real>)
    ensures r.Some? ==> r.value >= 0.0
    ensures t != [] && AllDigits(t) ==> r == Some(DigitsValue(t) as real)
  {
    if t != [] && AllDigits(t) then Some(DigitsValue(t) as real)
    else
      var parts := Split(t, '.');
      if |parts| == 2 && AllDigits(parts[0]) && AllDigits(parts[1]) && |parts[0]| + |parts[1]| > 0 then
        Some(DigitsValue(parts[0]) as real + Fraction(parts[1]))
      else None
  }

  /** `Number("{a}.{b}")` for runs of digits `a` and `b`, not both empty. */
  lemma DecimalText(a: string, b: string)
    requires AllDigits(a) && AllDigits(b) && |a| + |b| > 0
    ensures UnsignedDecimal(a + ['.'] + b) == Some(DigitsValue(a) as real + Fraction(b))
  {
    var t := a + ['.'] + b;
    SplitConcat(a, b, '.');
    SplitNoSeparator(b, '.');
    assert !AllDigits(t) by { assert t[|a|] == '.'; }
    DecimalParts(t, a, b);
  }

  lemma DecimalParts(t: string, a: string, b: string)
    requires Split(t, '.') == [a, b] && t != [] && !AllDigits(t)
    requires AllDigits(a) && AllDigits(b) && |a| + |b| > 0
    ensures UnsignedDecimal(t) == Some(DigitsValue(a) as real + Fraction(b))
  {
  }

  /** A decimal numeral with an optional sign. */
  function SignedDecimal(t: string): (r: Option<real>)
    ensures UnsignedDecimal(t).Some? ==> r == UnsignedDecimal(t)
  {
    if UnsignedDecimal(t).Some? then UnsignedDecimal(t)
    else if |t| > 1 && (t[0] == '-' || t[0] == '+') && UnsignedDecimal(t[1..]).Some? then
      var v := UnsignedDecimal(t[1..]).value;
      Some(if t[0] == '-' then -v else v)
    else None
  }

  /** A text that starts with neither a digit, a `.` nor a sign is no decimal
      numeral; a sign followed by such a text is none either. `Infinity` is one. */
  lemma {:induction false} LetterFirstNotDecimal(t: string)
    requires |t| > 0 && !IsDigit(t[0]) && t[0] != '.'
    ensures UnsignedDecimal(t).None?
    ensures t[0] != '-' && t[0] != '+' ==> SignedDecimal(t).None?
  {
    var parts := Split(t, '.');
    assert parts[0] == [t[0]] + Split(t[1..], '.')[0];
    assert parts[0][0] == t[0];
  }

  /** A sign followed by a text that starts with a letter is no decimal numeral. */
  lemma SignedLetterNotDecimal(t: string)
    requires |t| > 1 && (t[0] == '-' || t[0] == '+')
    requires !IsDigit(t[1]) && t[1] != '.' && t[1] != '-' && t[1] != '+'
    ensures SignedDecimal(t).None?
  {
    LetterFirstNotDecimal(t);
    LetterFirstNotDecimal(t[1..]);
  }

  /** The three spellings of an infinity are no decimal numerals. */
  lemma InfinityNotDecimal(t: string)
    requires t == "Infinity" || t == "+Infinity" || t == "-Infinity"
    ensures SignedDecimal(t).None?
  {
    if t == "Infinity" {
      assert t[0] == 'I';
      LetterFirstNotDecimal(t);
    } else {
      assert t[1] == 'I';
      SignedLetterNotDecimal(t);
    }
  }

  /** `Number(s)`: blank is 0, an optionally signed decimal numeral between white
      space is its value, an optionally signed `Infinity` is that infinity, and
      anything else NaN. */
  function StringToNumber(s: string): (n: Number)
    ensures AllSpace(s) ==> n == Finite(0.0)
    ensures !AllSpace(s) ==> (n.Finite? <==> SignedDecimal(Trim(s)).Some?)
    ensures Trim(s) == "Infinity" || Trim(s) == "+Infinity" ==> n == PosInf
    ensures Trim(s) == "-Infinity" ==> n == NegInf
  {
    var t := Trim(s);
    if t == [] then Finite(0.0)
    else if t == "Infinity" || t == "+Infinity" then InfinityNotDecimal(t); PosInf
    else if t == "-Infinity" then InfinityNotDecimal(t); NegInf
    else if SignedDecimal(t).Some? then Finite(SignedDecimal(t).value)
    else NaN
  }

  /** A trimmed decimal numeral converts to its value. */
  lemma TrimmedDecimal(t: string)
    requires Trim(t) == t && t != [] && UnsignedDecimal(t).Some?
    ensures StringToNumber(t) == Finite(UnsignedDecimal(t).value)
  {
  }

  /** A run of digits converts to its value. */
  lemma DigitsNumber(t: string)
    requires t != [] && AllDigits(t) && Trim(t) == t
    ensures StringToNumber(t) == Finite(DigitsValue(t) as real)
  {
    TrimmedDecimal(t);
  }

  /** `Number("{a}.{b}")` for runs of digits `a` and `b`, `b` not empty. */
  lemma DecimalNumber(a: string, b: string)
    requires AllDigits(a) && AllDigits(b) && b != []
    ensures StringToNumber(a + ['.'] + b) == Finite(DigitsValue(a) as real + Fraction(b))
  {
    var t := a + ['.'] + b;
    DecimalText(a, b);
    assert !IsSpace(t[0]) by { if a != [] { assert t[0] == a[0]; } else { assert t[0] == '.'; } }
    assert t[|t| - 1] == b[|b| - 1];
    TrimUnchanged(t);
    TrimmedDecimal(t);
  }

  /** The decimal text of a natural number converts back to it. */
  lemma NatText(k: nat)
    ensures StringToNumber(NatToString(k)) == Finite(k as real)
  {
    var t := NatToString(k);
    TrimUnchanged(t);
    NatToStringValue(k);
    DigitsNumber(t);
  }

  /** `Number(v)`. An array converts through its `join(',')` text; a plain object
      through `[object Object]` and a function through its source text, neither of
      which is a numeral. */
  function ToNumber(v: Value): (n: Number)
    ensures v.Num? ==> n == v.n
    ensures v.Undefined? || v.Obj? || v.Func? ==> n == NaN
    ensures v.Str? ==> n == StringToNumber(v.s)
    ensures v.Arr? && v.items == [] ==> n == Finite(0.0)
    ensures v.Arr? && |v.items| >= 2 ==> n == NaN
    ensures v.Arr? && |v.items| == 1 && v.items[0].Num? ==> n == v.items[0].n
    ensures v.Arr? && |v.items| == 1 && v.items[0].Str? ==> n == StringToNumber(v.items[0].s)
    ensures v.Arr? && |v.items| == 1 && (v.items[0].Null? || v.items[0].Undefined?) ==> n == Finite(0.0)
  {
    match v
    case Undefined => NaN
    case Null => Finite(0.0)
    case Bool(b) => if b then Finite(1.0) else Finite(0.0)
    case Num(n) => n
    case Str(s) => StringToNumber(s)
    case Arr(items) =>
      if |items| == 0 then Finite(0.0)
      else if |items| == 1 then JoinedNumber(items[0])
      else NaN
    case _ => NaN
  }

  /** `Number(String(x))` where `x` is an array or one of its elements, so that
      `String` is `join(',')`'s: `null` and `undefined` are written as nothing,
      a nested array as its own join, and a number as text that reads back as the
      same number. Two or more elements put a `,` in the text, which is never a
      numeral; a boolean, a plain object or a function is no numeral either. */
  function JoinedNumber(x: Value): (n: Number)
    ensures x.Arr? && |x.items| >= 2 ==> n == NaN
    ensures x.Undefined? || x.Null? ==> n == Finite(0.0)
  {
    match x
    case Undefined => Finite(0.0)
    case Null => Finite(0.0)
    case Bool(_) => NaN
    case Num(m) => m
    case Str(s) => StringToNumber(s)
    case Arr(items) =>
      if |items| == 0 then Finite(0.0)
      else if |items| == 1 then (assert items[0] in items; JoinedNumber(items[0]))
      else NaN
    case Obj(_) => NaN
    case Func(_) => NaN
  }

  /** An array nested inside one-element arrays converts like its innermost
      element, and `null` inside is 0 where `Number(null)` is 0 as well. */
  lemma {:induction false} NestedSingletonNumber(x: Value, depth: nat)
    requires x.Num? || x.Str? || x.Null?
    ensures ToNumber(Wrap(x, depth + 1)) == ToNumber(x)
  {
    if depth > 0 {
      NestedSingletonNumber(x, depth - 1);
    }
  }

  /** `x` inside `depth` one-element arrays. */
  function Wrap(x: Value, depth: nat): (w: Value)
    ensures depth > 0 ==> w.Arr? && |w.items| == 1
  {
    if depth == 0 then x else Arr([Wrap(x, depth - 1)])
  }

  /** The number-to-count step shared by the find coordinator and the find window:
      a finite positive number is floored, anything else becomes 0. */
  function PositiveFloorOrZero(n: Number): (r: nat)
    ensures n.Finite? && n.value >= 1.0 ==> r as real <= n.value < r as real + 1.0
    ensures !(n.Finite? && n.value > 0.0) ==> r == 0
  {
    if n.Finite? && n.value > 0.0 then n.value.Floor else 0
  }

  /** `String(v || '')`: falsy values give the empty string, strings themselves,
      `true` its name, infinities and whole numbers their numerals; the conversion
      of fractional numbers, objects, arrays and functions is a parameter. */
  function TextOf(v: Value, stringify: Value -> string): (r: string)
    ensures !Truthy(v) ==> r == ""
    ensures v.Str? ==> r == v.s
  {
    if !Truthy(v) then "" else TruthyText(v, stringify)
  }

  /** `String(v)` of a truthy value. */
  function TruthyText(v: Value, stringify: Value -> string): (r: string)
    requires Truthy(v)
    ensures v.Str? ==> r == v.s
    ensures v == Bool(true) ==> r == "true"
    ensures v == Num(PosInf) ==> r == "Infinity"
    ensures v == Num(NegInf) ==> r == "-Infinity"
  {
    match v
    case Str(s) => s
    case Bool(_) => "true"
    case Num(PosInf) => "Infinity"
    case Num(NegInf) => "-Infinity"
    case Num(Finite(x)) => FiniteText(x, stringify(v))
    case _ => stringify(v)
  }

  /** A finite number: its numeral when whole, `fractional` otherwise. */
  function FiniteText(x: real, fractional: string): string {
    if x.Floor as real == x then IntToString(x.Floor) else fractional
  }

  /** A whole number other than zero is written as its numeral. */
  lemma WholeNumberText(k: int, stringify: Value -> string)
    requires k != 0
    ensures TextOf(Num(Finite(k as real)), stringify) == IntToString(k)
  {
    assert (k as real).Floor == k;
  }

  /** The text of a positive whole number reads back as that number. */
  lemma WholeNumberTextReadsBack(k: nat, stringify: Value -> string)
    requires k > 0
    ensures StringToNumber(TextOf(Num(Finite(k as real)), stringify)) == Finite(k as real)
  {
    WholeNumberText(k, stringify);
    NatText(k);
  }
}

=== FILE: log.dfy ===
/** The main-process logger (electron/log.js): level names and their order, the
    level gate, the keys of `warnOnce`/`errorOnce` and their once-per-process
    dedupe, and `setLevel`/`getLevel`. The renderer's logger (public/js/log.js)
    shares every rule here. Console output is reduced to whether a line is
    printed. */
module Log {
  import opened Js
  import opened Strings

  datatype Level = Silent | Error | Warn | Info | Debug

  /** The value of `LEVELS[name]`. */
  function Rank(l: Level): (n: nat)
    ensures n <= 4
    ensures l == Silent <==> n == 0
  {
    match l
    case Silent => 0
    case Error => 1
    case Warn => 2
    case Info => 3
    case Debug => 4
  }

  function Name(l: Level): string {
    match l
    case Silent => "silent"
    case Error => "error"
    case Warn => "warn"
    case Info => "info"
    case Debug => "debug"
  }

  /** `LEVELS[s]` for an own key `s`. */
  function LevelNamed(s: string): (r: Option<Level>)
    ensures r.Some? ==> Name(r.value) == s
    ensures forall l :: Name(l) == s ==> r == Some(l)
  {
    if s == "silent" then Some(Silent)
    else if s == "error" then Some(Error)
    else if s == "warn" then Some(Warn)
    else if s == "info" then Some(Info)
    else if s == "debug" then Some(Debug)
    else None
  }

  lemma RankOrdersLevels(a: Level, b: Level)
    ensures Rank(a) == Rank(b) <==> a == b
  {
  }

  /** `String(x || '').toLowerCase().trim()`. */
  function LevelKey(x: Value, stringify: Value -> string): string {
    Trim(Lower(TextOf(x, stringify)))
  }

  // ---------------------------------------------------------------------------
  // Level names, as written and as intended
  // ---------------------------------------------------------------------------

  /** `LEVELS[s]` on the object literal: besides the five own keys, the two
      lower-case names inherited from `Object.prototype` are defined too. */
  datatype Lookup = Own(level: Level) | Inherited | Missing

  function LevelsLookup(s: string): (r: Lookup)
    ensures r.Own? <==> LevelNamed(s).Some?
    ensures r.Inherited? <==> s == "constructor" || s == "__proto__"
  {
    var l := LevelNamed(s);
    if l.Some? then Own(l.value)
    else if s == "constructor" || s == "__proto__" then Inherited
    else Missing
  }

  /** `normalizeLevelName` as written: any key whose lookup is not `undefined`
      is kept, so inherited names pass. */
  function NormalizeLevelNameAsWritten(x: Value, stringify: Value -> string): (s: string)
    ensures var k := LevelKey(x, stringify);
            && (LevelNamed(k).Some? ==> s == k)
            && (LevelsLookup(k).Inherited? ==> s == k && LevelNamed(s).None?)
            && (LevelsLookup(k).Missing? ==> s == "warn")
    ensures DefinedName(s) && s != ""
  {
    KeepDefinedKey(LevelKey(x, stringify))
  }

  function KeepDefinedKey(s: string): (r: string)
    ensures !LevelsLookup(s).Missing? ==> r == s
    ensures LevelsLookup(s).Missing? ==> r == "warn"
    ensures DefinedName(r) && r != ""
  {
    if !LevelsLookup(s).Missing? then s else "warn"
  }

  /** `should` as written: `LEVELS[current] >= LEVELS[level]`; an inherited
      value is not a number, so the comparison is false. */
  predicate ShouldAsWritten(current: string, l: Level) {
    var c := LevelsLookup(current);
    c.Own? && Rank(c.level) >= Rank(l)
  }

  /** An inherited name is kept as the level name, names no level, and then
      silences every message, errors included. */
  lemma InheritedKeySilences(s: string)
    requires LevelsLookup(s).Inherited?
    ensures KeepDefinedKey(s) == s
    ensures LevelNamed(s).None?
    ensures forall l :: !ShouldAsWritten(s, l)
  {
  }

  /** `constructor` is such a name. */
  lemma ConstructorIsInherited(stringify: Value -> string)
    ensures LevelKey(Str("constructor"), stringify) == "constructor"
    ensures LevelsLookup("constructor").Inherited?
  {
    var c := "constructor";
    assert |c| == 11 && c[0] == 'c' && c[10] == 'r';
    assert forall i | 0 <= i < |c| :: !IsUpperAscii(c[i]);
    CleanKey(c, stringify);
  }

  /** Normalising the returned name again gives it back, inherited names included. */
  lemma AsWrittenIdempotent(x: Value, stringify: Value -> string)
    ensures var n := NormalizeLevelNameAsWritten(x, stringify);
            NormalizeLevelNameAsWritten(Str(n), stringify) == n
  {
    DefinedNameIsKey(NormalizeLevelNameAsWritten(x, stringify), stringify);
  }

  /** A name `LEVELS` defines is its own key and is kept. */
  lemma DefinedNameIsKey(n: string, stringify: Value -> string)
    requires DefinedName(n)
    ensures LevelKey(Str(n), stringify) == n
    ensures NormalizeLevelNameAsWritten(Str(n), stringify) == n
  {
    if LevelNamed(n).Some? {
      NameIsClean(LevelNamed(n).value);
      CleanKey(n, stringify);
    } else {
      InheritedNamesClean(n, stringify);
    }
  }

  lemma InheritedNamesClean(n: string, stringify: Value -> string)
    requires n == "constructor" || n == "__proto__"
    ensures LevelKey(Str(n), stringify) == n
  {
    if n == "constructor" {
      assert |n| == 11 && n[0] == 'c' && n[10] == 'r';
    } else {
      assert |n| == 9 && n[0] == '_' && n[8] == '_';
    }
    assert forall i | 0 <= i < |n| :: !IsUpperAscii(n[i]);
    CleanKey(n, stringify);
  }

  /** `normalizeLevelName` as intended: one of the five levels, `warn` for anything
      that does not name one. */
  function NormalizeLevelName(x: Value, stringify: Value -> string): (l: Level)
    ensures var k := LevelKey(x, stringify);
            && (LevelNamed(k).Some? ==> Name(l) == k)
            && (LevelNamed(k).None? ==> l == Warn)
  {
    LevelOfKey(LevelKey(x, stringify))
  }

  function LevelOfKey(s: string): (l: Level)
    ensures LevelNamed(s).Some? ==> Name(l) == s
    ensures LevelNamed(s).None? ==> l == Warn
  {
    var named := LevelNamed(s);
    if named.Some? then named.value else Warn
  }

  /** The intended rule agrees with the written one on every input that does not
      name an inherited property. */
  lemma NormalizeAgreesOffInherited(x: Value, stringify: Value -> string)
    requires !LevelsLookup(LevelKey(x, stringify)).Inherited?
    ensures Name(NormalizeLevelName(x, stringify)) == NormalizeLevelNameAsWritten(x, stringify)
  {
    KeyAgreesOffInherited(LevelKey(x, stringify));
  }

  lemma KeyAgreesOffInherited(s: string)
    requires !LevelsLookup(s).Inherited?
    ensures Name(LevelOfKey(s)) == KeepDefinedKey(s)
  {
  }

  /** A level's own name gives that level back, and normalising twice is
      normalising once. */
  lemma NormalizeRoundTrip(l: Level, x: Value, stringify: Value -> string)
    ensures NormalizeLevelName(Str(Name(l)), stringify) == l
    ensures NormalizeLevelName(Str(Name(NormalizeLevelName(x, stringify))), stringify) == NormalizeLevelName(x, stringify)
  {
    OwnNameKey(l, stringify);
    OwnNameKey(NormalizeLevelName(x, stringify), stringify);
  }

  lemma OwnNameKey(l: Level, stringify: Value -> string)
    ensures LevelKey(Str(Name(l)), stringify) == Name(l)
    ensures LevelOfKey(Name(l)) == l
  {
    NameIsClean(l);
    CleanKey(Name(l), stringify);
    LevelOfName(l);
  }

  lemma LevelOfName(l: Level)
    ensures LevelOfKey(Name(l)) == l
  {
    assert LevelNamed(Name(l)) == Some(l);
  }

  lemma NameIsClean(l: Level)
    ensures Name(l) != [] && !IsSpace(Name(l)[0]) && !IsSpace(Name(l)[|Name(l)| - 1])
    ensures forall i | 0 <= i < |Name(l)| :: !IsUpperAscii(Name(l)[i])
  {
  }

  /** A non-empty lower-case key without surrounding white space is its own key. */
  lemma CleanKey(n: string, stringify: Value -> string)
    requires n != [] && !IsSpace(n[0]) && !IsSpace(n[|n| - 1])
    requires forall i | 0 <= i < |n| :: !IsUpperAscii(n[i])
    ensures LevelKey(Str(n), stringify) == n
  {
    assert TextOf(Str(n), stringify) == n;
    LowerUnchanged(n);
    TrimUnchanged(n);
  }

  /** Case and surrounding white space do not matter. */
  lemma NormalizeIgnoresCaseAndSpace(s: string, l: Level, stringify: Value -> string)
    requires Trim(Lower(s)) == Name(l)
    ensures NormalizeLevelName(Str(s), stringify) == l
    ensures NormalizeLevelName(Str(" " + s + "\n"), stringify) == l
  {
    LevelOfName(l);
    NameIsClean(l);
    assert s != [];
    assert LevelKey(Str(s), stringify) == Name(l);
    PaddedKey(s, stringify);
  }

  lemma PaddedKey(s: string, stringify: Value -> string)
    ensures LevelKey(Str(" " + s + "\n"), stringify) == Trim(Lower(s))
  {
    var padded := " " + s + "\n";
    assert TextOf(Str(padded), stringify) == padded;
    LowerAround(s);
    TrimAround(Lower(s));
  }

  lemma LowerAround(s: string)
    ensures Lower(" " + s + "\n") == " " + Lower(s) + "\n"
  {
    var a, b := Lower(" " + s + "\n"), " " + Lower(s) + "\n";
    assert |a| == |b|;
    forall i | 0 <= i < |a| ensures a[i] == b[i] {
      if 0 < i <= |s| {
        assert (" " + s + "\n")[i] == s[i - 1];
      }
    }
  }

  // ---------------------------------------------------------------------------
  // The logger state
  // ---------------------------------------------------------------------------

  /** The process-wide state: the current level name, as `normalizeLevelName`
      returned it, and the set of dedupe keys seen. */
  datatype Logger = Logger(level: string, once: set<string>)

  /** `should(level)` for a current level that is one of the five. */
  predicate Should(current: Level, l: Level) {
    Rank(current) >= Rank(l)
  }

  /** The gate is monotone: a level that lets a message through lets through every
      message of a lower level, and `silent` lets nothing through. */
  lemma ShouldIsMonotone(current: Level, l: Level, m: Level)
    ensures Should(current, l) && Rank(m) <= Rank(l) ==> Should(current, m)
    ensures !Should(Silent, Error) && Should(Debug, l)
    ensures Should(current, l) <==> Rank(current) >= Rank(l)
  {
  }

  /** On a current name that is one of the five, the gate as written is the
      comparison of ranks. */
  lemma ShouldAsWrittenOfName(s: string, current: Level)
    requires LevelNamed(s) == Some(current)
    ensures forall l :: ShouldAsWritten(s, l) <==> Should(current, l)
  {
  }

  /** The level at start-up, read from `TOT_LOG_LEVEL`. */
  function Initial(envLevel: Value, stringify: Value -> string): (g: Logger)
    ensures g.once == {}
    ensures var k := LevelKey(envLevel, stringify);
            && (!LevelsLookup(k).Missing? ==> g.level == k)
            && (LevelsLookup(k).Missing? ==> g.level == "warn")
            && (LevelsLookup(k).Inherited? ==> forall l :: !ShouldAsWritten(g.level, l))
  {
    Logger(NormalizeLevelNameAsWritten(envLevel, stringify), {})
  }

  /** `setLevel(x)`: the level name is replaced and the dedupe keys are kept. */
  function SetLevel(g: Logger, x: Value, stringify: Value -> string): (h: Logger)
    ensures h.once == g.once
    ensures var k := LevelKey(x, stringify);
            && (!LevelsLookup(k).Missing? ==> h.level == k)
            && (LevelsLookup(k).Missing? ==> h.level == "warn")
            && (LevelsLookup(k).Inherited? ==> forall l :: !ShouldAsWritten(h.level, l))
  {
    Logger(NormalizeLevelNameAsWritten(x, stringify), g.once)
  }

  /** `getLevel()`: the stored name. After start-up and every `setLevel` it is one
      of the five names or an inherited one, never an arbitrary string. */
  function GetLevel(g: Logger): (s: string)
    ensures s == g.level
    ensures DefinedName(g.level) ==> LevelNamed(s).Some? || LevelsLookup(s).Inherited?
  {
    g.level
  }

  /** A name `LEVELS` gives a value for: what `normalizeLevelName` can return. */
  predicate DefinedName(s: string) {
    !LevelsLookup(s).Missing?
  }

  /** `getLevel()` reports the name most recently set, which `LEVELS` defines. */
  lemma GetLevelAfterSetLevel(g: Logger, x: Value, stringify: Value -> string)
    ensures GetLevel(SetLevel(g, x, stringify)) == NormalizeLevelNameAsWritten(x, stringify)
    ensures DefinedName(GetLevel(SetLevel(g, x, stringify)))
  {
  }

  /** Off the inherited names, the name `setLevel` stores is the intended level's
      (so, by `ShouldAsWrittenOfName`, the gate is that level's too). */
  lemma SetLevelOffInherited(g: Logger, x: Value, stringify: Value -> string)
    requires !LevelsLookup(LevelKey(x, stringify)).Inherited?
    ensures LevelNamed(GetLevel(SetLevel(g, x, stringify))) == Some(NormalizeLevelName(x, stringify))
  {
    KeyLevelAgrees(LevelKey(x, stringify));
  }

  /** Off the inherited names, the kept key names the intended level and gates
      like it. */
  lemma KeyLevelAgrees(k: string)
    requires !LevelsLookup(k).Inherited?
    ensures LevelNamed(KeepDefinedKey(k)) == Some(LevelOfKey(k))
    ensures forall m :: ShouldAsWritten(KeepDefinedKey(k), m) <==> Should(LevelOfKey(k), m)
  {
    var l := LevelOfKey(k);
    KeyAgreesOffInherited(k);
    assert LevelNamed(Name(l)) == Some(l);
    ShouldAsWrittenOfName(Name(l), l);
  }

  /** `setLevel('constructor')`: `getLevel()` then answers `constructor`, which names
      no level, and every message is silenced, errors included. */
  lemma SetLevelConstructorSilences(g: Logger, stringify: Value -> string)
    ensures GetLevel(SetLevel(g, Str("constructor"), stringify)) == "constructor"
    ensures LevelNamed(GetLevel(SetLevel(g, Str("constructor"), stringify))).None?
    ensures forall l :: !ShouldAsWritten(SetLevel(g, Str("constructor"), stringify).level, l)
  {
    ConstructorIsInherited(stringify);
  }

  /** `setLevel` as intended: the level stored is always one of the five. */
  function SetLevelCorrected(g: Logger, x: Value, stringify: Value -> string): (h: Logger)
    ensures h.once == g.once
    ensures LevelNamed(GetLevel(h)) == Some(NormalizeLevelName(x, stringify))
    ensures !LevelsLookup(LevelKey(x, stringify)).Inherited? ==> h == SetLevel(g, x, stringify)
  {
    var l := NormalizeLevelName(x, stringify);
    assert LevelNamed(Name(l)) == Some(l);
    if LevelsLookup(LevelKey(x, stringify)).Inherited? then Logger(Name(l), g.once)
    else
      NormalizeAgreesOffInherited(x, stringify);
      Logger(Name(l), g.once)
  }

  // ---------------------------------------------------------------------------
  // Dedupe keys
  // ---------------------------------------------------------------------------

  const FirstArgKeyMax: nat := 200
  const JsonKeyMax: nat := 500

  /** `makeLogger(scope)`: an empty scope is `app`. */
  function ScopeName(scope: string): (sc: string)
    ensures sc != ""
  {
    if scope == "" then "app" else scope
  }

  /** `keyFromArgs(scope, level, args)`: a short string first argument is the key;
      otherwise the JSON text of the arguments, cut to 500 characters, or a fixed
      key when they cannot be serialised. `json` stands for `JSON.stringify`. */
  function KeyFromArgs(scope: string, l: Level, args: seq<Value>, json: seq<Value> -> Option<string>): (k: string)
    ensures StartsWith(k, Name(l) + ":")
    ensures |args| > 0 && args[0].Str? && |args[0].s| <= FirstArgKeyMax ==> k == Name(l) + ":" + scope + ":" + args[0].s
    ensures !(|args| > 0 && args[0].Str? && |args[0].s| <= FirstArgKeyMax) && json(args).Some? ==>
              |k| <= JsonKeyMax && StartsWith(Name(l) + ":" + scope + ":" + json(args).value, k)
    ensures !(|args| > 0 && args[0].Str? && |args[0].s| <= FirstArgKeyMax) && json(args).None? ==>
              k == Name(l) + ":" + scope + ":[unkeyable]"
  {
    var head := Name(l) + ":" + scope + ":";
    assert StartsWith(head, Name(l) + ":");
    if |args| > 0 && args[0].Str? && |args[0].s| <= FirstArgKeyMax then head + args[0].s
    else if json(args).Some? then
      var full := head + json(args).value;
      if |full| <= JsonKeyMax then full else full[..JsonKeyMax]
    else head + "[unkeyable]"
  }

  /** The key a `warnOnce` or `errorOnce` call dedupes on: an explicit string key
      when there are further arguments, else one derived from the arguments. */
  function OnceKey(scope: string, l: Level, keyOrFirst: Value, rest: seq<Value>, json: seq<Value> -> Option<string>): (k: string)
    ensures StartsWith(k, Name(l) + ":")
  {
    var sc := ScopeName(scope);
    if keyOrFirst.Str? && |rest| > 0 then Name(l) + ":" + sc + ":" + keyOrFirst.s
    else KeyFromArgs(sc, l, [keyOrFirst] + rest, json)
  }

  /** Warn keys and error keys never meet, whatever the scopes and arguments. */
  lemma OnceKeysNamespaced(s1: string, s2: string, a: Value, b: Value, ra: seq<Value>, rb: seq<Value>,
                           json: seq<Value> -> Option<string>)
    ensures OnceKey(s1, Warn, a, ra, json) != OnceKey(s2, Error, b, rb, json)
  {
    var k1 := OnceKey(s1, Warn, a, ra, json);
    var k2 := OnceKey(s2, Error, b, rb, json);
    assert k1[0] == 'w';
    assert k2[0] == 'e';
  }

  /** `warnOnce` (level `Warn`) and `errorOnce` (level `Error`): nothing happens below
      the level; otherwise the line is printed and its key remembered unless the
      key was seen before. */
  function Once(g: Logger, scope: string, l: Level, keyOrFirst: Value, rest: seq<Value>,
                json: seq<Value> -> Option<string>): (res: (bool, Logger))
    requires l == Warn || l == Error
    ensures var (printed, h) := res;
            && h.level == g.level
            && (!ShouldAsWritten(g.level, l) ==> !printed && h == g)
            && (ShouldAsWritten(g.level, l) ==>
                  && h.once == g.once + {OnceKey(scope, l, keyOrFirst, rest, json)}
                  && (printed <==> OnceKey(scope, l, keyOrFirst, rest, json) !in g.once))
  {
    if !ShouldAsWritten(g.level, l) then (false, g)
    else
      var key := OnceKey(scope, l, keyOrFirst, rest, json);
      if key in g.once then (false, g)
      else (true, Logger(g.level, g.once + {key}))
  }

  /** A key prints at most once: a second call with the same key prints nothing. */
  lemma OncePrintsAtMostOnce(g: Logger, scope: string, l: Level, keyOrFirst: Value, rest: seq<Value>,
                             json: seq<Value> -> Option<string>)
    requires l == Warn || l == Error
    ensures var (_, h) := Once(g, scope, l, keyOrFirst, rest, json);
            !Once(h, scope, l, keyOrFirst, rest, json).0
  {
  }

  /** A call the level gate suppresses does not use up its key: once the level is
      raised, the same call prints. */
  lemma SuppressedKeepsKey(g: Logger, scope: string, keyOrFirst: Value, rest: seq<Value>,
                           json: seq<Value> -> Option<string>, stringify: Value -> string)
    requires !ShouldAsWritten(g.level, Warn)
    requires OnceKey(scope, Warn, keyOrFirst, rest, json) !in g.once
    ensures var (_, h) := Once(g, scope, Warn, keyOrFirst, rest, json);
            Once(SetLevel(h, Str("warn"), stringify), scope, Warn, keyOrFirst, rest, json).0
  {
    NameIsClean(Warn);
    CleanKey("warn", stringify);
    assert LevelNamed("warn") == Some(Warn);
  }
}

=== FILE: log_renderer.dfy ===
/** The renderer's logger (public/js/log.js): the same levels, gate and dedupe as
    the main process's logger, plus where the initial level comes from and the
    persistence of `setLevel` in `localStorage` under `tot.logLevel`. */
module LogRenderer {
  import opened Js
  import opened Log
  import Strings

  /** The logger together with the stored `tot.logLevel` entry (`Null` when absent). */
  datatype RendererLogger = RendererLogger(logger: Logger, stored: Value)

  /** `readInitialLevel()`: a truthy `window.TOT_LOG_LEVEL` wins; otherwise the
      stored level is read, falling back to `warn` when that gives nothing. Names
      are kept as `normalizeLevelName` returns them. */
  function ReadInitialLevel(windowLevel: Value, stored: Value, stringify: Value -> string): (s: string)
    ensures var k := LevelKey(if Truthy(windowLevel) then windowLevel else stored, stringify);
            && (DefinedName(k) ==> s == k)
            && (!DefinedName(k) ==> s == "warn")
    ensures !Truthy(windowLevel) && !Truthy(stored) ==> s == "warn"
    ensures DefinedName(s)
  {
    if Truthy(windowLevel) then
      KeepsDefinedKey(windowLevel, stringify);
      NormalizeLevelNameAsWritten(windowLevel, stringify)
    else
      var fromStorage := NormalizeLevelNameAsWritten(stored, stringify);
      KeepsDefinedKey(stored, stringify);
      EmptyKeyIsWarn(stored, stringify);
      if fromStorage != "" then fromStorage else "warn"
  }

  /** A defined key is kept, any other becomes `warn`. */
  lemma KeepsDefinedKey(x: Value, stringify: Value -> string)
    ensures var k := LevelKey(x, stringify);
            && (DefinedName(k) ==> NormalizeLevelNameAsWritten(x, stringify) == k)
            && (!DefinedName(k) ==> NormalizeLevelNameAsWritten(x, stringify) == "warn")
  {
  }

  /** A falsy value reads as `warn`. */
  lemma EmptyKeyIsWarn(x: Value, stringify: Value -> string)
    ensures !Truthy(x) ==> NormalizeLevelNameAsWritten(x, stringify) == "warn"
  {
    if !Truthy(x) {
      assert LevelKey(x, stringify) == "" by {
        assert TextOf(x, stringify) == "";
        assert Strings.Lower("") == "" && Strings.Trim("") == "";
      }
      assert LevelsLookup("").Missing?;
    }
  }

  /** The logger at page load. */
  function Start(windowLevel: Value, stored: Value, stringify: Value -> string): (r: RendererLogger)
    ensures r.logger.once == {}
    ensures r.stored == stored
    ensures r.logger.level == ReadInitialLevel(windowLevel, stored, stringify)
  {
    RendererLogger(Logger(ReadInitialLevel(windowLevel, stored, stringify), {}), stored)
  }

  /** `setLevel(x, { persist })`: the level changes as in the main process, and the
      name it was given is stored unless `persist` is false. */
  function SetLevel(r: RendererLogger, x: Value, persist: bool, stringify: Value -> string): (s: RendererLogger)
    ensures s.logger == Log.SetLevel(r.logger, x, stringify)
    ensures persist ==> s.stored == Str(s.logger.level)
    ensures !persist ==> s.stored == r.stored
  {
    var g := Log.SetLevel(r.logger, x, stringify);
    RendererLogger(g, if persist then Str(g.level) else r.stored)
  }

  /** A persisted level is the level of the next page load, unless the window
      variable overrides it; this holds for the inherited names as well. */
  lemma PersistedLevelSurvivesReload(r: RendererLogger, x: Value, windowLevel: Value, stringify: Value -> string)
    requires !Truthy(windowLevel)
    ensures var s := SetLevel(r, x, true, stringify);
            Start(windowLevel, s.stored, stringify).logger.level == s.logger.level
  {
    var s := SetLevel(r, x, true, stringify);
    AsWrittenIdempotent(x, stringify);
  }

  /** The window variable takes precedence over whatever is stored. */
  lemma WindowLevelWins(l: Level, stored: Value, stringify: Value -> string)
    ensures ReadInitialLevel(Str(Name(l)), stored, stringify) == Name(l)
  {
    NameIsClean(l);
    CleanKey(Name(l), stringify);
    assert LevelNamed(Name(l)) == Some(l);
  }
}

=== FILE: main_process.dfy ===
/** The main process's stopwatch ("crono") and the payload rule of the preset
    window (electron/main.js). The clock `Date.now()` is a parameter `now`, in
    integral milliseconds; the periodic broadcast to the windows is left out. */
module MainProcess {
  import opened Js
  import opened Strings
  import PresetModal

  // ---------------------------------------------------------------------------
  // Display
  // ---------------------------------------------------------------------------

  /** JavaScript's `a % b` for a positive divisor: the remainder takes the sign of `a`. */
  function TruncRem(a: int, b: int): (r: int)
    requires b > 0
    ensures a >= 0 ==> r == a % b
    ensures -b < r < b
    ensures a < 0 ==> r <= 0
  {
    if a >= 0 then a % b else -((-a) % b)
  }

  /** `String(n).padStart(2, '0')`. */
  function TwoDigits(n: int): (r: string)
    ensures |r| >= 2
  {
    PadStartZero(IntToString(n), 2)
  }

  /** `formatTimerMs(ms)`: whole seconds split into hours, minutes and seconds,
      each at least two characters wide. Minutes and seconds use JavaScript's `%`,
      so a negative duration shows negative fields. */
  function FormatTimerMs(ms: real): (r: string)
    ensures |r| >= 8
    ensures ms >= 0.0 ==> IsTimerDisplay(r)
    ensures ms < 0.0 ==> r[0] == '-'
  {
    var totalSeconds := (ms / 1000.0).Floor;
    var hours := totalSeconds / 3600;
    var minutes := TruncRem(totalSeconds, 3600) / 60;
    var seconds := TruncRem(totalSeconds, 60);
    var r := TwoDigits(hours) + ":" + TwoDigits(minutes) + ":" + TwoDigits(seconds);
    if ms >= 0.0 then
      TimerFields(hours, minutes, seconds);
      r
    else
      assert totalSeconds < 0 && hours < 0;
      assert |IntToString(hours)| >= 2;
      assert r[0] == TwoDigits(hours)[0];
      r
  }

  /** `HH:MM:SS`: at least two digits of hours, then two of minutes and two of
      seconds, minutes and seconds below 60. */
  predicate IsTimerDisplay(r: string) {
    && |r| >= 8
    && r[|r| - 6] == ':' && r[|r| - 3] == ':'
    && AllDigits(r[..|r| - 6]) && AllDigits(r[|r| - 5..|r| - 3]) && AllDigits(r[|r| - 2..])
    && DigitsValue(r[|r| - 5..|r| - 3]) < 60 && DigitsValue(r[|r| - 2..]) < 60
  }

  /** The number of seconds a timer display stands for. */
  function DisplaySeconds(r: string): nat
    requires IsTimerDisplay(r)
  {
    DigitsValue(r[..|r| - 6]) * 3600 + DigitsValue(r[|r| - 5..|r| - 3]) * 60 + DigitsValue(r[|r| - 2..])
  }

  lemma TimerFields(h: int, m: int, s: int)
    requires h >= 0 && 0 <= m < 60 && 0 <= s < 60
    ensures var r := TwoDigits(h) + ":" + TwoDigits(m) + ":" + TwoDigits(s);
            && IsTimerDisplay(r)
            && DisplaySeconds(r) == h * 3600 + m * 60 + s
  {
    var hs, ms, ss := TwoDigits(h), TwoDigits(m), TwoDigits(s);
    TwoDigitsValue(h);
    TwoDigitsValue(m);
    TwoDigitsValue(s);
    DisplayOfFields(hs, ms, ss);
  }

  lemma DisplayOfFields(hs: string, ms: string, ss: string)
    requires |hs| >= 2 && |ms| == 2 && |ss| == 2
    requires AllDigits(hs) && AllDigits(ms) && AllDigits(ss)
    requires DigitsValue(ms) < 60 && DigitsValue(ss) < 60
    ensures var r := hs + ":" + ms + ":" + ss;
            && IsTimerDisplay(r)
            && DisplaySeconds(r) == DigitsValue(hs) * 3600 + DigitsValue(ms) * 60 + DigitsValue(ss)
  {
    JoinFields(hs, ms, ss);
  }

  /** A non-negative field reads back as itself; below 100 it is exactly two digits. */
  lemma TwoDigitsValue(n: int)
    requires n >= 0
    ensures AllDigits(TwoDigits(n)) && DigitsValue(TwoDigits(n)) == n
    ensures n < 100 ==> |TwoDigits(n)| == 2
  {
    assert IntToString(n) == NatToString(n);
    PaddedValue(n, 2);
    ShortNumber(n);
  }

  lemma ShortNumber(n: nat)
    ensures n < 100 ==> |NatToString(n)| <= 2
  {
    if 10 <= n < 100 {
      assert NatToString(n) == NatToString(n / 10) + [DigitChar(n % 10)];
    }
  }

  /** Where the three fields of a display sit. */
  lemma JoinFields(hs: string, ms: string, ss: string)
    requires |ms| == 2 && |ss| == 2
    ensures var r := hs + ":" + ms + ":" + ss;
            && |r| == |hs| + 6
            && r[|r| - 6] == ':' && r[|r| - 3] == ':'
            && r[..|r| - 6] == hs && r[|r| - 5..|r| - 3] == ms && r[|r| - 2..] == ss
  {
  }

  /** A display that stands for the whole seconds of `ms` milliseconds. */
  predicate ShowsSeconds(r: string, ms: real) {
    IsTimerDisplay(r) && DisplaySeconds(r) == (ms / 1000.0).Floor
  }

  /** The display of a non-negative duration reads back as its whole seconds. */
  lemma TimerReadsBack(ms: real)
    requires ms >= 0.0
    ensures ShowsSeconds(FormatTimerMs(ms), ms)
  {
    var t := (ms / 1000.0).Floor;
    assert t >= 0;
    var h, m, sec := t / 3600, TruncRem(t, 3600) / 60, TruncRem(t, 60);
    SplitSeconds(t);
    assert FormatTimerMs(ms) == TwoDigits(h) + ":" + TwoDigits(m) + ":" + TwoDigits(sec);
    TimerFields(h, m, sec);
  }

  /** Hours, minutes and seconds as `formatTimerMs` computes them add up to the
      whole seconds. */
  lemma SplitSeconds(t: int)
    requires t >= 0
    ensures var m, s := TruncRem(t, 3600) / 60, TruncRem(t, 60);
            && 0 <= m < 60 && 0 <= s < 60
            && (t / 3600) * 3600 + m * 60 + s == t
  {
    var q, r := t / 3600, t % 3600;
    assert t == q * 3600 + r;
    var a, b := r / 60, r % 60;
    assert r == a * 60 + b;
    assert t == (q * 60 + a) * 60 + b;
    ModOfMultiple(t, q * 60 + a, b);
  }

  lemma ModOfMultiple(n: int, k: int, b: int)
    requires 0 <= b < 60 && n == k * 60 + b
    ensures n % 60 == b
  {
  }

  /** Two non-negative durations show the same display exactly when they have
      the same whole number of seconds. */
  lemma TimerDisplayDependsOnSeconds(a: real, b: real)
    requires a >= 0.0 && b >= 0.0
    ensures FormatTimerMs(a) == FormatTimerMs(b) <==> (a / 1000.0).Floor == (b / 1000.0).Floor
  {
    TimerReadsBack(a);
    TimerReadsBack(b);
  }

  // ---------------------------------------------------------------------------
  // Stopwatch
  // ---------------------------------------------------------------------------

  /** The `crono` record. `elapsed` holds the milliseconds accumulated before the
      current run; `startTs` the clock reading when the current run began. */
  datatype Crono = Crono(running: bool, elapsed: real, startTs: Option<int>)

  /** The shape every reachable stopwatch has: a start time exactly while running. */
  predicate Valid(c: Crono) { c.running <==> c.startTs.Some? }

  const Initial: Crono := Crono(false, 0.0, None)

  /** The time shown at `now`: the accumulated time, plus the current run while
      running. A missing start time counts as 0, as `now - null` does. */
  function ElapsedAt(c: Crono, now: int): (e: real)
    ensures !c.running ==> e == c.elapsed
    ensures c.running && c.startTs.Some? ==> e - c.elapsed == (now - c.startTs.value) as real
  {
    if c.running then c.elapsed + (now - (if c.startTs.Some? then c.startTs.value else 0)) as real
    else c.elapsed
  }

  /** `getCronoState()`. */
  datatype CronoView = CronoView(elapsed: real, running: bool, display: string)

  function GetCronoState(c: Crono, now: int): (v: CronoView)
    ensures v.running == c.running
    ensures v.elapsed == ElapsedAt(c, now)
    ensures v.elapsed >= 0.0 ==> ShowsSeconds(v.display, v.elapsed)
  {
    var e := ElapsedAt(c, now);
    var display := FormatTimerMs(e);
    if e >= 0.0 then
      TimerReadsBack(e);
      CronoView(e, c.running, display)
    else CronoView(e, c.running, display)
  }

  /** `startCrono()`: a stopped stopwatch starts at `now`; a running one is left alone. */
  function Start(c: Crono, now: int): (d: Crono)
    ensures c.running ==> d == c
    ensures !c.running ==> d.running && d.startTs == Some(now) && d.elapsed == c.elapsed
    ensures Valid(c) ==> Valid(d)
    ensures ElapsedAt(d, now) == ElapsedAt(c, now)
  {
    if !c.running then Crono(true, c.elapsed, Some(now)) else c
  }

  /** `stopCrono()`: a running stopwatch banks the current run; a stopped one is left alone. */
  function Stop(c: Crono, now: int): (d: Crono)
    ensures !c.running ==> d == c
    ensures c.running ==> !d.running && d.startTs == None
    ensures Valid(c) ==> Valid(d)
    ensures ElapsedAt(d, now) == ElapsedAt(c, now)
  {
    if c.running then Crono(false, ElapsedAt(c, now), None) else c
  }

  /** `resetCrono()`. */
  function Reset(c: Crono): (d: Crono)
    ensures Valid(d) && !d.running
    ensures forall now :: ElapsedAt(d, now) == 0.0
  {
    Crono(false, 0.0, None)
  }

  /** `Number(ms) || 0`: NaN and zero become 0. */
  function ElapsedArgument(ms: Value): (n: real)
    requires !ToNumber(ms).PosInf? && !ToNumber(ms).NegInf?
    ensures ToNumber(ms).Finite? ==> n == ToNumber(ms).value
    ensures ToNumber(ms).NaN? ==> n == 0.0
  {
    var x := ToNumber(ms);
    if x.Finite? then x.value else 0.0
  }

  /** `setCronoElapsed(ms)`: the shown time becomes the argument at once; a running
      stopwatch keeps running from `now`. */
  function SetElapsed(c: Crono, ms: Value, now: int): (d: Crono)
    requires !ToNumber(ms).PosInf? && !ToNumber(ms).NegInf?
    ensures ElapsedAt(d, now) == ElapsedArgument(ms)
    ensures d.running == c.running
    ensures !c.running ==> d.startTs == c.startTs
    ensures Valid(c) ==> Valid(d)
  {
    var n := ElapsedArgument(ms);
    if c.running then Crono(true, n, Some(now)) else Crono(false, n, c.startTs)
  }

  /** The `crono-toggle` message: stop when running, else start. */
  function Toggle(c: Crono, now: int): (d: Crono)
    ensures d.running == !c.running
    ensures ElapsedAt(d, now) == ElapsedAt(c, now)
    ensures Valid(c) ==> Valid(d)
  {
    if c.running then Stop(c, now) else Start(c, now)
  }

  /** A run started at `t0` and stopped at `t1` adds exactly `t1 - t0` to the
      banked time, and the shown time then stays put. */
  lemma RunAccumulates(c: Crono, t0: int, t1: int, later: int)
    requires Valid(c) && !c.running
    ensures var d := Toggle(Toggle(c, t0), t1);
            && !d.running && Valid(d)
            && ElapsedAt(d, later) == c.elapsed + (t1 - t0) as real
  {
  }

  /** While running, the shown time advances with the clock. */
  lemma RunningAdvances(c: Crono, now: int, later: int)
    requires Valid(c) && c.running
    ensures ElapsedAt(c, later) - ElapsedAt(c, now) == (later - now) as real
  {
  }

  // ---------------------------------------------------------------------------
  // Preset window payload
  // ---------------------------------------------------------------------------

  /** The `open-preset-modal` handler: nothing without a main window; otherwise the
      preset window's initial data is `{wpm: payload}` for a number, the payload
      itself for a non-null object, and `{}` for anything else. */
  function PresetModalData(mainWindowOpen: bool, payload: Value): (r: Option<Value>)
    ensures r.None? <==> !mainWindowOpen
    ensures r.Some? ==> TypeofObject(r.value) && Truthy(r.value)
    ensures r.Some? && payload.Num? ==> Get(r.value, "wpm") == payload
    ensures r.Some? && Truthy(payload) && TypeofObject(payload) ==> r.value == payload
    ensures r.Some? && !payload.Num? && !(Truthy(payload) && TypeofObject(payload)) ==> r.value == Obj(map[])
  {
    if !mainWindowOpen then None
    else if payload.Num? then Some(Obj(map["wpm" := payload]))
    else if Truthy(payload) && TypeofObject(payload) then Some(payload)
    else Some(Obj(map[]))
  }

  /** A number sent to the preset window opens a new preset with that WPM rounded,
      named after it when the name is blank. */
  lemma PresetModalDataLoads(f: PresetModal.Form, w: real, stringify: Value -> string)
    requires Trim(f.name) == ""
    ensures var data := PresetModalData(true, Num(Finite(w)));
            && data.Some?
            && PresetModal.OnInit(f, data.value, stringify)
               == f.(mode := PresetModal.New, wpm := IntToString(Round(w)), name := IntToString(Round(w)) + "wpm")
  {
    PresetModal.NewWithWpmLoads(f, w, stringify);
  }

  /** An object or array sent to the preset window reaches its `onInit` as sent. */
  lemma PresetModalDataPassesObjects(f: PresetModal.Form, payload: Value, stringify: Value -> string)
    requires Truthy(payload) && TypeofObject(payload)
    ensures PresetModalData(true, payload) == Some(payload)
    ensures PresetModal.OnInit(f, PresetModalData(true, payload).value, stringify)
            == PresetModal.OnInit(f, payload, stringify)
  {
  }
}

=== FILE: menu.dfy ===
/** The renderer's menu-action registry (public/js/menu.js): a `Map` from menu
    payloads to callbacks, kept in insertion order, and the one-time subscription
    to menu clicks. Callbacks are function values told apart by identity; running
    one is reduced to naming which one runs. */
module Menu {
  import opened Js
  import opened Strings

  /** The `Map`: the callback of each payload, and the payloads in insertion order. */
  datatype Registry = Registry(callbacks: map<string, nat>, order: seq<string>)

  predicate NoDuplicates(ks: seq<string>) {
    forall i, j | 0 <= i < j < |ks| :: ks[i] != ks[j]
  }

  /** Each payload is listed once, and exactly the payloads with a callback are listed. */
  predicate Valid(r: Registry) {
    && NoDuplicates(r.order)
    && (forall k | k in r.order :: k in r.callbacks)
    && (forall k | k in r.callbacks :: k in r.order)
  }

  const Empty: Registry := Registry(map[], [])

  /** `registry.get(payload)` for a string key. */
  function Lookup(r: Registry, payload: string): (c: Option<nat>)
    ensures c.Some? <==> payload in r.callbacks
  {
    if payload in r.callbacks then Some(r.callbacks[payload]) else None
  }

  /** `registry.set(payload, callback)`: an existing key keeps its place and takes the
      new callback; a new key goes last. */
  function Set(r: Registry, payload: string, callback: nat): (s: Registry)
    requires Valid(r)
    ensures Valid(s)
    ensures Lookup(s, payload) == Some(callback)
    ensures forall k | k != payload :: Lookup(s, k) == Lookup(r, k)
    ensures payload in r.callbacks ==> s.order == r.order
    ensures payload !in r.callbacks ==> s.order == r.order + [payload]
  {
    var order := if payload in r.callbacks then r.order else r.order + [payload];
    Registry(r.callbacks[payload := callback], order)
  }

  /** `order` without `k`, the rest in the same order. */
  function Remove(ks: seq<string>, k: string): (r: seq<string>)
    ensures forall x :: x in r <==> x in ks && x != k
    ensures NoDuplicates(ks) ==> NoDuplicates(r)
    ensures k !in ks ==> r == ks
  {
    if ks == [] then []
    else if ks[0] == k then Remove(ks[1..], k)
    else
      var rest := Remove(ks[1..], k);
      assert NoDuplicates(ks) ==> ks[0] !in ks[1..];
      [ks[0]] + rest
  }

  /** `registry.delete(payload)`: true exactly when the key was there; it is gone
      afterwards and every other key keeps its callback and order. */
  function Delete(r: Registry, payload: string): (res: (bool, Registry))
    requires Valid(r)
    ensures res.0 <==> Lookup(r, payload).Some?
    ensures Valid(res.1)
    ensures Lookup(res.1, payload).None?
    ensures forall k | k != payload :: Lookup(res.1, k) == Lookup(r, k)
    ensures !res.0 ==> res.1 == r
  {
    if payload in r.callbacks then (true, Registry(r.callbacks - {payload}, Remove(r.order, payload)))
    else (false, r)
  }

  datatype RegisterError = BlankPayload | NotAFunction

  /** `registerMenuAction(payload, callback)`: the payload must be a non-blank string
      and the callback a function; otherwise it throws and the registry is left. */
  function RegisterMenuAction(r: Registry, payload: Value, callback: Value): (res: Result<Registry, RegisterError>)
    requires Valid(r)
    ensures res.Err? <==> !payload.Str? || Trim(payload.s) == "" || !callback.Func?
    ensures res.Err? ==> res.error == (if !payload.Str? || Trim(payload.s) == "" then BlankPayload else NotAFunction)
    ensures res.Ok? ==> Valid(res.value) && Lookup(res.value, payload.s) == Some(callback.id)
    ensures res.Ok? ==> forall k | k != payload.s :: Lookup(res.value, k) == Lookup(r, k)
  {
    if !payload.Str? || Trim(payload.s) == "" then Err(BlankPayload)
    else if !callback.Func? then Err(NotAFunction)
    else Ok(Set(r, payload.s, callback.id))
  }

  /** `unregisterMenuAction(payload)`: `Map.delete` finds only string keys. */
  function UnregisterMenuAction(r: Registry, payload: Value): (res: (bool, Registry))
    requires Valid(r)
    ensures res.0 <==> payload.Str? && Lookup(r, payload.s).Some?
    ensures Valid(res.1)
    ensures payload.Str? ==> Lookup(res.1, payload.s).None?
    ensures !res.0 ==> res.1 == r
  {
    if payload.Str? then Delete(r, payload.s) else (false, r)
  }

  /** `listMenuActions()`: exactly the registered payloads, each once, in the order
      of first registration. */
  function ListMenuActions(r: Registry): (ks: seq<string>)
    requires Valid(r)
    ensures forall k :: k in ks <==> Lookup(r, k).Some?
    ensures NoDuplicates(ks)
  {
    r.order
  }

  /** `handleMenuClick(payload)`: the callback registered for the payload runs (its
      exceptions are caught); an unknown payload runs nothing. The registry is not
      changed. */
  function HandleMenuClick(r: Registry, payload: Value): (invoked: Option<nat>)
    ensures invoked.Some? <==> payload.Str? && Lookup(r, payload.s).Some?
    ensures invoked.Some? ==> Lookup(r, payload.s) == invoked
  {
    if payload.Str? then Lookup(r, payload.s) else None
  }

  /** A click after registering runs the new callback; after unregistering it runs
      nothing. */
  lemma RegisterThenClick(r: Registry, payload: string, callback: nat)
    requires Valid(r) && Trim(payload) != ""
    ensures var res := RegisterMenuAction(r, Str(payload), Func(callback));
            && res.Ok?
            && HandleMenuClick(res.value, Str(payload)) == Some(callback)
            && HandleMenuClick(UnregisterMenuAction(res.value, Str(payload)).1, Str(payload)).None?
  {
  }

  // ---------------------------------------------------------------------------
  // The click subscription
  // ---------------------------------------------------------------------------

  /** The stored unsubscribe function, and how many times the click handler has
      been subscribed. */
  datatype Listener = Listener(unsubscribe: Option<nat>, subscriptions: nat)

  /** What `electronAPI.onMenuClick` does when called: it is missing, throws, or
      returns a value. */
  datatype SubscribeCall = Unavailable | Throws | Returns(v: Value)

  /** `setupListener()`: with an unsubscribe function stored nothing happens;
      otherwise the handler is subscribed and a returned function is stored. */
  function SetupListener(l: Listener, call: SubscribeCall): (res: (bool, Listener))
    ensures l.unsubscribe.Some? ==> res == (true, l)
    ensures l.unsubscribe.None? && call.Returns? ==>
              res.0 && res.1.subscriptions == l.subscriptions + 1
              && (res.1.unsubscribe.Some? <==> call.v.Func?)
    ensures l.unsubscribe.None? && !call.Returns? ==> res == (false, l)
  {
    if l.unsubscribe.Some? then (true, l)
    else match call
      case Unavailable => (false, l)
      case Throws => (false, l)
      case Returns(v) =>
        (true, Listener(if v.Func? then Some(v.id) else None, l.subscriptions + 1))
  }

  /** Once an unsubscribe function is stored, setting up again never subscribes a
      second time, however often it is called. */
  lemma SetupIsOnce(l: Listener, calls: seq<SubscribeCall>)
    requires l.unsubscribe.Some?
    ensures SetupAll(l, calls) == l
  {
  }

  function SetupAll(l: Listener, calls: seq<SubscribeCall>): (m: Listener)
    ensures m.subscriptions >= l.subscriptions
    decreases |calls|
  {
    if calls == [] then l else SetupAll(SetupListener(l, calls[0]).1, calls[1..])
  }

  /** `stopListening()`: the stored function is called (its exceptions are caught)
      and forgotten. */
  function StopListening(l: Listener): (m: Listener)
    ensures m.unsubscribe.None? && m.subscriptions == l.subscriptions
  {
    Listener(None, l.subscriptions)
  }
}

=== FILE: preset_modal.dfy ===
/** The preset window (public/preset_modal.js): the form that creates or edits one
    preset. The three fields are held as the text the inputs show; the window's
    title, the alerts and the close call are reduced to outcomes. */
module PresetModal {
  import opened Js
  import opened Strings

  /** `nameMaxLength` and `descMaxLength`. */
  const NameMaxLength: nat := 13
  const DescMaxLength: nat := 120

  datatype Mode = New | Edit

  /** The form: the mode, the name being edited (`null` until edit mode is entered),
      and the text of the name, WPM and description inputs. */
  datatype Form = Form(mode: Mode, originalName: Value, name: string, wpm: string, description: string)

  /** An empty form as the window opens. */
  function Blank(): (f: Form)
    ensures f.mode == New && f.originalName == Null
  {
    Form(New, Null, "", "", "")
  }

  /** The preset `validate()` hands to the main process. */
  datatype PresetInput = PresetInput(name: string, wpm: int, description: string)

  /** A WPM text that `Number(...)` reads as a finite number above 0. */
  predicate PositiveWpm(wpmText: string) {
    StringToNumber(wpmText).Finite? && StringToNumber(wpmText).value > 0.0
  }

  // ---------------------------------------------------------------------------
  // validate()
  // ---------------------------------------------------------------------------

  /** `validate()` as written: a blank name or a WPM that is not a finite number
      above 0 is refused; otherwise the trimmed name and description and the WPM
      rounded to the nearest integer. */
  function Validate(name: string, wpmText: string, description: string): (r: Option<PresetInput>)
    ensures r.None? <==> Trim(name) == "" || !PositiveWpm(wpmText)
    ensures r.Some? ==> && r.value.name == Trim(name) && r.value.name != ""
                        && r.value.description == Trim(description)
                        && r.value.wpm >= 0
                        && StringToNumber(wpmText).value - 0.5 < r.value.wpm as real <= StringToNumber(wpmText).value + 0.5
  {
    var n := Trim(name);
    var w := StringToNumber(wpmText);
    if n == "" then None
    else if !w.Finite? || w.value <= 0.0 then None
    else Some(PresetInput(n, Round(w.value), Trim(description)))
  }

  /** A WPM between 0 and 0.5 passes the check and is then rounded to 0, a preset
      that `validate()` itself would refuse. */
  lemma SmallWpmRoundsToZero(name: string, wpmText: string, description: string)
    requires Trim(name) != ""
    requires StringToNumber(wpmText).Finite? && 0.0 < StringToNumber(wpmText).value < 0.5
    ensures var r := Validate(name, wpmText, description);
            && r == Some(PresetInput(Trim(name), 0, Trim(description)))
            && Validate(r.value.name, IntToString(r.value.wpm), r.value.description).None?
  {
    var p := Validate(name, wpmText, description).value;
    assert p.wpm == 0;
    IntegerText(p.wpm);
    assert !PositiveWpm(IntToString(p.wpm));
  }

  /** Such texts exist: `"0.1"` to `"0.4"` (and `".1"` to `".4"`, or with more
      leading zeros) read as numbers strictly between 0 and 0.5. */
  lemma SmallDecimalText(a: string, b: string)
    requires AllDigits(a) && DigitsValue(a) == 0
    requires AllDigits(b) && |b| == 1 && 1 <= DigitsValue(b) <= 4
    ensures var n := StringToNumber(a + ['.'] + b);
            n.Finite? && 0.0 < n.value < 0.5
  {
    DecimalNumber(a, b);
    SmallFraction(b);
  }

  lemma SmallFraction(b: string)
    requires AllDigits(b) && |b| == 1 && 1 <= DigitsValue(b) <= 4
    ensures 0.0 < Fraction(b) < 0.5
  {
    assert Pow10(|b|) == 10;
  }

  /** `validate()` with the evident intent that a saved preset has a positive WPM:
      the check is made on the rounded value. */
  function ValidateCorrected(name: string, wpmText: string, description: string): (r: Option<PresetInput>)
    ensures r.None? <==> Trim(name) == "" || !PositiveWpm(wpmText) || Round(StringToNumber(wpmText).value) < 1
    ensures r.Some? ==> && r.value.name == Trim(name) && r.value.name != ""
                        && r.value.description == Trim(description)
                        && r.value.wpm >= 1
                        && StringToNumber(wpmText).value - 0.5 < r.value.wpm as real <= StringToNumber(wpmText).value + 0.5
  {
    var v := Validate(name, wpmText, description);
    if v.Some? && v.value.wpm < 1 then None else v
  }

  /** What `validate()` returns, written back into the form, validates to itself:
      the corrected check accepts its own output. */
  lemma ValidateCorrectedStable(name: string, wpmText: string, description: string)
    requires ValidateCorrected(name, wpmText, description).Some?
    ensures var p := ValidateCorrected(name, wpmText, description).value;
            ValidateCorrected(p.name, IntToString(p.wpm), p.description) == Some(p)
  {
    var p := ValidateCorrected(name, wpmText, description).value;
    TrimIdempotent(name);
    TrimIdempotent(description);
    ValidateInteger(p.name, p.wpm, p.description);
  }

  /** A trimmed name and description with an integral WPM of at least 1 validate
      to themselves. */
  lemma ValidateInteger(name: string, wpm: int, description: string)
    requires name != "" && Trim(name) == name
    requires wpm >= 1
    ensures Validate(name, IntToString(wpm), description) == Some(PresetInput(name, wpm, Trim(description)))
    ensures ValidateCorrected(name, IntToString(wpm), description) == Some(PresetInput(name, wpm, Trim(description)))
  {
    IntegerText(wpm);
  }

  /** The text of a non-negative integer reads back as that integer. */
  lemma IntegerText(k: int)
    requires k >= 0
    ensures StringToNumber(IntToString(k)) == Finite(k as real)
    ensures k >= 1 ==> PositiveWpm(IntToString(k)) && Round(k as real) == k
  {
    assert IntToString(k) == NatToString(k);
    NatText(k);
  }

  // ---------------------------------------------------------------------------
  // Input caps and the WPM auto-name
  // ---------------------------------------------------------------------------

  /** The `input` handlers of the name and description fields: a value that
      reaches the cap is cut to its first `max` units. */
  function Cap(value: string, max: nat): (r: string)
    ensures |r| <= |value|
    ensures |r| <= max || r == value
    ensures |value| >= max ==> |r| == max
    ensures r == value[..|r|]
    ensures |value| <= max ==> r == value
  {
    if |value| >= max then value[..max] else value
  }

  /** Cutting twice is cutting once. */
  lemma CapIdempotent(value: string, max: nat)
    ensures Cap(Cap(value, max), max) == Cap(value, max)
    ensures |Cap(value, max)| <= max
  {
  }

  /** The description's `input` handler: the counter shows the cap minus the length
      typed, computed before the cut, so a paste past the cap shows a negative
      count over a description of exactly the cap. */
  function DescriptionInput(value: string): (r: (string, int))
    ensures r.0 == Cap(value, DescMaxLength) && |r.0| <= DescMaxLength
    ensures r.1 < 0 <==> |value| > DescMaxLength
    ensures r.1 + |value| == DescMaxLength
  {
    (Cap(value, DescMaxLength), DescMaxLength as int - |value|)
  }

  /** The name's `input` handler. */
  function NameInput(value: string): (r: string)
    ensures |r| <= NameMaxLength && |r| <= |value| && r == value[..|r|]
    ensures |value| <= NameMaxLength ==> r == value
  {
    Cap(value, NameMaxLength)
  }

  /** The WPM field's `input` handler: a blank name becomes `"{wpm}wpm"` when the
      WPM is a finite number above 0; `show` is JavaScript's rendering of that
      number. Any other name is left alone. */
  function WpmInput(f: Form, show: real -> string): (g: Form)
    ensures g.mode == f.mode && g.originalName == f.originalName
    ensures g.wpm == f.wpm && g.description == f.description
    ensures g.name != f.name ==> Trim(f.name) == "" && PositiveWpm(f.wpm)
    ensures Trim(f.name) == "" && PositiveWpm(f.wpm) ==>
              g.name == show(StringToNumber(f.wpm).value) + "wpm" && Trim(g.name) != ""
  {
    if Trim(f.name) == "" && PositiveWpm(f.wpm) then
      var n := show(StringToNumber(f.wpm).value) + "wpm";
      assert !IsSpace(n[|n| - 1]);
      f.(name := n)
    else f
  }

  /** A blank name that is auto-filled from a positive WPM no longer blocks saving. */
  lemma AutoNamePassesValidate(f: Form, show: real -> string)
    requires Trim(f.name) == "" && PositiveWpm(f.wpm)
    ensures var g := WpmInput(f, show);
            Validate(g.name, g.wpm, g.description).Some?
  {
  }

  // ---------------------------------------------------------------------------
  // Initial data
  // ---------------------------------------------------------------------------

  /** `Math.round(n)` as the text an input receives. */
  function RoundedText(n: Number): (t: string)
    ensures n.Finite? ==> t == IntToString(Round(n.value))
    ensures !n.Finite? ==> t != [] && !AllDigits(t)
  {
    match n
    case Finite(x) => IntToString(Round(x))
    case NaN => assert !IsDigit("NaN"[0]); "NaN"
    case PosInf => assert !IsDigit("Infinity"[0]); "Infinity"
    case NegInf => assert !IsDigit("-Infinity"[0]); "-Infinity"
  }

  /** `data.mode === 'edit' && data.preset && data.preset.name`. */
  predicate IsEditRequest(data: Value) {
    && Get(data, "mode") == Str("edit")
    && Truthy(Get(data, "preset"))
    && Truthy(Get(Get(data, "preset"), "name"))
  }

  /** The `onInit` callback. Falsy data changes nothing. An edit request enters edit
      mode and loads the preset's name, description and, when it is a number, its
      rounded WPM. Anything else is a new preset: a numeric `wpm` fills the WPM
      field and, when the name is blank, the name `"{wpm}wpm"`. `stringify` is
      `String(...)` for values that are not strings. */
  function OnInit(f: Form, data: Value, stringify: Value -> string): (g: Form)
    ensures !Truthy(data) ==> g == f
    ensures Truthy(data) ==> (g.mode == Edit <==> IsEditRequest(data))
    ensures Truthy(data) && IsEditRequest(data) ==>
              var p := Get(data, "preset");
              && g.originalName == Get(p, "name")
              && g.name == TextOf(Get(p, "name"), stringify)
              && g.description == TextOf(Get(p, "description"), stringify)
              && g.wpm == (if Get(p, "wpm").Num? then RoundedText(Get(p, "wpm").n) else f.wpm)
    ensures Truthy(data) && !IsEditRequest(data) ==>
              && g.originalName == f.originalName && g.description == f.description
              && (Get(data, "wpm").Num? ==> g.wpm == RoundedText(Get(data, "wpm").n))
              && (!Get(data, "wpm").Num? ==> g.wpm == f.wpm && g.name == f.name)
              && (g.name != f.name ==> Trim(f.name) == "" && g.name == g.wpm + "wpm")
  {
    if !Truthy(data) then f
    else if IsEditRequest(data) then
      var p := Get(data, "preset");
      var w := Get(p, "wpm");
      Form(Edit, Get(p, "name"), TextOf(Get(p, "name"), stringify), if w.Num? then RoundedText(w.n) else f.wpm,
           TextOf(Get(p, "description"), stringify))
    else
      var w := Get(data, "wpm");
      if w.Num? then
        var t := RoundedText(w.n);
        f.(mode := New, wpm := t, name := if Trim(f.name) == "" then t + "wpm" else f.name)
      else f.(mode := New)
  }

  /** Opening the window from the main window with a WPM: the main process wraps
      the number as `{wpm}`, and a blank form becomes a new preset named after the
      rounded WPM, which `validate()` accepts when that WPM is at least 1. */
  lemma OpenWithWpm(f: Form, w: real, stringify: Value -> string)
    requires Trim(f.name) == ""
    requires w >= 0.5
    ensures var data := Obj(map["wpm" := Num(Finite(w))]);
            var g := OnInit(f, data, stringify);
            && g.mode == New
            && g.wpm == IntToString(Round(w))
            && g.name == IntToString(Round(w)) + "wpm"
            && Validate(g.name, g.wpm, g.description) == Some(PresetInput(g.name, Round(w), Trim(g.description)))
  {
    var k := Round(w);
    NewWithWpmLoads(f, w, stringify);
    AutoNamedValidates(k, f.description);
  }

  lemma NewWithWpmLoads(f: Form, w: real, stringify: Value -> string)
    requires Trim(f.name) == ""
    ensures OnInit(f, Obj(map["wpm" := Num(Finite(w))]), stringify)
            == f.(mode := New, wpm := IntToString(Round(w)), name := IntToString(Round(w)) + "wpm")
  {
    var data := Obj(map["wpm" := Num(Finite(w))]);
    assert Get(data, "mode") == Undefined;
    assert Get(data, "wpm") == Num(Finite(w));
  }

  /** The name `"{k}wpm"` with the WPM `k` validates. */
  lemma AutoNamedValidates(k: int, description: string)
    requires k >= 1
    ensures var n := IntToString(k) + "wpm";
            Validate(n, IntToString(k), description) == Some(PresetInput(n, k, Trim(description)))
  {
    var n := IntToString(k) + "wpm";
    assert IsDigit(IntToString(k)[0]);
    UnitSuffixTrimmed(IntToString(k));
    ValidateInteger(n, k, description);
  }

  lemma UnitSuffixTrimmed(t: string)
    requires t != [] && !IsSpace(t[0])
    ensures Trim(t + "wpm") == t + "wpm"
  {
    var n := t + "wpm";
    assert n[0] == t[0];
    assert n[|n| - 1] == 'm';
    TrimUnchanged(n);
  }

  /** Editing a saved preset (a trimmed name and an integral WPM of at least 1) and
      saving without changes hands back the same preset. */
  lemma EditRoundTrip(f: Form, data: Value, name: string, wpm: nat, description: string, stringify: Value -> string)
    requires name != "" && Trim(name) == name && Trim(description) == description && wpm >= 1
    requires Get(data, "mode") == Str("edit")
    requires var p := Get(data, "preset");
             Get(p, "name") == Str(name) && Get(p, "wpm") == Num(Finite(wpm as real)) && Get(p, "description") == Str(description)
    ensures var g := OnInit(f, data, stringify);
            && g.mode == Edit && g.originalName == Str(name)
            && Validate(g.name, g.wpm, g.description) == Some(PresetInput(name, wpm, description))
  {
    EditLoads(f, data, name, wpm, description, stringify);
    ValidateInteger(name, wpm, description);
  }

  lemma EditLoads(f: Form, data: Value, name: string, wpm: nat, description: string, stringify: Value -> string)
    requires name != ""
    requires Get(data, "mode") == Str("edit")
    requires var p := Get(data, "preset");
             Get(p, "name") == Str(name) && Get(p, "wpm") == Num(Finite(wpm as real)) && Get(p, "description") == Str(description)
    ensures OnInit(f, data, stringify) == Form(Edit, Str(name), name, IntToString(wpm), description)
  {
    assert IsEditRequest(data);
    assert Round(wpm as real) == wpm;
  }

  // ---------------------------------------------------------------------------
  // Save
  // ---------------------------------------------------------------------------

  /** The request the save button sends. */
  datatype SaveCall = EditCall(originalName: Value, preset: PresetInput) | CreateCall(preset: PresetInput)

  /** The save button: nothing is sent when `validate()` refuses or the API is
      missing; edit mode asks to edit the original name, otherwise to create. */
  function SaveRequest(f: Form, apiAvailable: bool): (c: Option<SaveCall>)
    ensures c.Some? <==> apiAvailable && Validate(f.name, f.wpm, f.description).Some?
    ensures c.Some? ==> c.value.preset == Validate(f.name, f.wpm, f.description).value
    ensures c.Some? ==> (c.value.EditCall? <==> f.mode == Edit)
    ensures c.Some? && c.value.EditCall? ==> c.value.originalName == f.originalName
  {
    var p := Validate(f.name, f.wpm, f.description);
    if p.None? || !apiAvailable then None
    else if f.mode == Edit then Some(EditCall(f.originalName, p.value))
    else Some(CreateCall(p.value))
  }

  datatype SaveOutcome = Close | Quiet | Alert

  /** The reply to a save: `{ok}` closes the window; a cancelled edit stays quietly;
      anything else alerts. */
  function AfterSave(mode: Mode, res: Value): (o: SaveOutcome)
    ensures o == Close <==> Truthy(res) && Truthy(Get(res, "ok"))
    ensures o == Quiet <==> mode == Edit && !Truthy(Get(res, "ok")) && Get(res, "code") == Str("CANCELLED")
  {
    if Truthy(res) && Truthy(Get(res, "ok")) then Close
    else if mode == Edit && Truthy(res) && Get(res, "code") == Str("CANCELLED") then Quiet
    else Alert
  }
}

=== FILE: presets.dfy ===
/** WPM presets and how the renderer combines them (public/js/presets.js).

    The visible preset list for a language is the general defaults followed by the
    language's defaults, minus the defaults the user disabled for that language,
    with the user's own presets replacing same-named entries, sorted by name.
    Name order is the host's `localeCompare`, modelled as an arbitrary collation key
    per name compared lexicographically. */
module Presets {
  import opened Js

  /** A preset. Names are strings: the empty string is the empty name the main
      process's `!p.name` tests refuse. A preset with no name at all is not
      modelled; `combinePresets` would throw on it, since `localeCompare` is
      called on every name. */
  datatype Preset = Preset(name: string, wpm: int, description: string)

  /** The preset part of the persisted settings. `language` is empty when unset;
      `disabled` maps a language to the default names the user hid for it. */
  datatype Settings = Settings(language: string, presets: seq<Preset>, disabled: Option<map<string, seq<string>>>)

  /** Default presets: a general list and one list per language code. */
  datatype Defaults = Defaults(general: seq<Preset>, languagePresets: map<string, seq<Preset>>)

  /** The collation key `localeCompare` orders names by. */
  type Collation = string -> seq<nat>

  // ---------------------------------------------------------------------------
  // Name order
  // ---------------------------------------------------------------------------

  /** Lexicographic order on collation keys. */
  predicate LexLe(a: seq<nat>, b: seq<nat>) {
    if |a| == 0 then true
    else if |b| == 0 then false
    else a[0] < b[0] || (a[0] == b[0] && LexLe(a[1..], b[1..]))
  }

  lemma {:induction false} LexLeTotal(a: seq<nat>, b: seq<nat>)
    ensures LexLe(a, b) || LexLe(b, a)
  {
    if |a| > 0 && |b| > 0 && a[0] == b[0] {
      LexLeTotal(a[1..], b[1..]);
    }
  }

  lemma {:induction false} LexLeTrans(a: seq<nat>, b: seq<nat>, c: seq<nat>)
    requires LexLe(a, b) && LexLe(b, c)
    ensures LexLe(a, c)
  {
    if |a| > 0 && |b| > 0 && |c| > 0 && a[0] == b[0] && b[0] == c[0] {
      LexLeTrans(a[1..], b[1..], c[1..]);
    }
  }

  predicate NameLe(key: Collation, p: Preset, q: Preset) {
    LexLe(key(p.name), key(q.name))
  }

  predicate SortedByName(s: seq<Preset>, key: Collation) {
    forall i, j | 0 <= i < j < |s| :: NameLe(key, s[i], s[j])
  }

  /** Inserts `x` after every element that does not sort after it (a stable insertion). */
  function InsertSorted(x: Preset, s: seq<Preset>, key: Collation): (r: seq<Preset>)
    ensures multiset(r) == multiset(s) + multiset{x}
  {
    if |s| == 0 then [x]
    else if NameLe(key, s[0], x) then
      assert s == [s[0]] + s[1..];
      [s[0]] + InsertSorted(x, s[1..], key)
    else [x] + s
  }

  lemma {:induction false} InsertSortedKeepsOrder(x: Preset, s: seq<Preset>, key: Collation)
    requires SortedByName(s, key)
    ensures SortedByName(InsertSorted(x, s, key), key)
  {
    if |s| > 0 {
      if NameLe(key, s[0], x) {
        var rest := InsertSorted(x, s[1..], key);
        InsertSortedKeepsOrder(x, s[1..], key);
        forall j | 0 <= j < |rest|
          ensures NameLe(key, s[0], rest[j])
        {
          assert rest[j] in multiset(rest);
          if rest[j] != x {
            var k :| 0 <= k < |s[1..]| && s[1..][k] == rest[j];
            assert s[k + 1] == rest[j];
          }
        }
      } else {
        LexLeTotal(key(s[0].name), key(x.name));
        forall j | 0 <= j < |s|
          ensures NameLe(key, x, s[j])
        {
          if j > 0 {
            LexLeTrans(key(x.name), key(s[0].name), key(s[j].name));
          }
        }
      }
    }
  }

  /** The stable sort of the preset list by name. */
  function SortByName(xs: seq<Preset>, key: Collation): (r: seq<Preset>)
    ensures multiset(r) == multiset(xs)
  {
    if |xs| == 0 then []
    else
      assert xs == xs[..|xs| - 1] + [xs[|xs| - 1]];
      InsertSorted(xs[|xs| - 1], SortByName(xs[..|xs| - 1], key), key)
  }

  lemma {:induction false} SortByNameSorted(xs: seq<Preset>, key: Collation)
    ensures SortedByName(SortByName(xs, key), key)
  {
    if |xs| > 0 {
      SortByNameSorted(xs[..|xs| - 1], key);
      InsertSortedKeepsOrder(xs[|xs| - 1], SortByName(xs[..|xs| - 1], key), key);
    }
  }

  // ---------------------------------------------------------------------------
  // Names
  // ---------------------------------------------------------------------------

  predicate HasName(ps: seq<Preset>, n: string) {
    exists i | 0 <= i < |ps| :: ps[i].name == n
  }

  predicate NamesUnique(ps: seq<Preset>) {
    forall i, j | 0 <= i < j < |ps| :: ps[i].name != ps[j].name
  }

  lemma {:induction false} InsertSortedUnique(x: Preset, s: seq<Preset>, key: Collation)
    requires NamesUnique(s) && !HasName(s, x.name)
    ensures NamesUnique(InsertSorted(x, s, key))
  {
    if |s| > 0 && NameLe(key, s[0], x) {
      var rest := InsertSorted(x, s[1..], key);
      assert !HasName(s[1..], x.name) by {
        forall k | 0 <= k < |s[1..]| ensures s[1..][k].name != x.name {
          assert s[1..][k] == s[k + 1];
        }
      }
      assert NamesUnique(s[1..]) by {
        forall i, j | 0 <= i < j < |s[1..]| ensures s[1..][i].name != s[1..][j].name {
          assert s[1..][i] == s[i + 1] && s[1..][j] == s[j + 1];
        }
      }
      InsertSortedUnique(x, s[1..], key);
      forall j | 0 <= j < |rest|
        ensures rest[j].name != s[0].name
      {
        assert rest[j] in multiset(rest);
        if rest[j] != x {
          var k :| 0 <= k < |s[1..]| && s[1..][k] == rest[j];
          assert s[k + 1] == rest[j];
        }
      }
    }
  }

  lemma {:induction false} SortByNameUnique(xs: seq<Preset>, key: Collation)
    requires NamesUnique(xs)
    ensures NamesUnique(SortByName(xs, key))
  {
    if |xs| > 0 {
      var init := xs[..|xs| - 1];
      var last := xs[|xs| - 1];
      assert NamesUnique(init) by {
        forall i, j | 0 <= i < j < |init| ensures init[i].name != init[j].name {
          assert init[i] == xs[i] && init[j] == xs[j];
        }
      }
      SortByNameUnique(init, key);
      var sorted := SortByName(init, key);
      assert !HasName(sorted, last.name) by {
        forall k | 0 <= k < |sorted| ensures sorted[k].name != last.name {
          assert sorted[k] in multiset(init);
          var i :| 0 <= i < |init| && init[i] == sorted[k];
          assert xs[i] == sorted[k];
        }
      }
      InsertSortedUnique(last, sorted, key);
    }
  }

  /** The first index holding a preset named `n` (`findIndex`). */
  function FindIndex(ps: seq<Preset>, n: string): (r: Option<nat>)
    ensures r.None? <==> !HasName(ps, n)
    ensures r.Some? ==> r.value < |ps| && ps[r.value].name == n
    ensures r.Some? ==> forall j | 0 <= j < r.value :: ps[j].name != n
  {
    if |ps| == 0 then None
    else if ps[0].name == n then Some(0)
    else
      match FindIndex(ps[1..], n)
      case None =>
        assert !HasName(ps, n) by {
          forall i | 0 <= i < |ps| ensures ps[i].name != n {
            if i > 0 { assert ps[i] == ps[1..][i - 1]; }
          }
        }
        None
      case Some(i) =>
        assert ps[i + 1] == ps[1..][i];
        Some(i + 1)
  }

  /** Puts `p` in place of the first preset with its name, or appends it when there is
      none (the settings list's overwrite, and `Map.set` keeping first-insertion order). */
  function Upsert(ps: seq<Preset>, p: Preset): (r: seq<Preset>)
    ensures p in r
    ensures |r| == if HasName(ps, p.name) then |ps| else |ps| + 1
    ensures forall i | 0 <= i < |ps| && ps[i].name != p.name :: r[i] == ps[i]
    ensures forall q | q in r :: q == p || q in ps
  {
    match FindIndex(ps, p.name)
    case Some(i) =>
      var r := ps[i := p];
      assert r[i] == p;
      assert forall q | q in r :: q == p || q in ps by {
        forall q | q in r ensures q == p || q in ps {
          var k :| 0 <= k < |r| && r[k] == q;
          if k != i { assert q == ps[k]; }
        }
      }
      r
    case None => ps + [p]
  }

  /** With unique names, the upsert replaces exactly the entry with `p`'s name. */
  lemma UpsertMembers(ps: seq<Preset>, p: Preset)
    requires NamesUnique(ps)
    ensures NamesUnique(Upsert(ps, p))
    ensures forall q :: q in Upsert(ps, p) <==> q == p || (q in ps && q.name != p.name)
  {
    var r := Upsert(ps, p);
    forall q | q in ps && q.name != p.name
      ensures q in r
    {
      var k :| 0 <= k < |ps| && ps[k] == q;
      assert r[k] == q;
    }
  }

  /** The last preset named `n`. */
  function LastNamed(ps: seq<Preset>, n: string): (r: Option<Preset>)
    ensures r.None? <==> !HasName(ps, n)
    ensures r.Some? ==> r.value in ps && r.value.name == n
  {
    if |ps| == 0 then None
    else if ps[|ps| - 1].name == n then Some(ps[|ps| - 1])
    else
      var r := LastNamed(ps[..|ps| - 1], n);
      assert r.None? ==> !HasName(ps, n) by {
        if r.None? {
          forall i | 0 <= i < |ps| ensures ps[i].name != n {
            if i < |ps| - 1 { assert ps[i] == ps[..|ps| - 1][i]; }
          }
        }
      }
      r
  }

  /** Upserts every preset of `ps` into `base`, in order. */
  function Shadow(base: seq<Preset>, ps: seq<Preset>): seq<Preset> {
    if |ps| == 0 then base else Upsert(Shadow(base, ps[..|ps| - 1]), ps[|ps| - 1])
  }

  /** After the upserts, the entry for a name is the last of `ps` with that name, or
      the one `base` had when `ps` has none. */
  lemma {:induction false} ShadowMembers(base: seq<Preset>, ps: seq<Preset>)
    requires NamesUnique(base)
    ensures NamesUnique(Shadow(base, ps))
    ensures forall q :: q in Shadow(base, ps) <==>
      (LastNamed(ps, q.name) == Some(q) || (LastNamed(ps, q.name) == None && q in base))
  {
    if |ps| > 0 {
      var init := ps[..|ps| - 1];
      ShadowMembers(base, init);
      UpsertMembers(Shadow(base, init), ps[|ps| - 1]);
    }
  }

  // ---------------------------------------------------------------------------
  // Combining
  // ---------------------------------------------------------------------------

  /** `settings.language || "es"`. */
  function Language(s: Settings): (lang: string)
    ensures lang != ""
    ensures s.language != "" ==> lang == s.language
  {
    if s.language == "" then "es" else s.language
  }

  /** The list stored under `lang`, or none. */
  function ListFor(m: Option<map<string, seq<string>>>, lang: string): seq<string> {
    if m.Some? && lang in m.value then m.value[lang] else []
  }

  /** The default names the user disabled for `lang`. */
  function DisabledFor(s: Settings, lang: string): seq<string> {
    ListFor(s.disabled, lang)
  }

  /** The presets of `ps` whose name is not listed in `names`, in order. */
  function WithoutNames(ps: seq<Preset>, names: seq<string>): (r: seq<Preset>)
    ensures forall q :: q in r <==> q in ps && q.name !in names
  {
    if |ps| == 0 then []
    else
      var rest := WithoutNames(ps[..|ps| - 1], names);
      var last := ps[|ps| - 1];
      assert ps == ps[..|ps| - 1] + [last];
      if last.name in names then rest else rest + [last]
  }

  /** The general defaults followed by the language's defaults. */
  function LanguageDefaults(d: Defaults, lang: string): seq<Preset> {
    d.general + (if lang in d.languagePresets then d.languagePresets[lang] else [])
  }

  /** The defaults the user has not disabled. */
  function EnabledDefaults(s: Settings, d: Defaults): seq<Preset> {
    WithoutNames(LanguageDefaults(d, Language(s)), DisabledFor(s, Language(s)))
  }

  /** The independent description of the visible preset named `n`: the user's last
      preset with that name, otherwise the last enabled default with it. */
  function Expected(s: Settings, d: Defaults, n: string): Option<Preset> {
    var user := LastNamed(s.presets, n);
    if user.Some? then user else LastNamed(EnabledDefaults(s, d), n)
  }

  /** `combinePresets`. */
  function Combine(s: Settings, d: Defaults, key: Collation): (r: seq<Preset>)
    ensures SortedByName(r, key)
    ensures NamesUnique(r)
    ensures forall q :: q in r <==> Expected(s, d, q.name) == Some(q)
  {
    var enabled := EnabledDefaults(s, d);
    var defaultsOnly := Shadow([], enabled);
    var shadowed := Shadow(defaultsOnly, s.presets);
    ShadowMembers([], enabled);
    ShadowMembers(defaultsOnly, s.presets);
    SortByNameSorted(shadowed, key);
    SortByNameUnique(shadowed, key);
    var r := SortByName(shadowed, key);
    assert forall q :: q in r <==> q in shadowed by {
      forall q ensures q in r <==> q in shadowed {
        assert q in r <==> q in multiset(r);
        assert q in shadowed <==> q in multiset(shadowed);
      }
    }
    r
  }

  /** Every name some user preset or enabled default carries appears exactly once. */
  lemma CombineShowsEveryName(s: Settings, d: Defaults, key: Collation, n: string)
    ensures HasName(Combine(s, d, key), n) <==> HasName(s.presets, n) || HasName(EnabledDefaults(s, d), n)
  {
    var r := Combine(s, d, key);
    var e := Expected(s, d, n);
    if e.Some? {
      assert e.value in r;
    }
    if HasName(r, n) {
      var i :| 0 <= i < |r| && r[i].name == n;
      assert r[i] in r;
    }
  }

  /** In a list with unique names, the last preset named like `q` is `q` itself. */
  lemma UniqueLastNamed(ps: seq<Preset>, q: Preset)
    requires NamesUnique(ps) && q in ps
    ensures LastNamed(ps, q.name) == Some(q)
  {
    var x := LastNamed(ps, q.name).value;
    var i :| 0 <= i < |ps| && ps[i] == q;
    var j :| 0 <= j < |ps| && ps[j] == x;
    assert i == j;
  }

  /** Dropping other names does not change which preset is last under `n`. */
  lemma {:induction false} LastNamedWithout(ps: seq<Preset>, names: seq<string>, n: string)
    requires n !in names
    ensures LastNamed(WithoutNames(ps, names), n) == LastNamed(ps, n)
  {
    if |ps| > 0 {
      var init := ps[..|ps| - 1];
      var last := ps[|ps| - 1];
      LastNamedWithout(init, names, n);
      if last.name !in names {
        var rest := WithoutNames(init, names);
        assert (rest + [last])[..|rest + [last]| - 1] == rest;
      }
    }
  }
}

=== FILE: presets_main.dfy ===
/** The main process's preset store (electron/presets_main.js): the effective language,
    the combined defaults, and the create, delete, restore-defaults and edit requests.

    Each request is a function from the settings it reads to the outcome it reports
    and the settings it saves. The confirmation dialog's answer is a parameter;
    broadcasting, window messages and the dialogs' texts are left out.

    Two default lists are in play. The requests decide what is a default from the
    bundled preset files (`loadDefaultPresetsCombined`); the renderer combines the
    copies under the configuration folder that `get-default-presets` returns, which
    the user may edit. The lemmas about what the renderer shows after a request
    keep them apart as `main` and `shown`, and say how far they must agree. */
module PresetStore {
  import opened Js
  import opened Strings
  import opened Presets

  // ---------------------------------------------------------------------------
  // Language codes
  // ---------------------------------------------------------------------------

  predicate IsCodeChar(c: char) { 'a' <= c <= 'z' || '0' <= c <= '9' }

  predicate IsLangCode(s: string) {
    |s| > 0 && forall i | 0 <= i < |s| :: IsCodeChar(s[i])
  }

  predicate IsTagSeparator(c: char) { c == '-' || c == '_' }

  /** `s.split(/[-_]/)[0]`: the text before the first `-` or `_`. */
  function BaseTag(s: string): (r: string)
    ensures |r| <= |s| && r == s[..|r|]
    ensures forall i | 0 <= i < |r| :: !IsTagSeparator(r[i])
    ensures |r| < |s| ==> IsTagSeparator(s[|r|])
  {
    if |s| == 0 || IsTagSeparator(s[0]) then ""
    else [s[0]] + BaseTag(s[1..])
  }

  /** `sanitizeLangCode`: the lower-cased base tag when it is a non-empty run of
      `[a-z0-9]`, otherwise the empty string (also for a non-string). */
  function SanitizeLangCode(lang: Option<string>): (r: string)
    ensures r == "" || IsLangCode(r)
    ensures lang.None? ==> r == ""
  {
    if lang.None? then ""
    else
      var base := BaseTag(Lower(Trim(lang.value)));
      if IsLangCode(base) then base else ""
  }

  /** A code is kept as it is. */
  lemma SanitizeKeepsCode(code: string)
    requires IsLangCode(code)
    ensures SanitizeLangCode(Some(code)) == code
  {
    assert !IsSpace(code[0]) && !IsSpace(code[|code| - 1]);
    TrimUnchanged(code);
    assert Lower(code) == code;
    assert BaseTag(code) == code by {
      var b := BaseTag(code);
      if |b| < |code| {
        assert false;
      }
    }
  }

  lemma SanitizeIdempotent(lang: Option<string>)
    ensures SanitizeLangCode(Some(SanitizeLangCode(lang))) == SanitizeLangCode(lang)
  {
    var r := SanitizeLangCode(lang);
    if r != "" {
      SanitizeKeepsCode(r);
    }
  }

  /** `getEffectiveLang`: the trimmed language when it is non-blank, else `"es"`,
      sanitized, falling back to `"es"`. */
  function EffectiveLanguage(s: Settings): (lang: string)
    ensures IsLangCode(lang)
  {
    var t := Trim(s.language);
    var code := SanitizeLangCode(Some(if t != "" then t else FallbackLanguage));
    FallbackLanguageIsCode();
    if code != "" then code else FallbackLanguage
  }

  const FallbackLanguage: string := "es"

  lemma FallbackLanguageIsCode()
    ensures IsLangCode(FallbackLanguage)
  {
  }

  /** A language that is already a code is its own effective language. */
  lemma EffectiveLanguageOfCode(s: Settings)
    requires IsLangCode(s.language)
    ensures EffectiveLanguage(s) == s.language
  {
    assert !IsSpace(s.language[0]) && !IsSpace(s.language[|s.language| - 1]);
    TrimUnchanged(s.language);
    SanitizeKeepsCode(s.language);
  }

  /** `loadDefaultPresetsCombined`: the general defaults, then the sanitized language's
      defaults when that language has a file. */
  function LoadDefaultsCombined(d: Defaults, lang: string): (r: seq<Preset>)
    ensures IsLangCode(lang) ==> r == LanguageDefaults(d, lang)
  {
    var code := SanitizeLangCode(Some(lang));
    assert IsLangCode(lang) ==> code == lang by {
      if IsLangCode(lang) { SanitizeKeepsCode(lang); }
    }
    d.general + (if code != "" && code in d.languagePresets then d.languagePresets[code] else [])
  }

  // ---------------------------------------------------------------------------
  // Settings updates
  // ---------------------------------------------------------------------------

  /** The settings with `lang`'s disabled list set to `names`. */
  function WithDisabled(s: Settings, lang: string, names: seq<string>): (r: Settings)
    ensures r.language == s.language && r.presets == s.presets
    ensures DisabledFor(r, lang) == names
    ensures forall l | l != lang :: DisabledFor(r, l) == DisabledFor(s, l)
  {
    var m := if s.disabled.Some? then s.disabled.value else map[];
    s.(disabled := Some(m[lang := names]))
  }

  /** Adds `name` to `lang`'s disabled list unless it is listed already (the list is
      created when missing). */
  function DisableName(s: Settings, lang: string, name: string): (r: Settings)
    ensures r.language == s.language && r.presets == s.presets
    ensures forall n :: n in DisabledFor(r, lang) <==> n in DisabledFor(s, lang) || n == name
    ensures forall l | l != lang :: DisabledFor(r, l) == DisabledFor(s, l)
  {
    var current := DisabledFor(s, lang);
    WithDisabled(s, lang, if name in current then current else current + [name])
  }

  function RemoveAt(ps: seq<Preset>, i: nat): (r: seq<Preset>)
    requires i < |ps|
    ensures |r| == |ps| - 1
    ensures multiset(r) + multiset{ps[i]} == multiset(ps)
  {
    assert ps == ps[..i] + [ps[i]] + ps[i + 1..];
    ps[..i] + ps[i + 1..]
  }

  /** `create-preset`: overwrite the first user preset with the same name, or append. */
  function Create(s: Settings, p: Preset): (r: Settings)
    ensures r.language == s.language && r.disabled == s.disabled
    ensures p in r.presets
    ensures forall q | q in s.presets && q.name != p.name :: q in r.presets
    ensures forall q | q in r.presets :: q == p || q in s.presets
    ensures NamesUnique(s.presets) ==> NamesUnique(r.presets) && LastNamed(r.presets, p.name) == Some(p)
  {
    var presets := Upsert(s.presets, p);
    assert NamesUnique(s.presets) ==> NamesUnique(presets) && LastNamed(presets, p.name) == Some(p) by {
      if NamesUnique(s.presets) {
        UpsertMembers(s.presets, p);
        UniqueLastNamed(presets, p);
      }
    }
    assert forall q | q in s.presets && q.name != p.name :: q in presets by {
      forall q | q in s.presets && q.name != p.name
        ensures q in presets
      {
        var k :| 0 <= k < |s.presets| && s.presets[k] == q;
        assert presets[k] == q;
      }
    }
    s.(presets := presets)
  }

  // ---------------------------------------------------------------------------
  // Deleting
  // ---------------------------------------------------------------------------

  lemma RemoveAtIndex(ps: seq<Preset>, i: nat, r: seq<Preset>)
    requires i < |ps| && r == ps[..i] + ps[i + 1..]
    ensures |r| == |ps| - 1
    ensures forall k | 0 <= k < |r| :: r[k] == ps[if k < i then k else k + 1]
  {
  }

  /** Removes the first preset named `name` (`findIndex`, then `splice`). */
  function RemoveFirstNamed(ps: seq<Preset>, name: string): (r: seq<Preset>)
    ensures |r| == if HasName(ps, name) then |ps| - 1 else |ps|
    ensures forall q | q in r :: q in ps
    ensures forall q | q in ps && q.name != name :: q in r
    ensures NamesUnique(ps) ==> NamesUnique(r) && !HasName(r, name)
  {
    match FindIndex(ps, name)
    case None => ps
    case Some(i) =>
      var r := ps[..i] + ps[i + 1..];
      RemoveAtIndex(ps, i, r);
      RemoveAtMembers(ps, i, r);
      RemoveAtUnique(ps, i, r, name);
      r
  }

  lemma RemoveAtMembers(ps: seq<Preset>, i: nat, r: seq<Preset>)
    requires i < |ps| && |r| == |ps| - 1
    requires forall k | 0 <= k < |r| :: r[k] == ps[if k < i then k else k + 1]
    ensures forall q | q in r :: q in ps
    ensures forall q | q in ps && q != ps[i] :: q in r
  {
    forall q | q in r ensures q in ps {
      var k :| 0 <= k < |r| && r[k] == q;
      assert q == ps[if k < i then k else k + 1];
    }
    forall q | q in ps && q != ps[i] ensures q in r {
      var k :| 0 <= k < |ps| && ps[k] == q;
      assert r[if k < i then k else k - 1] == q;
    }
  }

  lemma RemoveAtUnique(ps: seq<Preset>, i: nat, r: seq<Preset>, name: string)
    requires i < |ps| && |r| == |ps| - 1 && ps[i].name == name
    requires forall k | 0 <= k < |r| :: r[k] == ps[if k < i then k else k + 1]
    ensures NamesUnique(ps) ==> NamesUnique(r) && !HasName(r, name)
  {
    if NamesUnique(ps) {
      forall a, b | 0 <= a < b < |r| ensures r[a].name != r[b].name {
        assert r[a] == ps[if a < i then a else a + 1];
        assert r[b] == ps[if b < i then b else b + 1];
      }
      forall a | 0 <= a < |r| ensures r[a].name != name {
        assert r[a] == ps[if a < i then a else a + 1];
      }
    }
  }

  datatype DeleteAction = DeletedAndIgnored | DeletedCustom | IgnoredDefault

  /** Whether `name` is a default for the effective language. */
  predicate IsDefault(s: Settings, d: Defaults, name: string) {
    HasName(LoadDefaultsCombined(d, EffectiveLanguage(s)), name)
  }

  /** The deletion step shared by delete and edit: remove the first user preset with
      the name, and disable a default of that name for the effective language. */
  function RemoveNamed(s: Settings, d: Defaults, name: string): (r: (Option<DeleteAction>, Settings))
    ensures r.0.None? <==> !HasName(s.presets, name) && !IsDefault(s, d, name)
    ensures r.0 == Some(DeletedAndIgnored) <==> HasName(s.presets, name) && IsDefault(s, d, name)
    ensures r.0 == Some(DeletedCustom) <==> HasName(s.presets, name) && !IsDefault(s, d, name)
    ensures r.1.language == s.language && r.1.presets == RemoveFirstNamed(s.presets, name)
    ensures forall n :: n in DisabledFor(r.1, EffectiveLanguage(s)) <==>
      n in DisabledFor(s, EffectiveLanguage(s)) || (IsDefault(s, d, name) && n == name)
    ensures forall l | l != EffectiveLanguage(s) :: DisabledFor(r.1, l) == DisabledFor(s, l)
  {
    var lang := EffectiveLanguage(s);
    var isDefault := IsDefault(s, d, name);
    var ensured := WithDisabled(s, lang, DisabledFor(s, lang));
    var marked := if isDefault then DisableName(ensured, lang, name) else ensured;
    var action :=
      if HasName(s.presets, name) then Some(if isDefault then DeletedAndIgnored else DeletedCustom)
      else if isDefault then Some(IgnoredDefault)
      else None;
    (action, marked.(presets := RemoveFirstNamed(s.presets, name)))
  }

  datatype DeleteResult =
    | NoName
    | Cancelled
    | NotFound
    | Deleted(action: DeleteAction, saved: Settings)

  /** `request-delete-preset`. A missing name is refused before the confirmation; a
      name that is neither a user preset nor a default is refused without saving. */
  function Delete(s: Settings, d: Defaults, name: string, confirmed: bool): (r: DeleteResult)
    ensures r == NoName <==> name == ""
    ensures r == Cancelled <==> name != "" && !confirmed
    ensures r == NotFound <==> name != "" && confirmed && !HasName(s.presets, name) && !IsDefault(s, d, name)
    ensures r.Deleted? ==> Some(r.action) == RemoveNamed(s, d, name).0 && r.saved == RemoveNamed(s, d, name).1
  {
    if name == "" then NoName
    else if !confirmed then Cancelled
    else
      var (action, t) := RemoveNamed(s, d, name);
      if action.Some? then Deleted(action.value, t) else NotFound
  }

  /** After `RemoveNamed` the name is not among the enabled defaults of a list that
      has it only where the bundled list has it too. */
  lemma RemovedNotEnabled(s: Settings, main: Defaults, shown: Defaults, name: string)
    requires IsLangCode(s.language)
    requires HasName(LanguageDefaults(shown, s.language), name) ==> HasName(LanguageDefaults(main, s.language), name)
    ensures !HasName(EnabledDefaults(RemoveNamed(s, main, name).1, shown), name)
  {
    var t := RemoveNamed(s, main, name).1;
    EffectiveLanguageOfCode(s);
    var lang := s.language;
    assert Language(t) == lang;
    var defaults := LanguageDefaults(shown, lang);
    assert LoadDefaultsCombined(main, EffectiveLanguage(s)) == LanguageDefaults(main, lang);
    var enabled := EnabledDefaults(t, shown);
    assert enabled == WithoutNames(defaults, DisabledFor(t, lang));
    forall i | 0 <= i < |enabled|
      ensures enabled[i].name != name
    {
      assert enabled[i] in enabled;
      if enabled[i].name == name {
        assert false;
      }
    }
  }

  /** After a confirmed deletion the name no longer appears in the list the renderer
      shows for the settings' language, provided the renderer's defaults have the
      name only where the bundled ones do (the language is already a code, so both
      processes read the same disabled list, and user names were unique). */
  lemma DeleteHidesPreset(s: Settings, main: Defaults, shown: Defaults, key: Collation, name: string)
    requires IsLangCode(s.language) && NamesUnique(s.presets)
    requires HasName(LanguageDefaults(shown, s.language), name) ==> HasName(LanguageDefaults(main, s.language), name)
    requires Delete(s, main, name, true).Deleted?
    ensures !HasName(Combine(Delete(s, main, name, true).saved, shown, key), name)
  {
    RemovedNotEnabled(s, main, shown, name);
    CombineShowsEveryName(Delete(s, main, name, true).saved, shown, key, name);
  }

  /** Without that agreement the deletion does not hide the name: a default that only
      the configuration copy has is neither disabled nor removed, so the renderer
      keeps showing it, whether the request answers `NOT_FOUND` or deletes a user
      preset of that name. */
  lemma ConfigOnlyDefaultStaysShown(s: Settings, main: Defaults, shown: Defaults, key: Collation, name: string)
    requires IsLangCode(s.language) && name != ""
    requires HasName(LanguageDefaults(shown, s.language), name) && !HasName(LanguageDefaults(main, s.language), name)
    requires name !in DisabledFor(s, s.language)
    ensures var r := Delete(s, main, name, true);
            && (r.NotFound? || (r.Deleted? && r.action == DeletedCustom))
            && HasName(Combine(if r.Deleted? then r.saved else s, shown, key), name)
  {
    EffectiveLanguageOfCode(s);
    var lang := s.language;
    assert !IsDefault(s, main, name) by {
      assert LoadDefaultsCombined(main, EffectiveLanguage(s)) == LanguageDefaults(main, lang);
    }
    var r := Delete(s, main, name, true);
    var u := if r.Deleted? then r.saved else s;
    assert Language(u) == lang;
    assert name !in DisabledFor(u, lang);
    EnabledHasName(u, shown, name);
    CombineShowsEveryName(u, shown, key, name);
  }

  /** A default name the user has not disabled is enabled. */
  lemma EnabledHasName(u: Settings, shown: Defaults, name: string)
    requires HasName(LanguageDefaults(shown, Language(u)), name) && name !in DisabledFor(u, Language(u))
    ensures HasName(EnabledDefaults(u, shown), name)
  {
    var defaults := LanguageDefaults(shown, Language(u));
    var j :| 0 <= j < |defaults| && defaults[j].name == name;
    assert defaults[j] in defaults;
    var enabled := EnabledDefaults(u, shown);
    assert defaults[j] in enabled;
    var k :| 0 <= k < |enabled| && enabled[k] == defaults[j];
  }

  // ---------------------------------------------------------------------------
  // Editing
  // ---------------------------------------------------------------------------

  datatype EditResult =
    | NoOriginalName
    | EditCancelled
    | Edited(deletedAction: Option<DeleteAction>, saved: Settings)

  /** `edit-preset`: the deletion step for the original name, then the new preset is
      upserted. A missing original name is refused before the confirmation. */
  function Edit(s: Settings, d: Defaults, originalName: string, newPreset: Preset, confirmed: bool): (r: EditResult)
    ensures r == NoOriginalName <==> originalName == ""
    ensures r == EditCancelled <==> originalName != "" && !confirmed
    ensures r.Edited? ==> r.deletedAction == RemoveNamed(s, d, originalName).0
    ensures r.Edited? ==> newPreset in r.saved.presets && r.saved.language == s.language
    ensures r.Edited? ==> forall q | q in r.saved.presets :: q == newPreset || q in s.presets
  {
    if originalName == "" then NoOriginalName
    else if !confirmed then EditCancelled
    else
      var (action, t) := RemoveNamed(s, d, originalName);
      Edited(action, Create(t, newPreset))
  }

  /** After a confirmed edit the renderer shows the new preset under its name,
      whatever defaults either process reads. */
  lemma EditShowsNewPreset(s: Settings, main: Defaults, shown: Defaults, key: Collation, originalName: string, newPreset: Preset)
    requires NamesUnique(s.presets) && originalName != ""
    ensures newPreset in Combine(Edit(s, main, originalName, newPreset, true).saved, shown, key)
  {
    var removed := RemoveNamed(s, main, originalName).1;
    assert NamesUnique(removed.presets);
    var t := Create(removed, newPreset);
    assert LastNamed(t.presets, newPreset.name) == Some(newPreset);
    assert Expected(t, shown, newPreset.name) == Some(newPreset);
  }

  /** After a confirmed edit that renames, the renderer shows nothing under the
      original name, provided its defaults have that name only where the bundled
      ones do. */
  lemma EditHidesOriginal(s: Settings, main: Defaults, shown: Defaults, key: Collation, originalName: string, newPreset: Preset)
    requires IsLangCode(s.language) && NamesUnique(s.presets) && originalName != ""
    requires originalName != newPreset.name
    requires HasName(LanguageDefaults(shown, s.language), originalName) ==> HasName(LanguageDefaults(main, s.language), originalName)
    ensures !HasName(Combine(Edit(s, main, originalName, newPreset, true).saved, shown, key), originalName)
  {
    var removed := RemoveNamed(s, main, originalName).1;
    var t := Create(removed, newPreset);
    CreateKeepsAbsent(removed, newPreset, originalName);
    RemovedNotEnabled(s, main, shown, originalName);
    assert EnabledDefaults(t, shown) == EnabledDefaults(removed, shown);
    CombineShowsEveryName(t, shown, key, originalName);
  }

  /** Creating a preset under another name does not bring back an absent name. */
  lemma CreateKeepsAbsent(u: Settings, p: Preset, n: string)
    requires !HasName(u.presets, n) && p.name != n
    ensures !HasName(Create(u, p).presets, n)
  {
    var t := Create(u, p);
    forall i | 0 <= i < |t.presets| ensures t.presets[i].name != n {
      assert t.presets[i] in t.presets;
    }
  }

  // ---------------------------------------------------------------------------
  // Restoring defaults
  // ---------------------------------------------------------------------------

  /** The non-empty names of the defaults. */
  predicate IsDefaultName(defaults: seq<Preset>, n: string) {
    n != "" && HasName(defaults, n)
  }

  /** The user presets restore keeps (named, not shadowing a default), and the names
      of those it drops for shadowing one, in order. */
  function KeepCustom(ps: seq<Preset>, defaults: seq<Preset>): (r: (seq<Preset>, seq<string>))
    ensures forall q :: q in r.0 <==> q in ps && q.name != "" && !IsDefaultName(defaults, q.name)
    ensures forall n :: n in r.1 <==> IsDefaultName(defaults, n) && HasName(ps, n)
  {
    if |ps| == 0 then ([], [])
    else
      var (kept, removed) := KeepCustom(ps[..|ps| - 1], defaults);
      var p := ps[|ps| - 1];
      assert ps == ps[..|ps| - 1] + [p];
      assert forall n :: HasName(ps, n) <==> HasName(ps[..|ps| - 1], n) || p.name == n by {
        forall n ensures HasName(ps, n) <==> HasName(ps[..|ps| - 1], n) || p.name == n {
          if HasName(ps[..|ps| - 1], n) {
            var k :| 0 <= k < |ps| - 1 && ps[..|ps| - 1][k].name == n;
            assert ps[k].name == n;
          }
          if HasName(ps, n) && p.name != n {
            var k :| 0 <= k < |ps| && ps[k].name == n;
            assert ps[..|ps| - 1][k].name == n;
          }
        }
      }
      if p.name == "" then (kept, removed)
      else if IsDefaultName(defaults, p.name) then (kept, removed + [p.name])
      else (kept + [p], removed)
  }

  /** The disabled names restore keeps, and those it re-enables, in order. */
  function KeepDisabled(names: seq<string>, defaults: seq<Preset>): (r: (seq<string>, seq<string>))
    ensures forall n :: n in r.0 <==> n in names && !IsDefaultName(defaults, n)
    ensures forall n :: n in r.1 <==> n in names && IsDefaultName(defaults, n)
    ensures |r.0| + |r.1| == |names|
  {
    if |names| == 0 then ([], [])
    else
      var (kept, unignored) := KeepDisabled(names[..|names| - 1], defaults);
      var n := names[|names| - 1];
      assert names == names[..|names| - 1] + [n];
      if IsDefaultName(defaults, n) then (kept, unignored + [n]) else (kept + [n], unignored)
  }

  /** Sets `lang`'s disabled list to `kept`, deleting the entry when `kept` is empty
      and the whole map when no entry is left. */
  function PruneDisabled(disabled: Option<map<string, seq<string>>>, lang: string, kept: seq<string>)
    : (r: Option<map<string, seq<string>>>)
    ensures ListFor(r, lang) == kept
    ensures forall l | l != lang :: ListFor(r, l) == ListFor(disabled, l)
    ensures r.Some? ==> |r.value| > 0 && (lang in r.value ==> |r.value[lang]| > 0)
  {
    var m' := SetOrDrop(if disabled.Some? then disabled.value else map[], lang, kept);
    if |m'| == 0 then
      NoEntries(m');
      None
    else Some(m')
  }

  /** `m` with `lang`'s entry set to `kept`, or deleted when `kept` is empty. */
  function SetOrDrop(m: map<string, seq<string>>, lang: string, kept: seq<string>): (r: map<string, seq<string>>)
    ensures ListFor(Some(r), lang) == kept
    ensures forall l | l != lang :: ListFor(Some(r), l) == ListFor(Some(m), l)
    ensures lang in r ==> |r[lang]| > 0
  {
    if |kept| == 0 then m - {lang} else m[lang := kept]
  }

  /** A map of size 0 has no keys. */
  lemma NoEntries(m: map<string, seq<string>>)
    requires |m| == 0
    ensures forall l :: ListFor(Some(m), l) == []
  {
  }

  datatype RestoreResult =
    | RestoreCancelled
    | Restored(removedCustom: seq<string>, unignored: seq<string>, saved: Settings)

  /** `request-restore-defaults`. */
  function Restore(s: Settings, d: Defaults, confirmed: bool): (r: RestoreResult)
    ensures r == RestoreCancelled <==> !confirmed
    ensures r.Restored? ==> r.saved.language == s.language
    ensures r.Restored? ==> forall q :: q in r.saved.presets <==>
      q in s.presets && q.name != "" && !IsDefaultName(LoadDefaultsCombined(d, EffectiveLanguage(s)), q.name)
    ensures r.Restored? ==> forall n :: n in r.removedCustom <==>
      IsDefaultName(LoadDefaultsCombined(d, EffectiveLanguage(s)), n) && HasName(s.presets, n)
    ensures r.Restored? ==> forall n :: n in r.unignored <==>
      n in DisabledFor(s, EffectiveLanguage(s)) && IsDefaultName(LoadDefaultsCombined(d, EffectiveLanguage(s)), n)
    ensures r.Restored? ==> forall n :: n in DisabledFor(r.saved, EffectiveLanguage(s)) <==>
      n in DisabledFor(s, EffectiveLanguage(s)) && !IsDefaultName(LoadDefaultsCombined(d, EffectiveLanguage(s)), n)
    ensures r.Restored? ==> forall l | l != EffectiveLanguage(s) :: DisabledFor(r.saved, l) == DisabledFor(s, l)
    ensures r.Restored? && r.saved.disabled.Some? ==> |r.saved.disabled.value| > 0
  {
    if !confirmed then RestoreCancelled
    else
      var lang := EffectiveLanguage(s);
      var defaults := LoadDefaultsCombined(d, lang);
      var custom := KeepCustom(s.presets, defaults);
      var still := KeepDisabled(DisabledFor(s, lang), defaults);
      Restored(custom.1, still.1, Settings(s.language, custom.0, PruneDisabled(s.disabled, lang, still.0)))
  }

  /** After a confirmed restore every name the bundled defaults of the language carry
      shows the renderer's last default of that name again, whichever user preset
      or disabled entry hid it before. */
  lemma RestoreShowsDefaults(s: Settings, main: Defaults, shown: Defaults, n: string)
    requires IsLangCode(s.language) && n != "" && HasName(LanguageDefaults(main, s.language), n)
    ensures Expected(Restore(s, main, true).saved, shown, n) == LastNamed(LanguageDefaults(shown, s.language), n)
  {
    var t := Restore(s, main, true).saved;
    EffectiveLanguageOfCode(s);
    assert !HasName(t.presets, n) by {
      forall i | 0 <= i < |t.presets| ensures t.presets[i].name != n {
        assert t.presets[i] in t.presets;
      }
    }
    assert n !in DisabledFor(t, s.language);
    LastNamedWithout(LanguageDefaults(shown, s.language), DisabledFor(t, s.language), n);
  }
}

=== FILE: snapshot_names.dfy ===
/** Snapshot file names (electron/current_text_snapshots_main.js): the base name a
    saved snapshot is given, and the next free `current_text_N.json` name. */
module SnapshotNames {
  import opened Js
  import opened Strings

  // ---------------------------------------------------------------------------
  // Base names
  // ---------------------------------------------------------------------------

  predicate IsAsciiAlnum(c: char) {
    'a' <= c <= 'z' || 'A' <= c <= 'Z' || '0' <= c <= '9'
  }

  predicate IsSep(c: char) { c == '_' || c == '-' }

  /** `[A-Za-z0-9_-]`. */
  predicate IsSafe(c: char) { IsAsciiAlnum(c) || IsSep(c) }

  /** The character classes whose runs the sanitizer collapses. */
  datatype CharClass = Space | Underscore | Dash

  predicate InClass(k: CharClass, c: char) {
    match k
    case Space => IsSpace(c)
    case Underscore => c == '_'
    case Dash => c == '-'
  }

  /** The letters and digits of `s`, in order. */
  function Alnums(s: string): (r: string)
    ensures |r| <= |s|
  {
    if s == [] then []
    else if IsAsciiAlnum(s[0]) then [s[0]] + Alnums(s[1..])
    else Alnums(s[1..])
  }

  /** `c` never appears twice in a row in `s`. */
  predicate NoDouble(s: string, c: char) {
    forall i | 0 <= i < |s| - 1 :: !(s[i] == c && s[i + 1] == c)
  }

  /** `s.replace(/X+/g, rep)` for the class `k`: every maximal run of class
      characters becomes one `rep`. `inRun` says the character before `s` was in
      a run already replaced. */
  function ReplaceRuns(s: string, k: CharClass, rep: char, inRun: bool): (r: string)
    requires InClass(k, rep) || k == Space
    ensures forall i | 0 <= i < |r| :: r[i] == rep || (r[i] in s && !InClass(k, r[i]))
    ensures inRun && r != [] ==> !InClass(k, r[0])
    ensures !inRun && s != [] ==> r != [] && r[0] == (if InClass(k, s[0]) then rep else s[0])
  {
    if s == [] then []
    else
      var rest := ReplaceRuns(s[1..], k, rep, InClass(k, s[0]));
      assert forall i | 0 <= i < |rest| :: rest[i] == rep || rest[i] in s by {
        forall i | 0 <= i < |rest| && rest[i] != rep ensures rest[i] in s {
          assert rest[i] in s[1..];
        }
      }
      if InClass(k, s[0]) then
        if inRun then rest else [rep] + rest
      else [s[0]] + rest
  }

  /** Replacing runs keeps the letters and digits. */
  lemma {:induction false} ReplaceRunsAlnums(s: string, k: CharClass, rep: char, inRun: bool)
    requires InClass(k, rep) || k == Space
    requires !IsAsciiAlnum(rep)
    ensures Alnums(ReplaceRuns(s, k, rep, inRun)) == Alnums(s)
  {
    if s != [] {
      ReplaceRunsAlnums(s[1..], k, rep, InClass(k, s[0]));
      var rest := ReplaceRuns(s[1..], k, rep, InClass(k, s[0]));
      if InClass(k, s[0]) {
        assert !IsAsciiAlnum(s[0]) by {
          if k == Space { assert IsSpace(s[0]); }
        }
        if !inRun {
          assert ([rep] + rest)[1..] == rest;
        }
      } else {
        assert ([s[0]] + rest)[1..] == rest;
      }
    }
  }

  /** After replacing the runs of `rep`'s own class, `rep` never repeats. */
  lemma {:induction false} ReplaceRunsNoDouble(s: string, k: CharClass, rep: char, inRun: bool)
    requires InClass(k, rep)
    ensures NoDouble(ReplaceRuns(s, k, rep, inRun), rep)
  {
    if s != [] {
      ReplaceRunsNoDouble(s[1..], k, rep, InClass(k, s[0]));
    }
  }

  /** Replacing the runs of another class does not create a repeated `c`. */
  lemma {:induction false} ReplaceRunsKeepsNoDouble(s: string, k: CharClass, rep: char, inRun: bool, c: char)
    requires InClass(k, rep) && !InClass(k, c)
    requires NoDouble(s, c)
    ensures NoDouble(ReplaceRuns(s, k, rep, inRun), c)
  {
    if s != [] {
      assert NoDouble(s[1..], c);
      ReplaceRunsKeepsNoDouble(s[1..], k, rep, InClass(k, s[0]), c);
      var rest := ReplaceRuns(s[1..], k, rep, InClass(k, s[0]));
      if !InClass(k, s[0]) && s[0] == c && rest != [] {
        assert s[1] != c;
        assert rest[0] != c;
      }
    }
  }

  /** Replacing runs changes nothing in a string where `rep` is the class's only
      character and never repeats. */
  lemma {:induction false} ReplaceRunsUnchanged(s: string, k: CharClass, rep: char, inRun: bool)
    requires InClass(k, rep)
    requires forall i | 0 <= i < |s| :: InClass(k, s[i]) ==> s[i] == rep
    requires NoDouble(s, rep)
    requires inRun ==> s == [] || s[0] != rep
    ensures ReplaceRuns(s, k, rep, inRun) == s
  {
    if s != [] {
      ReplaceRunsUnchanged(s[1..], k, rep, InClass(k, s[0]));
    }
  }

  /** A string with no character of the class is left as it is. */
  lemma {:induction false} ReplaceRunsNone(s: string, k: CharClass, rep: char, inRun: bool)
    requires InClass(k, rep) || k == Space
    requires forall i | 0 <= i < |s| :: !InClass(k, s[i])
    ensures ReplaceRuns(s, k, rep, inRun) == s
  {
    if s != [] {
      ReplaceRunsNone(s[1..], k, rep, false);
    }
  }

  /** `s.replace(/[^A-Za-z0-9_-]/g, '')`. */
  function KeepSafe(s: string): (r: string)
    ensures forall i | 0 <= i < |r| :: IsSafe(r[i])
    ensures Alnums(r) == Alnums(s)
    ensures (forall i | 0 <= i < |s| :: IsSafe(s[i])) ==> r == s
  {
    if s == [] then []
    else if IsSafe(s[0]) then [s[0]] + KeepSafe(s[1..])
    else KeepSafe(s[1..])
  }

  /** `s.replace(/^[_-]+/, '')`. */
  function DropLeadingSeps(s: string): (r: string)
    ensures |r| <= |s| && r == s[|s| - |r|..]
    ensures r == [] || !IsSep(r[0])
    ensures forall i | 0 <= i < |s| - |r| :: IsSep(s[i])
  {
    if s != [] && IsSep(s[0]) then DropLeadingSeps(s[1..]) else s
  }

  /** `s.replace(/[_-]+$/, '')`. */
  function DropTrailingSeps(s: string): (r: string)
    ensures |r| <= |s| && r == s[..|r|]
    ensures r == [] || !IsSep(r[|r| - 1])
    ensures forall i | |r| <= i < |s| :: IsSep(s[i])
  {
    if s != [] && IsSep(s[|s| - 1]) then DropTrailingSeps(s[..|s| - 1]) else s
  }

  /** What a sanitized base name looks like. */
  predicate IsCleanBaseName(s: string) {
    && s != []
    && SafeNoDouble(s)
    && !IsSep(s[0]) && !IsSep(s[|s| - 1])
  }

  const FallbackBaseName: string := "current_text"

  /** The steps before the fallback. */
  function CollapseSeparators(base: string): (r: string)
    ensures forall i | 0 <= i < |r| :: IsSafe(r[i])
    ensures NoDouble(r, '_') && NoDouble(r, '-')
    ensures Alnums(r) == Alnums(base)
  {
    var spaced := ReplaceRuns(base, Space, '_', false);
    var safe := KeepSafe(spaced);
    var underscores := ReplaceRuns(safe, Underscore, '_', false);
    var dashes := ReplaceRuns(underscores, Dash, '-', false);
    ReplaceRunsAlnums(base, Space, '_', false);
    ReplaceRunsAlnums(safe, Underscore, '_', false);
    ReplaceRunsAlnums(underscores, Dash, '-', false);
    ReplaceRunsNoDouble(safe, Underscore, '_', false);
    ReplaceRunsKeepsNoDouble(underscores, Dash, '-', false, '_');
    ReplaceRunsNoDouble(underscores, Dash, '-', false);
    assert forall i | 0 <= i < |underscores| :: IsSafe(underscores[i]) by {
      forall i | 0 <= i < |underscores| ensures IsSafe(underscores[i]) {
        if underscores[i] != '_' {
          var j :| 0 <= j < |safe| && safe[j] == underscores[i];
        }
      }
    }
    assert forall i | 0 <= i < |dashes| :: IsSafe(dashes[i]) by {
      forall i | 0 <= i < |dashes| ensures IsSafe(dashes[i]) {
        if dashes[i] != '-' {
          var j :| 0 <= j < |underscores| && underscores[j] == dashes[i];
        }
      }
    }
    dashes
  }

  /** `sanitizeSnapshotBaseName`. */
  function SanitizeSnapshotBaseName(base: string): (r: string)
    ensures IsCleanBaseName(r)
    ensures Alnums(base) != [] ==> Alnums(r) == Alnums(base)
    ensures Alnums(base) == [] ==> r == FallbackBaseName
  {
    var collapsed := CollapseSeparators(base);
    var trimmed := DropTrailingSeps(DropLeadingSeps(collapsed));
    TrimmedFacts(collapsed);
    FallbackIsClean();
    if trimmed == [] then FallbackBaseName else trimmed
  }

  lemma FallbackIsClean()
    ensures IsCleanBaseName(FallbackBaseName)
  {
  }

  /** Dropping separators at both ends keeps a string of safe characters without
      doubled separators in that shape, keeps its letters and digits, and leaves
      nothing exactly when it had no letter or digit. */
  lemma TrimmedFacts(s: string)
    requires SafeNoDouble(s)
    ensures var t := DropTrailingSeps(DropLeadingSeps(s));
      && (t != [] ==> IsCleanBaseName(t))
      && Alnums(t) == Alnums(s)
      && (t == [] <==> Alnums(s) == [])
  {
    var t := DropTrailingSeps(DropLeadingSeps(s));
    TrimmedAlnums(s);
    TrimmedShape(s);
    if t != [] {
      AlnumsNonEmpty(t);
    }
  }

  lemma TrimmedAlnums(s: string)
    ensures Alnums(DropTrailingSeps(DropLeadingSeps(s))) == Alnums(s)
  {
    LeadingAlnums(s);
    TrailingAlnums(DropLeadingSeps(s));
  }

  lemma LeadingAlnums(s: string)
    ensures Alnums(DropLeadingSeps(s)) == Alnums(s)
  {
    var a := DropLeadingSeps(s);
    var d := |s| - |a|;
    assert s == s[..d] + a;
    AlnumsAppend(s[..d], a);
    AlnumsOfSeps(s[..d]);
  }

  lemma TrailingAlnums(a: string)
    ensures Alnums(DropTrailingSeps(a)) == Alnums(a)
  {
    var t := DropTrailingSeps(a);
    assert a == t + a[|t|..];
    AlnumsAppend(t, a[|t|..]);
    AlnumsOfSeps(a[|t|..]);
  }

  lemma TrimmedShape(s: string)
    requires SafeNoDouble(s)
    ensures var t := DropTrailingSeps(DropLeadingSeps(s));
      t != [] ==> IsCleanBaseName(t)
  {
    var a := DropLeadingSeps(s);
    var t := DropTrailingSeps(a);
    LeadingShape(s);
    TrailingShape(a);
    if t != [] {
      assert t[0] == a[0];
    }
  }

  lemma LeadingShape(s: string)
    requires SafeNoDouble(s)
    ensures SafeNoDouble(DropLeadingSeps(s))
  {
    var a := DropLeadingSeps(s);
    SliceKeepsShape(s, |s| - |a|, |s|);
    assert a == s[|s| - |a|..|s|];
  }

  lemma TrailingShape(a: string)
    requires SafeNoDouble(a)
    ensures SafeNoDouble(DropTrailingSeps(a))
  {
    var t := DropTrailingSeps(a);
    SliceKeepsShape(a, 0, |t|);
    assert t == a[0..|t|];
  }

  /** Only safe characters, and no doubled separator. */
  predicate SafeNoDouble(s: string) {
    (forall i | 0 <= i < |s| :: IsSafe(s[i])) && NoDouble(s, '_') && NoDouble(s, '-')
  }

  /** A piece of a string of safe characters without doubled separators is one too. */
  lemma SliceKeepsShape(s: string, lo: int, hi: int)
    requires 0 <= lo <= hi <= |s|
    requires SafeNoDouble(s)
    ensures SafeNoDouble(s[lo..hi])
  {
    var t := s[lo..hi];
    forall i | 0 <= i < |t| ensures IsSafe(t[i]) {
      assert t[i] == s[lo + i];
    }
    forall i | 0 <= i < |t| - 1
      ensures !(t[i] == '_' && t[i + 1] == '_') && !(t[i] == '-' && t[i + 1] == '-')
    {
      assert t[i] == s[lo + i] && t[i + 1] == s[lo + i + 1];
    }
  }

  lemma {:induction false} AlnumsAppend(a: string, b: string)
    ensures Alnums(a + b) == Alnums(a) + Alnums(b)
  {
    if a != [] {
      AlnumsAppend(a[1..], b);
      var ab := a + b;
      assert ab[0] == a[0] && ab[1..] == a[1..] + b;
      if IsAsciiAlnum(a[0]) {
        assert Alnums(ab) == [a[0]] + Alnums(a[1..] + b);
        assert Alnums(a) == [a[0]] + Alnums(a[1..]);
      } else {
        assert Alnums(ab) == Alnums(a[1..] + b);
      }
    } else {
      assert a + b == b;
    }
  }

  lemma {:induction false} AlnumsOfSeps(s: string)
    requires forall i | 0 <= i < |s| :: IsSep(s[i])
    ensures Alnums(s) == []
  {
    if s != [] {
      AlnumsOfSeps(s[1..]);
    }
  }

  /** A non-empty string of safe characters that neither starts nor ends with a
      separator holds a letter or digit. */
  lemma AlnumsNonEmpty(t: string)
    requires t != [] && !IsSep(t[0])
    requires forall i | 0 <= i < |t| :: IsSafe(t[i])
    ensures Alnums(t) != []
  {
  }

  /** A clean base name is kept as it is: sanitizing is idempotent. */
  lemma SanitizeKeepsCleanName(s: string)
    requires IsCleanBaseName(s)
    ensures SanitizeSnapshotBaseName(s) == s
  {
    CollapseKeepsCleanName(s);
  }

  lemma CollapseKeepsCleanName(s: string)
    requires IsCleanBaseName(s)
    ensures CollapseSeparators(s) == s
  {
    assert forall i | 0 <= i < |s| :: !IsSpace(s[i]);
    ReplaceRunsNone(s, Space, '_', false);
    ReplaceRunsUnchanged(s, Underscore, '_', false);
    ReplaceRunsUnchanged(s, Dash, '-', false);
  }

  lemma SanitizeIdempotent(base: string)
    ensures SanitizeSnapshotBaseName(SanitizeSnapshotBaseName(base)) == SanitizeSnapshotBaseName(base)
  {
    SanitizeKeepsCleanName(SanitizeSnapshotBaseName(base));
  }

  // ---------------------------------------------------------------------------
  // Default snapshot names
  // ---------------------------------------------------------------------------

  const NumberedPrefix: string := "current_text_"
  const JsonExt: string := ".json"

  /** The number in a name matching `/^current_text_(\d+)\.json$/i`. */
  function SnapshotNumber(name: string): (r: Option<nat>)
    ensures r.Some? ==> |name| > |NumberedPrefix| + |JsonExt|
  {
    var t := Lower(name);
    var digitsEnd := |t| - |JsonExt|;
    if |t| > |NumberedPrefix| + |JsonExt|
       && t[..|NumberedPrefix|] == NumberedPrefix
       && t[digitsEnd..] == JsonExt
       && AllDigits(t[|NumberedPrefix|..digitsEnd])
    then Some(DigitsValue(t[|NumberedPrefix|..digitsEnd]))
    else None
  }

  /** The largest number among the numbered names, 0 when there is none. */
  function MaxNumber(names: seq<string>): (m: nat)
    ensures forall k | 0 <= k < |names| && SnapshotNumber(names[k]).Some? :: SnapshotNumber(names[k]).value <= m
    ensures m == 0 || exists k | 0 <= k < |names| :: SnapshotNumber(names[k]) == Some(m)
  {
    if names == [] then 0
    else
      var m := MaxNumber(names[..|names| - 1]);
      var last := SnapshotNumber(names[|names| - 1]);
      assert forall k | 0 <= k < |names| - 1 :: names[..|names| - 1][k] == names[k];
      if last.Some? && last.value > m then last.value else m
  }

  /** `getDefaultSnapshotName` over the folder listing; `None` when it cannot be
      read, which counts as an empty folder. */
  function DefaultSnapshotName(listing: Option<seq<string>>): (r: string)
    ensures SnapshotNumber(r).Some?
    ensures listing.Some? ==> forall k | 0 <= k < |listing.value| && SnapshotNumber(listing.value[k]).Some? ::
      SnapshotNumber(listing.value[k]).value < SnapshotNumber(r).value
    ensures listing.None? ==> SnapshotNumber(r) == Some(1)
    ensures listing.Some? ==> forall k | 0 <= k < |listing.value| && SnapshotNumber(listing.value[k]).Some? ::
      Lower(listing.value[k]) != Lower(r)
    ensures SnapshotNumber(r) == Some(MaxNumber(if listing.Some? then listing.value else []) + 1)
    ensures listing == Some([]) ==> SnapshotNumber(r) == Some(1)
  {
    var names := if listing.Some? then listing.value else [];
    var r := NumberedName(MaxNumber(names) + 1);
    NextNumberFree(listing, r);
    r
  }

  /** `current_text_<n>.json`. */
  function NumberedName(n: nat): (r: string)
    ensures SnapshotNumber(r) == Some(n)
  {
    NumberedNameNumber(n);
    NumberedPrefix + NatToString(n) + JsonExt
  }

  /** A name numbered one above the listing's largest number is above every listed
      number, and so differs from every listed numbered name in any case. */
  lemma NextNumberFree(listing: Option<seq<string>>, r: string)
    requires SnapshotNumber(r) == Some(MaxNumber(if listing.Some? then listing.value else []) + 1)
    ensures listing.Some? ==> forall k | 0 <= k < |listing.value| && SnapshotNumber(listing.value[k]).Some? ::
      SnapshotNumber(listing.value[k]).value < SnapshotNumber(r).value
    ensures listing.None? || listing == Some([]) ==> SnapshotNumber(r) == Some(1)
    ensures listing.Some? ==> forall k | 0 <= k < |listing.value| && SnapshotNumber(listing.value[k]).Some? ::
      Lower(listing.value[k]) != Lower(r)
  {
    if listing.Some? {
      SmallerNumbersOtherNames(listing.value, r);
    }
  }

  /** Names whose numbers are all below that of `r` differ from `r` in any case:
      the number is read from the lower-cased name. */
  lemma SmallerNumbersOtherNames(names: seq<string>, r: string)
    requires SnapshotNumber(r).Some?
    requires forall k | 0 <= k < |names| && SnapshotNumber(names[k]).Some? ::
      SnapshotNumber(names[k]).value < SnapshotNumber(r).value
    ensures forall k | 0 <= k < |names| && SnapshotNumber(names[k]).Some? :: Lower(names[k]) != Lower(r)
  {
    forall k | 0 <= k < |names| && SnapshotNumber(names[k]).Some?
      ensures Lower(names[k]) != Lower(r)
    {
      if Lower(names[k]) == Lower(r) {
        SameLowerSameNumber(names[k], r);
      }
    }
  }

  /** `SnapshotNumber` only sees the lower-cased name. */
  lemma SameLowerSameNumber(a: string, b: string)
    requires Lower(a) == Lower(b)
    ensures SnapshotNumber(a) == SnapshotNumber(b)
  {
  }

  lemma NumberedNameNumber(n: nat)
    ensures SnapshotNumber(NumberedPrefix + NatToString(n) + JsonExt) == Some(n)
  {
    var digits := NatToString(n);
    NameConstantsLower();
    FramedDigits(NumberedPrefix, digits, JsonExt);
    NatToStringValue(n);
  }

  lemma NameConstantsLower()
    ensures NoUpper(NumberedPrefix) && NoUpper(JsonExt)
  {
  }

  predicate NoUpper(s: string) {
    forall i | 0 <= i < |s| :: !IsUpperAscii(s[i])
  }

  /** Digits framed by two lower-case texts read back from their positions. */
  lemma FramedDigits(p: string, digits: string, e: string)
    requires NoUpper(p) && NoUpper(e) && AllDigits(digits)
    ensures var name := p + digits + e;
      && Lower(name) == name
      && name[..|p|] == p
      && name[|name| - |e|..] == e
      && name[|p|..|name| - |e|] == digits
  {
    var name := p + digits + e;
    forall i | 0 <= i < |name|
      ensures !IsUpperAscii(name[i])
    {
      if i < |p| {
        assert name[i] == p[i];
      } else if i < |p| + |digits| {
        assert name[i] == digits[i - |p|];
      } else {
        assert name[i] == e[i - |p| - |digits|];
      }
    }
    LowerUnchanged(name);
    assert name[..|p|] == p;
    assert name[|name| - |e|..] == e;
    assert name[|p|..|name| - |e|] == digits;
  }
}

=== FILE: snapshots.dfy ===
/** Current-text snapshots (electron/current_text_snapshots_main.js): the relative
    path a task editor names a snapshot by, file base names, the next default file
    name, the check that a path lies inside the snapshots folder, and the checks a
    loaded file passes.

    Absolute paths are lists of segments, already resolved: no segment is empty,
    `.`, `..` or contains `/`. The folder listing, file contents, the file picker,
    the confirmation dialog and `JSON.parse` are parameters. */
module Snapshots {
  import opened Js
  import opened Strings

  // ---------------------------------------------------------------------------
  // Relative snapshot paths
  // ---------------------------------------------------------------------------

  /** The pieces of `parts` that are not empty, in order (`filter(Boolean)`). */
  function NonEmpty(parts: seq<string>): (r: seq<string>)
    ensures forall k | 0 <= k < |r| :: r[k] != ""
    ensures forall x :: x in r <==> x in parts && x != ""
  {
    if |parts| == 0 then []
    else
      var rest := NonEmpty(parts[1..]);
      assert parts == [parts[0]] + parts[1..];
      if parts[0] == "" then rest else [parts[0]] + rest
  }

  lemma {:induction false} NonEmptyKeeps(parts: seq<string>)
    requires forall k | 0 <= k < |parts| :: parts[k] != ""
    ensures NonEmpty(parts) == parts
  {
    if |parts| > 0 {
      NonEmptyKeeps(parts[1..]);
    }
  }

  predicate IsDotSegment(seg: string) { seg == "." || seg == ".." }

  predicate HasJsonSuffix(s: string) { EndsWithIgnoreCase(s, ".json") }

  /** What a normalized relative snapshot path looks like: `/` followed by non-empty
      segments separated by `/`, none of them `.` or `..`, no backslash, and a `.json`
      suffix in any letter case. */
  predicate IsSnapshotRelPath(r: string) {
    && |r| > 1 && r[0] == '/'
    && '\\' !in r
    && HasJsonSuffix(r)
    && forall k | 0 <= k < |Split(r[1..], '/')| ::
         Split(r[1..], '/')[k] != "" && !IsDotSegment(Split(r[1..], '/')[k])
  }

  /** `normalizeSnapshotRelPath`. `raw` is `None` when the input is not a string. */
  function NormalizeSnapshotRelPath(raw: Option<string>): (r: string)
    ensures r == "" || IsSnapshotRelPath(r)
    ensures raw.None? || AllSpace(raw.value) ==> r == ""
  {
    var source := if raw.None? then "" else Trim(raw.value);
    if source == "" then "" else RelOf(SegmentsOf(source))
  }

  /** No piece is empty or holds a separator of either kind. */
  predicate PlainSegments(segs: seq<string>) {
    forall k | 0 <= k < |segs| :: segs[k] != "" && '/' !in segs[k] && '\\' !in segs[k]
  }

  /** Backslashes become `/`, one leading `/` is dropped, and the non-empty pieces
      between `/` are kept. */
  function SegmentsOf(source: string): (segs: seq<string>)
    ensures PlainSegments(segs)
  {
    var slashes := ReplaceChar(source, '\\', '/');
    var withoutLeading := if |slashes| > 0 && slashes[0] == '/' then slashes[1..] else slashes;
    var segs := NonEmpty(Split(withoutLeading, '/'));
    SegmentsAvoid(withoutLeading, segs);
    segs
  }

  lemma SegmentsAvoid(withoutLeading: string, segs: seq<string>)
    requires '\\' !in withoutLeading
    requires segs == NonEmpty(Split(withoutLeading, '/'))
    ensures PlainSegments(segs)
  {
    var parts := Split(withoutLeading, '/');
    forall k | 0 <= k < |segs|
      ensures '/' !in segs[k] && '\\' !in segs[k]
    {
      assert segs[k] in parts;
      var j :| 0 <= j < |parts| && parts[j] == segs[k];
      forall i | 0 <= i < |segs[k]| ensures segs[k][i] != '\\' {
        assert parts[j][i] in withoutLeading;
      }
    }
  }

  /** The relative path the pieces make: empty when there are none, one of them is
      `.` or `..`, or the result lacks the `.json` suffix. */
  function RelOf(segs: seq<string>): (r: string)
    requires PlainSegments(segs)
    ensures r == "" || IsSnapshotRelPath(r)
  {
    if |segs| == 0 then ""
    else if exists k | 0 <= k < |segs| :: IsDotSegment(segs[k]) then ""
    else
      var rel := "/" + Join(segs, '/');
      if !HasJsonSuffix(rel) then ""
      else
        RelOfValid(segs);
        rel
  }

  lemma RelOfValid(segs: seq<string>)
    requires PlainSegments(segs) && |segs| > 0
    requires forall k | 0 <= k < |segs| :: !IsDotSegment(segs[k])
    requires HasJsonSuffix("/" + Join(segs, '/'))
    ensures IsSnapshotRelPath("/" + Join(segs, '/'))
  {
    var rel := "/" + Join(segs, '/');
    SplitJoin(segs, '/');
    JoinAvoids(segs, '/', '\\');
    assert rel[1..] == Join(segs, '/');
  }

  /** A valid relative path is left as it is, and only those and the empty string
      are: normalizing is idempotent. */
  lemma NormalizeFixedPoints(r: string)
    ensures NormalizeSnapshotRelPath(Some(r)) == r <==> r == "" || IsSnapshotRelPath(r)
  {
    if IsSnapshotRelPath(r) {
      ValidRelPathIsFixed(r);
    }
  }

  lemma ValidRelPathIsFixed(r: string)
    requires IsSnapshotRelPath(r)
    ensures NormalizeSnapshotRelPath(Some(r)) == r
  {
    RelPathTrimmed(r);
    RelPathSegments(r);
    RelPathRebuilt(r);
  }

  lemma RelPathTrimmed(r: string)
    requires IsSnapshotRelPath(r)
    ensures Trim(r) == r
  {
    var last := |r| - 1;
    assert Lower(r)[last] == 'n';
    assert !IsSpace(r[last]);
    TrimUnchanged(r);
  }

  lemma RelPathSegments(r: string)
    requires IsSnapshotRelPath(r)
    ensures SegmentsOf(r) == Split(r[1..], '/')
  {
    assert ReplaceChar(r, '\\', '/') == r;
    NonEmptyKeeps(Split(r[1..], '/'));
  }

  lemma RelPathRebuilt(r: string)
    requires IsSnapshotRelPath(r)
    ensures PlainSegments(Split(r[1..], '/'))
    ensures RelOf(Split(r[1..], '/')) == r
  {
    var segs := Split(r[1..], '/');
    forall k | 0 <= k < |segs| ensures '\\' !in segs[k] {
      forall i | 0 <= i < |segs[k]| ensures segs[k][i] != '\\' {
        assert segs[k][i] in r[1..];
      }
    }
    JoinSplit(r[1..], '/');
    assert "/" + Join(segs, '/') == r;
  }

  lemma NormalizeIdempotent(raw: Option<string>)
    ensures NormalizeSnapshotRelPath(Some(NormalizeSnapshotRelPath(raw))) == NormalizeSnapshotRelPath(raw)
  {
    NormalizeFixedPoints(NormalizeSnapshotRelPath(raw));
  }

  // ---------------------------------------------------------------------------
  // Paths inside the snapshots folder
  // ---------------------------------------------------------------------------

  predicate IsSegment(seg: string) { seg != "" && !IsDotSegment(seg) && '/' !in seg }

  predicate IsResolved(p: seq<string>) { forall k | 0 <= k < |p| :: IsSegment(p[k]) }

  predicate IsPrefix(root: seq<string>, p: seq<string>) { |root| <= |p| && p[..|root|] == root }

  /** The number of leading segments two paths share. */
  function CommonPrefixLength(a: seq<string>, b: seq<string>): (n: nat)
    ensures n <= |a| && n <= |b| && a[..n] == b[..n]
    ensures n < |a| && n < |b| ==> a[n] != b[n]
  {
    if |a| == 0 || |b| == 0 || a[0] != b[0] then 0
    else
      var n := CommonPrefixLength(a[1..], b[1..]);
      assert a[..n + 1] == [a[0]] + a[1..][..n];
      assert b[..n + 1] == [b[0]] + b[1..][..n];
      n + 1
  }

  /** `path.relative(root, p)` as segments: up out of what `root` does not share with
      `p`, then down into the rest of `p`. */
  function Relative(root: seq<string>, p: seq<string>): (rel: seq<string>)
    ensures |rel| == |root| + |p| - 2 * CommonPrefixLength(root, p)
  {
    var c := CommonPrefixLength(root, p);
    seq(|root| - c, _ => "..") + p[c..]
  }

  /** `isPathInsideRoot`: the relative path is empty or does not start with `..`.
      (`path.relative` never returns an absolute path between two POSIX paths.) */
  predicate IsPathInsideRoot(root: seq<string>, p: seq<string>) {
    var rel := Join(Relative(root, p), '/');
    rel == "" || !StartsWith(rel, "..")
  }

  lemma {:induction false} JoinStartsWithFirst(parts: seq<string>, sep: char)
    requires |parts| >= 1
    ensures StartsWith(Join(parts, sep), parts[0])
  {
    if |parts| > 1 {
      assert Join(parts, sep)[..|parts[0]|] == parts[0];
    }
  }

  /** The joined path starts with `..` exactly when its first segment does. */
  lemma JoinStartsWithDots(parts: seq<string>)
    requires |parts| >= 1 && parts[0] != "" && '/' !in parts[0]
    ensures StartsWith(Join(parts, '/'), "..") <==> StartsWith(parts[0], "..")
  {
    JoinStartsWithFirst(parts, '/');
    var j := Join(parts, '/');
    if |parts[0]| >= 2 {
      assert j[..2] == parts[0][..2];
    } else if |parts| > 1 {
      assert j[1] == '/';
    }
  }

  lemma RelativeFacts(root: seq<string>, p: seq<string>)
    ensures var c := CommonPrefixLength(root, p);
      Relative(root, p) == [] <==> c == |root| && c == |p|
    ensures var c := CommonPrefixLength(root, p);
      c < |root| ==> Relative(root, p)[0] == ".."
    ensures var c := CommonPrefixLength(root, p);
      c == |root| && c < |p| ==> Relative(root, p)[0] == p[c]
  {
  }

  /** Whatever the check accepts lies inside the folder. */
  lemma InsideRootIsPrefix(root: seq<string>, p: seq<string>)
    requires IsPathInsideRoot(root, p)
    ensures IsPrefix(root, p)
  {
    var c := CommonPrefixLength(root, p);
    RelativeFacts(root, p);
    var rel := Relative(root, p);
    if c < |root| {
      JoinStartsWithFirst(rel, '/');
      assert false;
    }
  }

  /** The check accepts every path inside the folder whose first segment below the
      folder does not start with `..`. */
  lemma PrefixIsInsideRoot(root: seq<string>, p: seq<string>)
    requires IsResolved(p) && IsPrefix(root, p)
    requires |p| == |root| || !StartsWith(p[|root|], "..")
    ensures IsPathInsideRoot(root, p)
  {
    var c := CommonPrefixLength(root, p);
    RelativeFacts(root, p);
    if c < |root| {
      assert false;
    }
    var rel := Relative(root, p);
    if rel != [] {
      assert rel[0] == p[c];
      JoinStartsWithDots(rel);
    }
  }

  /** As written, a file directly below the folder whose name starts with `..` (a
      segment such as `..notes.json`, which is not the parent directory) is
      rejected, though it lies inside. */
  lemma DotDotNamedFileRejected()
    ensures IsPrefix(["snapshots"], ["snapshots", "..notes.json"])
    ensures !IsPathInsideRoot(["snapshots"], ["snapshots", "..notes.json"])
  {
    var root := ["snapshots"];
    var p := ["snapshots", "..notes.json"];
    assert CommonPrefixLength(root, p) == 1;
    assert Relative(root, p) == ["..notes.json"];
  }

  /** The intended check on segments: the relative path is empty or its first
      segment is not the parent directory. */
  predicate IsInsideRoot(root: seq<string>, p: seq<string>) {
    var rel := Relative(root, p);
    rel == [] || rel[0] != ".."
  }

  /** For resolved paths the intended check holds exactly for the paths inside. */
  lemma InsideRootExactly(root: seq<string>, p: seq<string>)
    requires IsResolved(p)
    ensures IsInsideRoot(root, p) <==> IsPrefix(root, p)
  {
    var c := CommonPrefixLength(root, p);
    RelativeFacts(root, p);
    if c == |root| && c < |p| {
      assert IsSegment(p[c]);
    }
    if IsPrefix(root, p) && c < |root| {
      assert false;
    }
  }

  /** The segments of a valid relative path, below the folder. */
  function RelSegments(rel: string): (segs: seq<string>)
    requires IsSnapshotRelPath(rel)
    ensures |segs| >= 1 && IsResolved(segs)
  {
    var segs := Split(rel[1..], '/');
    NonEmptyKeeps(segs);
    segs
  }

  /** `resolveSnapshotFromRelPath` as written: the normalized path below the folder,
      or `None` when normalization fails or the inside check rejects it. */
  function ResolveSnapshotFromRelPath(root: seq<string>, raw: Option<string>): (r: Option<seq<string>>)
    ensures r.Some? ==> IsPrefix(root, r.value) && |r.value| > |root|
    ensures r.Some? ==> NamesJsonFile(r.value)
    ensures NormalizeSnapshotRelPath(raw) == "" ==> r.None?
  {
    var rel := NormalizeSnapshotRelPath(raw);
    if rel == "" then None else ResolveRel(root, rel)
  }

  /** The last segment of the path carries the `.json` suffix. */
  predicate NamesJsonFile(path: seq<string>) {
    |path| > 0 && HasJsonSuffix(path[|path| - 1])
  }

  /** The inside check on a valid relative path joined to the folder. */
  function ResolveRel(root: seq<string>, rel: string): (r: Option<seq<string>>)
    requires IsSnapshotRelPath(rel)
    ensures r.Some? ==> r.value == root + RelSegments(rel)
    ensures r.Some? ==> IsPrefix(root, r.value) && |r.value| > |root|
    ensures r.Some? ==> NamesJsonFile(r.value)
  {
    var segs := RelSegments(rel);
    var resolved := root + segs;
    if !IsPathInsideRoot(root, resolved) then None
    else
      InsideRootIsPrefix(root, resolved);
      ResolvedKeepsSuffix(rel);
      assert resolved[|resolved| - 1] == segs[|segs| - 1];
      Some(resolved)
  }

  lemma ResolvedKeepsSuffix(rel: string)
    requires IsSnapshotRelPath(rel)
    ensures NamesJsonFile(RelSegments(rel))
  {
    LastPieceSuffix(rel);
  }

  lemma LastPieceSuffix(rel: string)
    requires |rel| >= 1 && rel[0] == '/' && HasJsonSuffix(rel)
    ensures HasJsonSuffix(Split(rel[1..], '/')[|Split(rel[1..], '/')| - 1])
  {
    var t := rel[1..];
    var segs := Split(t, '/');
    var n := |segs|;
    var last := segs[n - 1];
    SplitLast(t, '/');
    var i := |rel| - |last| - 1;
    if n == 1 {
      assert rel[i + 1..] == last;
    } else {
      var j := Join(segs[..n - 1], '/');
      assert t == j + ['/'] + last;
      assert rel[i] == t[|j|];
      assert rel[i + 1..] == t[|j| + 1..];
    }
    SuffixAfterSlash(rel, i);
  }

  /** A `.json` suffix after a `/` belongs to the text after that `/`. */
  lemma SuffixAfterSlash(s: string, i: int)
    requires 0 <= i < |s| && s[i] == '/'
    requires HasJsonSuffix(s)
    ensures HasJsonSuffix(s[i + 1..])
  {
    var n := |s|;
    var last := s[i + 1..];
    var suffix := ".json";
    assert Lower(s)[n - 5..] == suffix;
    assert Lower(s)[i] == '/';
    forall j | n - 5 <= j < n
      ensures Lower(s)[j] != '/'
    {
      assert Lower(s)[j] == suffix[j - (n - 5)];
    }
    assert i < n - 5;
    forall j | 0 <= j < 5
      ensures Lower(last)[|last| - 5 + j] == suffix[j]
    {
      assert s[n - 5 + j] == last[|last| - 5 + j];
      assert Lower(s)[n - 5 + j] == suffix[j];
    }
    assert Lower(last)[|last| - 5..] == suffix;
  }

  /** `resolveSnapshotFromRelPath` with the intended inside check: every valid
      relative path resolves to a file below the folder. */
  function ResolveSnapshotCorrected(root: seq<string>, raw: Option<string>): (r: Option<seq<string>>)
    requires IsResolved(root)
    ensures r.Some? <==> NormalizeSnapshotRelPath(raw) != ""
    ensures r.Some? ==> IsPrefix(root, r.value) && |r.value| > |root| && IsResolved(r.value)
  {
    var rel := NormalizeSnapshotRelPath(raw);
    if rel == "" then None
    else
      var resolved := root + RelSegments(rel);
      assert resolved[..|root|] == root;
      InsideRootExactly(root, resolved);
      if !IsInsideRoot(root, resolved) then (assert false; None)
      else Some(resolved)
  }

  /** A single file name below the folder is a valid relative path. */
  lemma FileNameIsRelPath(name: string)
    requires IsSegment(name) && '\\' !in name
    requires EndsWith(name, ".json")
    ensures IsSnapshotRelPath("/" + name)
  {
    var rel := "/" + name;
    SplitNoSeparator(name, '/');
    assert rel[1..] == name;
    assert EndsWith(rel, ".json");
    EndsWithLowerSuffix(rel, ".json");
  }

  /** As written, a valid relative path naming a file directly in the folder whose
      name starts with `..` (such as `/..notes.json`) resolves to nothing; with the
      intended check it resolves to that file. */
  lemma DotDotNamedRelPathRefused(root: seq<string>, name: string)
    requires IsResolved(root)
    requires IsSegment(name) && '\\' !in name && EndsWith(name, ".json")
    requires StartsWith(name, "..")
    ensures NormalizeSnapshotRelPath(Some("/" + name)) == "/" + name
    ensures ResolveSnapshotFromRelPath(root, Some("/" + name)).None?
    ensures ResolveSnapshotCorrected(root, Some("/" + name)) == Some(root + [name])
  {
    FileNameSegments(name);
    ChildNamedDotDotRefused(root, name);
  }

  lemma ChildNamedDotDotRefused(root: seq<string>, name: string)
    requires IsSegment(name) && StartsWith(name, "..")
    ensures !IsPathInsideRoot(root, root + [name])
  {
    RelativeToChild(root, name);
    JoinStartsWithDots([name]);
  }

  lemma FileNameSegments(name: string)
    requires IsSegment(name) && '\\' !in name && EndsWith(name, ".json")
    ensures IsSnapshotRelPath("/" + name)
    ensures NormalizeSnapshotRelPath(Some("/" + name)) == "/" + name
    ensures RelSegments("/" + name) == [name]
  {
    var rel := "/" + name;
    FileNameIsRelPath(name);
    NormalizeFixedPoints(rel);
    SplitNoSeparator(name, '/');
    assert rel[1..] == name;
  }

  lemma RelativeToChild(root: seq<string>, name: string)
    ensures Relative(root, root + [name]) == [name]
  {
    var p := root + [name];
    assert p[..|root|] == root;
  }

  // ---------------------------------------------------------------------------
  // Loading a snapshot
  // ---------------------------------------------------------------------------

  /** The error codes of the load handler. */
  datatype LoadError =
    | ReadFailed | PathOutsideSnapshots | NotFound | Cancelled
    | InvalidSchema | ConfirmDenied | InvalidJson

  const Bom: char := '\U{FEFF}'

  /** `raw.replace(/^\uFEFF/, '')`. */
  function StripBom(content: string): (r: string)
    ensures r == content || content == [Bom] + r
    ensures |content| > 0 && content[0] == Bom ==> |r| == |content| - 1
  {
    if |content| > 0 && content[0] == Bom then content[1..] else content
  }

  /** `!parsed || typeof parsed !== 'object' || typeof parsed.text !== 'string'`
      negated: a non-null object whose `text` is a string. */
  predicate IsSnapshotObject(v: Value) {
    Truthy(v) && TypeofObject(v) && Get(v, "text").Str?
  }

  /** The content checks of the load handler, from the file's text to the snapshot
      text. `parse` stands for `JSON.parse`, `None` when it throws. */
  function SnapshotText(content: string, parse: string -> Option<Value>): (r: Result<string, LoadError>)
    ensures AllSpace(StripBom(content)) ==> r == Err(InvalidJson)
    ensures r == Err(InvalidJson) <==> AllSpace(StripBom(content)) || parse(StripBom(content)).None?
    ensures r.Ok? <==> !AllSpace(StripBom(content)) && parse(StripBom(content)).Some?
                       && IsSnapshotObject(parse(StripBom(content)).value)
    ensures r.Ok? ==> Get(parse(StripBom(content)).value, "text") == Str(r.value)
    ensures r.Err? ==> r.error == InvalidJson || r.error == InvalidSchema
  {
    var raw := StripBom(content);
    if Trim(raw) == [] then Err(InvalidJson)
    else
      match parse(raw)
      case None => Err(InvalidJson)
      case Some(v) =>
        if !IsSnapshotObject(v) then Err(InvalidSchema)
        else Ok(Get(v, "text").s)
  }

  /** A byte-order mark in front of the content changes nothing. */
  lemma SnapshotTextIgnoresBom(content: string, parse: string -> Option<Value>)
    requires content == [] || content[0] != Bom
    ensures SnapshotText([Bom] + content, parse) == SnapshotText(content, parse)
  {
    assert ([Bom] + content)[1..] == content;
  }

  /** A directory entry as the load handler sees it. */
  datatype Entry = File(content: string) | Dir

  /** Where the loaded text goes on to: a request naming a path comes from the
      task editor, one answered by the file picker from the main window. */
  datatype LoadSource = TaskEditor | MainWindow

  datatype Loaded = Loaded(path: seq<string>, text: string, source: LoadSource)

  /** Which file the load handler reads: the requested path when there is one,
      else the file picker's answer. */
  function ChooseSnapshot(root: seq<string>, rel: string, files: map<seq<string>, Entry>,
                          picked: Option<seq<string>>)
    : (r: Result<(seq<string>, LoadSource), LoadError>)
    ensures r.Ok? ==> IsPrefix(root, r.value.0)
    ensures r.Ok? ==> (r.value.1 == TaskEditor <==> rel != "")
    ensures rel != "" && r.Ok? ==> r.value.0 in files
    ensures rel == "" && picked.None? ==> r == Err(Cancelled)
  {
    if rel != "" then
      match ResolveSnapshotFromRelPath(root, Some(rel))
      case None => Err(PathOutsideSnapshots)
      case Some(p) => if p !in files then Err(NotFound) else Ok((p, TaskEditor))
    else
      match picked
      case None => Err(Cancelled)
      case Some(p) =>
        if !IsPathInsideRoot(root, p) then Err(PathOutsideSnapshots)
        else
          InsideRootIsPrefix(root, p);
          Ok((p, MainWindow))
  }

  /** The decisions of the `current-text-snapshot-load` handler. `root` is the
      resolved snapshots folder (`None` when it cannot be made or resolved),
      `requested` the payload's `snapshotRelPath` when it is a non-empty string,
      `files` the file system, `picked` the resolved path chosen in the file
      picker (`None` when it is cancelled) and `confirmed` the answer to the
      overwrite confirmation. */
  function Load(root: Option<seq<string>>, requested: Option<string>, files: map<seq<string>, Entry>,
                picked: Option<seq<string>>, confirmed: bool, parse: string -> Option<Value>)
    : (r: Result<Loaded, LoadError>)
    ensures root.None? ==> r == Err(ReadFailed)
    ensures r.Ok? ==> root.Some? && IsPrefix(root.value, r.value.path)
    ensures r.Ok? ==> r.value.path in files && files[r.value.path].File?
                      && SnapshotText(files[r.value.path].content, parse) == Ok(r.value.text)
    ensures r.Ok? ==> confirmed
    ensures r.Ok? ==> (r.value.source == TaskEditor <==> NormalizeSnapshotRelPath(requested) != "")
    ensures root.Some? && NormalizeSnapshotRelPath(requested) == "" && picked.None? ==> r == Err(Cancelled)
  {
    if root.None? then Err(ReadFailed)
    else
      var rel := NormalizeSnapshotRelPath(requested);
      var chosen := ChooseSnapshot(root.value, rel, files, picked);
      match chosen
      case Err(e) => Err(e)
      case Ok((path, source)) =>
        if path !in files then Err(ReadFailed)
        else if files[path].Dir? then Err(InvalidSchema)
        else if !confirmed then Err(ConfirmDenied)
        else
          match SnapshotText(files[path].content, parse)
          case Err(e) => Err(e)
          case Ok(text) => Ok(Loaded(path, text, source))
  }
}

=== FILE: strings.dfy ===
/** Text helpers shared by every module: JavaScript's white-space class, trimming,
    ASCII case mapping, splitting and joining on one separator character, and
    decimal rendering and parsing of integers.

    A `string` here is a sequence of JavaScript string units (one `char` per unit);
    only the Count module tells UTF-16 code units and code points apart. */
module Strings {

  /** The characters that JavaScript's `\s` class and `String.prototype.trim` treat as
      white space (the same set for both). */
  predicate IsSpace(c: char) {
    || c == '\t' || c == '\n' || c == '\U{000B}' || c == '\U{000C}' || c == '\r' || c == ' '
    || c == '\U{00A0}' || c == '\U{1680}' || ('\U{2000}' <= c <= '\U{200A}')
    || c == '\U{2028}' || c == '\U{2029}' || c == '\U{202F}' || c == '\U{205F}'
    || c == '\U{3000}' || c == '\U{FEFF}'
  }

  predicate AllSpace(s: string) {
    forall i | 0 <= i < |s| :: IsSpace(s[i])
  }

  /** `s` with its leading white space removed. */
  function TrimStart(s: string): (r: string)
    ensures |r| <= |s| && r == s[|s| - |r|..]
    ensures AllSpace(s[..|s| - |r|])
    ensures r == [] || !IsSpace(r[0])
  {
    if |s| > 0 && IsSpace(s[0]) then
      var r := TrimStart(s[1..]);
      assert s[..|s| - |r|] == [s[0]] + s[1..][..|s| - 1 - |r|];
      r
    else
      s
  }

  /** `s` with its trailing white space removed. */
  function TrimEnd(s: string): (r: string)
    ensures |r| <= |s| && r == s[..|r|]
    ensures AllSpace(s[|r|..])
    ensures r == [] || !IsSpace(r[|r| - 1])
  {
    if |s| > 0 && IsSpace(s[|s| - 1]) then
      var r := TrimEnd(s[..|s| - 1]);
      assert s[|r|..] == s[..|s| - 1][|r|..] + [s[|s| - 1]];
      r
    else
      s
  }

  /** `String.prototype.trim`. */
  function Trim(s: string): (r: string)
    ensures r == [] || (!IsSpace(r[0]) && !IsSpace(r[|r| - 1]))
    ensures r == [] <==> AllSpace(s)
    ensures |r| <= |s|
  {
    var t := TrimStart(s);
    var r := TrimEnd(t);
    assert r == [] ==> s == s[..|s| - |t|] + t[|r|..];
    r
  }

  /** Trimming a string that neither starts nor ends with white space changes nothing. */
  lemma TrimUnchanged(s: string)
    requires s == [] || (!IsSpace(s[0]) && !IsSpace(s[|s| - 1]))
    ensures Trim(s) == s
  {
  }

  /** Trimming twice is trimming once. */
  lemma TrimIdempotent(s: string)
    ensures Trim(Trim(s)) == Trim(s)
  {
    TrimUnchanged(Trim(s));
  }

  /** White space in front of a string that is not all white space is dropped
      with the string's own leading white space. */
  lemma {:induction false} TrimStartAppend(a: string, b: string)
    ensures !AllSpace(a) ==> TrimStart(a + b) == TrimStart(a) + b
    ensures AllSpace(a) ==> TrimStart(a + b) == TrimStart(b)
  {
    if a == [] {
      assert a + b == b;
    } else if IsSpace(a[0]) {
      var ab := a + b;
      assert ab[0] == a[0];
      assert TrimStart(ab) == TrimStart(ab[1..]);
      assert ab[1..] == a[1..] + b;
      assert TrimStart(a) == TrimStart(a[1..]);
      TrimStartAppend(a[1..], b);
      AllSpaceTail(a);
    } else {
      assert (a + b)[0] == a[0];
    }
  }

  lemma AllSpaceTail(a: string)
    requires a != [] && IsSpace(a[0])
    ensures AllSpace(a) <==> AllSpace(a[1..])
  {
    if AllSpace(a[1..]) {
      forall i | 0 <= i < |a| ensures IsSpace(a[i]) {
        if i > 0 { assert a[i] == a[1..][i - 1]; }
      }
    }
  }

  /** White space appended at the end is trimmed away. */
  lemma {:induction false} TrimEndAppendSpaces(a: string, sp: string)
    requires AllSpace(sp)
    ensures TrimEnd(a + sp) == TrimEnd(a)
    decreases |sp|
  {
    if sp != [] {
      var n := |a + sp|;
      assert (a + sp)[n - 1] == sp[|sp| - 1];
      assert (a + sp)[..n - 1] == a + sp[..|sp| - 1];
      TrimEndAppendSpaces(a, sp[..|sp| - 1]);
    } else {
      assert a + sp == a;
    }
  }

  /** Trimming ignores white space added around a string. */
  lemma TrimAround(s: string)
    ensures Trim(" " + s + "\n") == Trim(s)
  {
    var sp, nl := [' '], ['\n'];
    var t := sp + (s + nl);
    assert " " + s + "\n" == t;
    assert AllSpace(sp) && AllSpace(nl);
    TrimStartAppend(sp, s + nl);
    assert TrimStart(t) == TrimStart(s + nl);
    TrimStartAppend(s, nl);
    if AllSpace(s) {
      assert TrimStart(nl) == [];
      assert Trim(t) == TrimEnd([]) == [];
    } else {
      assert TrimStart(s + nl) == TrimStart(s) + nl;
      TrimEndAppendSpaces(TrimStart(s), nl);
      assert Trim(t) == TrimEnd(TrimStart(s)) == Trim(s);
    }
  }

  predicate IsUpperAscii(c: char) { 'A' <= c <= 'Z' }

  /** ASCII lower-casing of one character; every other character is kept. */
  function LowerChar(c: char): (r: char)
    ensures !IsUpperAscii(r)
    ensures !IsUpperAscii(c) ==> r == c
  {
    if IsUpperAscii(c) then (c as int + 32) as char else c
  }

  function Lower(s: string): (r: string)
    ensures |r| == |s|
    ensures forall i | 0 <= i < |s| :: r[i] == LowerChar(s[i])
  {
    seq(|s|, i requires 0 <= i < |s| => LowerChar(s[i]))
  }

  lemma LowerUnchanged(s: string)
    requires forall i | 0 <= i < |s| :: !IsUpperAscii(s[i])
    ensures Lower(s) == s
  {
  }

  predicate StartsWith(s: string, prefix: string) {
    |prefix| <= |s| && s[..|prefix|] == prefix
  }

  predicate EndsWith(s: string, suffix: string) {
    |suffix| <= |s| && s[|s| - |suffix|..] == suffix
  }

  /** ASCII case-insensitive `endsWith`, as `s.toLowerCase().endsWith(suffix)` for a
      lower-case ASCII suffix. */
  predicate EndsWithIgnoreCase(s: string, lowerSuffix: string) {
    EndsWith(Lower(s), lowerSuffix)
  }

  /** An exact lower-case suffix is also a suffix ignoring case. */
  lemma EndsWithLowerSuffix(s: string, lowerSuffix: string)
    requires forall i | 0 <= i < |lowerSuffix| :: !IsUpperAscii(lowerSuffix[i])
    requires EndsWith(s, lowerSuffix)
    ensures EndsWithIgnoreCase(s, lowerSuffix)
  {
    var d := |s| - |lowerSuffix|;
    forall i | 0 <= i < |lowerSuffix|
      ensures Lower(s)[d + i] == lowerSuffix[i]
    {
      assert s[d + i] == lowerSuffix[i];
    }
  }

  /** `s.split(sep)` for a one-character separator: the pieces between separators. */
  function Split(s: string, sep: char): (parts: seq<string>)
    ensures |parts| >= 1
    ensures forall k | 0 <= k < |parts| :: sep !in parts[k]
    ensures forall k, i | 0 <= k < |parts| && 0 <= i < |parts[k]| :: parts[k][i] in s
  {
    if |s| == 0 then [""]
    else
      var rest := Split(s[1..], sep);
      if s[0] == sep then [""] + rest
      else [[s[0]] + rest[0]] + rest[1..]
  }

  /** `parts.join(sep)`. */
  function Join(parts: seq<string>, sep: char): string {
    if |parts| == 0 then ""
    else if |parts| == 1 then parts[0]
    else parts[0] + [sep] + Join(parts[1..], sep)
  }

  lemma {:induction false} JoinSplit(s: string, sep: char)
    ensures Join(Split(s, sep), sep) == s
  {
    if |s| > 0 {
      var rest := Split(s[1..], sep);
      JoinSplit(s[1..], sep);
      assert s == [s[0]] + s[1..];
      if s[0] == sep {
        JoinCons("", rest, sep);
      } else {
        JoinExtendHead(s[0], rest, sep);
      }
    }
  }

  lemma JoinCons(a: string, rest: seq<string>, sep: char)
    requires |rest| >= 1
    ensures Join([a] + rest, sep) == a + [sep] + Join(rest, sep)
  {
    assert ([a] + rest)[1..] == rest;
  }

  /** Putting a character before the first piece puts it before the joined text. */
  lemma JoinExtendHead(c: char, rest: seq<string>, sep: char)
    requires |rest| >= 1
    ensures Join([[c] + rest[0]] + rest[1..], sep) == [c] + Join(rest, sep)
  {
    if |rest| > 1 {
      JoinCons([c] + rest[0], rest[1..], sep);
      JoinCons(rest[0], rest[1..], sep);
      assert rest == [rest[0]] + rest[1..];
    }
  }

  /** Splitting at the first separator. */
  lemma {:induction false} SplitConcat(a: string, b: string, sep: char)
    requires sep !in a
    ensures Split(a + [sep] + b, sep) == [a] + Split(b, sep)
  {
    var s := a + [sep] + b;
    if |a| == 0 {
      assert s[1..] == b;
    } else {
      assert s[1..] == a[1..] + [sep] + b;
      SplitConcat(a[1..], b, sep);
      assert [s[0]] + a[1..] == a;
    }
  }

  lemma {:induction false} SplitNoSeparator(a: string, sep: char)
    requires sep !in a
    ensures Split(a, sep) == [a]
  {
    if |a| > 0 {
      SplitNoSeparator(a[1..], sep);
      assert [a[0]] + a[1..] == a;
    }
  }

  /** Joining pieces free of the separator and splitting again gives the pieces back. */
  lemma {:induction false} SplitJoin(parts: seq<string>, sep: char)
    requires |parts| >= 1
    requires forall k | 0 <= k < |parts| :: sep !in parts[k]
    ensures Split(Join(parts, sep), sep) == parts
  {
    if |parts| == 1 {
      SplitNoSeparator(parts[0], sep);
    } else {
      SplitJoin(parts[1..], sep);
      SplitConcat(parts[0], Join(parts[1..], sep), sep);
    }
  }

  /** Splitting off the last piece of a join. */
  lemma {:induction false} JoinLast(parts: seq<string>, sep: char)
    requires |parts| > 1
    ensures Join(parts, sep) == Join(parts[..|parts| - 1], sep) + [sep] + parts[|parts| - 1]
  {
    var n := |parts|;
    if n > 2 {
      JoinLast(parts[1..], sep);
      assert parts[1..][..n - 2] == parts[..n - 1][1..];
    }
  }

  /** A string is the text before its last separator, the separator, and its last
      piece; without a separator it is its only piece. */
  lemma SplitLast(s: string, sep: char)
    ensures var parts := Split(s, sep);
            && (|parts| == 1 ==> s == parts[0])
            && (|parts| > 1 ==> s == Join(parts[..|parts| - 1], sep) + [sep] + parts[|parts| - 1])
  {
    var parts := Split(s, sep);
    JoinSplit(s, sep);
    if |parts| > 1 {
      JoinLast(parts, sep);
    }
  }

  /** A character that is neither the separator nor in any piece is not in the join. */
  lemma {:induction false} JoinAvoids(parts: seq<string>, sep: char, c: char)
    requires c != sep
    requires forall k | 0 <= k < |parts| :: c !in parts[k]
    ensures c !in Join(parts, sep)
  {
    if |parts| > 1 {
      JoinAvoids(parts[1..], sep, c);
    }
  }

  /** `s.replace(/x/g, y)` for single characters. */
  function ReplaceChar(s: string, x: char, y: char): (r: string)
    ensures |r| == |s|
    ensures forall i | 0 <= i < |s| :: r[i] == if s[i] == x then y else s[i]
  {
    seq(|s|, i requires 0 <= i < |s| => if s[i] == x then y else s[i])
  }

  // ---------------------------------------------------------------------------
  // Decimal numbers
  // ---------------------------------------------------------------------------

  predicate IsDigit(c: char) { '0' <= c <= '9' }

  predicate AllDigits(s: string) {
    forall i | 0 <= i < |s| :: IsDigit(s[i])
  }

  function DigitChar(d: nat): (c: char)
    requires d < 10
    ensures IsDigit(c)
  {
    ('0' as int + d) as char
  }

  function DigitValue(c: char): (d: nat)
    requires IsDigit(c)
    ensures d < 10 && DigitChar(d) == c
  {
    c as int - '0' as int
  }

  /** The value of a string of decimal digits (the empty string counts 0). */
  function DigitsValue(s: string): nat
    requires AllDigits(s)
  {
    if |s| == 0 then 0 else DigitsValue(s[..|s| - 1]) * 10 + DigitValue(s[|s| - 1])
  }

  /** `n.toString()` for a non-negative integer: no sign, no leading zero. */
  function NatToString(n: nat): (r: string)
    ensures |r| >= 1 && AllDigits(r)
    ensures |r| > 1 ==> r[0] != '0'
  {
    if n < 10 then [DigitChar(n)] else NatToString(n / 10) + [DigitChar(n % 10)]
  }

  lemma {:induction false} NatToStringValue(n: nat)
    ensures DigitsValue(NatToString(n)) == n
  {
    if n >= 10 {
      NatToStringValue(n / 10);
      var r := NatToString(n);
      assert r[..|r| - 1] == NatToString(n / 10);
    }
  }

  /** Distinct numbers render differently. */
  lemma NatToStringInjective(m: nat, n: nat)
    requires NatToString(m) == NatToString(n)
    ensures m == n
  {
    NatToStringValue(m);
    NatToStringValue(n);
  }

  /** `n.toString()` for any integer. */
  function IntToString(n: int): (r: string)
    ensures |r| >= 1
    ensures n >= 0 ==> AllDigits(r)
    ensures n < 0 ==> r[0] == '-'
  {
    if n < 0 then "-" + NatToString(-n) else NatToString(n)
  }

  /** `s.padStart(width, '0')`. */
  function PadStartZero(s: string, width: nat): (r: string)
    ensures |r| == if |s| >= width then |s| else width
    ensures EndsWith(r, s)
    ensures forall i | 0 <= i < |r| - |s| :: r[i] == '0'
  {
    if |s| >= width then s else seq(width - |s|, _ => '0') + s
  }
  lemma {:induction false} ZerosValue(z: string)
    requires forall i | 0 <= i < |z| :: z[i] == '0'
    ensures AllDigits(z) && DigitsValue(z) == 0
  {
    if z != [] {
      ZerosValue(z[..|z| - 1]);
    }
  }

  /** Leading zeros do not change the value of a digit string. */
  lemma {:induction false} DigitsValueLeadingZeros(z: string, s: string)
    requires forall i | 0 <= i < |z| :: z[i] == '0'
    requires AllDigits(s)
    ensures AllDigits(z + s) && DigitsValue(z + s) == DigitsValue(s)
    decreases |s|
  {
    ZerosValue(z);
    if s == [] {
      assert z + s == z;
    } else {
      assert (z + s)[..|z + s| - 1] == z + s[..|s| - 1];
      DigitsValueLeadingZeros(z, s[..|s| - 1]);
    }
  }

  /** A zero-padded rendering of `n` still reads back as `n`. */
  lemma PaddedValue(n: nat, width: nat)
    ensures AllDigits(PadStartZero(NatToString(n), width))
    ensures DigitsValue(PadStartZero(NatToString(n), width)) == n
  {
    var s := NatToString(n);
    var r := PadStartZero(s, width);
    assert r == r[..|r| - |s|] + s;
    DigitsValueLeadingZeros(r[..|r| - |s|], s);
    NatToStringValue(n);
  }
}

=== FILE: updater.dfy ===
/** The update check (electron/updater.js): comparing dotted version strings and
    deciding whether to offer an update. Reading the local `VERSION` file, the
    HTTPS request and the dialogs are replaced by their results. */
module Updater {
  import opened Js
  import opened Strings

  // ---------------------------------------------------------------------------
  // Version components
  // ---------------------------------------------------------------------------

  /** The longest run of decimal digits at the start of `s`. */
  function DigitPrefix(s: string): (r: string)
    ensures |r| <= |s| && AllDigits(r) && r == s[..|r|]
    ensures |r| == |s| || !IsDigit(s[|r|])
  {
    if s != [] && IsDigit(s[0]) then
      var rest := DigitPrefix(s[1..]);
      assert [s[0]] + rest == s[..|rest| + 1];
      [s[0]] + rest
    else []
  }

  /** `parseInt(s, 10)`: leading white space, an optional sign, then the longest
      run of digits; `None` (NaN) when there is no digit. */
  function ParseInt(s: string): (r: Option<int>)
    ensures var t := TrimStart(s);
      r.None? <==> DigitPrefix(if t != [] && (t[0] == '+' || t[0] == '-') then t[1..] else t) == []
  {
    var t := TrimStart(s);
    var negative := t != [] && t[0] == '-';
    var unsigned := if t != [] && (t[0] == '+' || t[0] == '-') then t[1..] else t;
    var digits := DigitPrefix(unsigned);
    if digits == [] then None
    else
      var magnitude: int := DigitsValue(digits);
      Some(if negative then -magnitude else magnitude)
  }

  /** `parseInt(n, 10) || 0`. */
  function Component(s: string): (v: int)
    ensures ParseInt(s).None? ==> v == 0
    ensures ParseInt(s).Some? ==> v == ParseInt(s).value
  {
    match ParseInt(s)
    case None => 0
    case Some(n) => n
  }

  function Components(parts: seq<string>): (r: seq<int>)
    ensures |r| == |parts|
    ensures forall i | 0 <= i < |parts| :: r[i] == Component(parts[i])
  {
    if parts == [] then [] else [Component(parts[0])] + Components(parts[1..])
  }

  /** `String(v).trim().split('.').map(n => parseInt(n, 10) || 0)`. */
  function VersionComponents(v: string): (r: seq<int>)
    ensures |r| >= 1
  {
    Components(Split(Trim(v), '.'))
  }

  // ---------------------------------------------------------------------------
  // Comparison
  // ---------------------------------------------------------------------------

  /** `p[i] || 0`: a missing component counts as 0. */
  function At(p: seq<int>, i: nat): int {
    if i < |p| then p[i] else 0
  }

  function MaxLen(a: seq<int>, b: seq<int>): nat {
    if |a| >= |b| then |a| else |b|
  }

  /** The loop of `compareVersions` from index `i` on. */
  function CompareFrom(a: seq<int>, b: seq<int>, i: nat): (r: int)
    ensures r == -1 || r == 0 || r == 1
    decreases MaxLen(a, b) - i
  {
    if i >= MaxLen(a, b) then 0
    else if At(a, i) > At(b, i) then 1
    else if At(a, i) < At(b, i) then -1
    else CompareFrom(a, b, i + 1)
  }

  function CompareComponents(a: seq<int>, b: seq<int>): (r: int)
    ensures r == -1 || r == 0 || r == 1
  {
    CompareFrom(a, b, 0)
  }

  /** `compareVersions(a, b)`: 1, 0 or -1. */
  function CompareVersions(a: string, b: string): (r: int)
    ensures r == -1 || r == 0 || r == 1
  {
    CompareComponents(VersionComponents(a), VersionComponents(b))
  }

  /** The two lists agree on every index from `i` on, missing entries read as 0. */
  predicate AgreeFrom(a: seq<int>, b: seq<int>, i: nat) {
    forall j: nat | i <= j < MaxLen(a, b) :: At(a, j) == At(b, j)
  }

  /** `a` is greater than `b` at `j` and agrees with it from `i` up to `j`. */
  predicate GreaterAt(a: seq<int>, b: seq<int>, i: nat, j: nat) {
    i <= j < MaxLen(a, b) && At(a, j) > At(b, j)
    && forall m: nat | i <= m < j :: At(a, m) == At(b, m)
  }

  /** The loop computes lexicographic order on the zero-padded lists: 0 exactly when
      they agree everywhere, 1 exactly when `a` is greater at the first
      difference. */
  lemma {:induction false} CompareFromMeaning(a: seq<int>, b: seq<int>, i: nat)
    ensures CompareFrom(a, b, i) == 0 <==> AgreeFrom(a, b, i)
    ensures CompareFrom(a, b, i) == 1 <==> exists j: nat :: GreaterAt(a, b, i, j)
    decreases MaxLen(a, b) - i
  {
    if i >= MaxLen(a, b) {
      assert forall j: nat :: !GreaterAt(a, b, i, j);
    } else if At(a, i) > At(b, i) {
      assert GreaterAt(a, b, i, i);
      assert !(At(a, i) == At(b, i));
    } else if At(a, i) < At(b, i) {
      assert !(At(a, i) == At(b, i));
      assert forall j: nat :: !GreaterAt(a, b, i, j);
    } else {
      CompareFromMeaning(a, b, i + 1);
      if CompareFrom(a, b, i + 1) == 1 {
        var j: nat :| GreaterAt(a, b, i + 1, j);
        assert GreaterAt(a, b, i, j);
      }
      assert forall j: nat | GreaterAt(a, b, i, j) :: GreaterAt(a, b, i + 1, j);
    }
  }

  /** Swapping the arguments negates the result. */
  lemma {:induction false} CompareFromAntisymmetric(a: seq<int>, b: seq<int>, i: nat)
    ensures CompareFrom(a, b, i) == -CompareFrom(b, a, i)
    decreases MaxLen(a, b) - i
  {
    assert MaxLen(a, b) == MaxLen(b, a);
    if i < MaxLen(a, b) && At(a, i) == At(b, i) {
      CompareFromAntisymmetric(a, b, i + 1);
    }
  }

  lemma CompareVersionsAntisymmetric(a: string, b: string)
    ensures CompareVersions(a, b) == -CompareVersions(b, a)
  {
    CompareFromAntisymmetric(VersionComponents(a), VersionComponents(b), 0);
  }

  lemma {:induction false} CompareFromReflexive(a: seq<int>, i: nat)
    ensures CompareFrom(a, a, i) == 0
    decreases MaxLen(a, a) - i
  {
    if i < MaxLen(a, a) {
      CompareFromReflexive(a, i + 1);
    }
  }

  lemma CompareVersionsReflexive(a: string)
    ensures CompareVersions(a, a) == 0
  {
    CompareFromReflexive(VersionComponents(a), 0);
  }

  /** Comparison is transitive, for "greater" and for "equal". */
  lemma {:induction false} CompareFromTransitive(a: seq<int>, b: seq<int>, c: seq<int>, i: nat)
    requires CompareFrom(a, b, i) >= 0 && CompareFrom(b, c, i) >= 0
    ensures CompareFrom(a, c, i) >= 0
    ensures CompareFrom(a, c, i) == 0 ==> CompareFrom(a, b, i) == 0 && CompareFrom(b, c, i) == 0
    decreases |a| + |b| + |c| - i
  {
    if i >= MaxLen(a, b) && i >= MaxLen(b, c) && i >= MaxLen(a, c) {
    } else {
      if At(a, i) == At(b, i) && At(b, i) == At(c, i) {
        AtPastEnd(a, b, c, i);
        CompareFromTransitive(a, b, c, i + 1);
      }
    }
  }

  /** Past the end of both lists the loop returns 0, and stepping one index on is
      the same comparison. */
  lemma AtPastEnd(a: seq<int>, b: seq<int>, c: seq<int>, i: nat)
    requires At(a, i) == At(b, i) && At(b, i) == At(c, i)
    ensures CompareFrom(a, b, i) == CompareFrom(a, b, i + 1)
    ensures CompareFrom(b, c, i) == CompareFrom(b, c, i + 1)
    ensures CompareFrom(a, c, i) == CompareFrom(a, c, i + 1)
  {
  }

  lemma CompareVersionsTransitive(a: string, b: string, c: string)
    requires CompareVersions(a, b) >= 0 && CompareVersions(b, c) >= 0
    ensures CompareVersions(a, c) >= 0
    ensures CompareVersions(a, b) > 0 || CompareVersions(b, c) > 0 ==> CompareVersions(a, c) > 0
  {
    CompareFromTransitive(VersionComponents(a), VersionComponents(b), VersionComponents(c), 0);
  }

  /** Two lists with the same zero-padded entries compare alike. */
  lemma {:induction false} CompareFromPadding(a: seq<int>, a2: seq<int>, b: seq<int>, i: nat)
    requires forall j: nat :: At(a, j) == At(a2, j)
    ensures CompareFrom(a, b, i) == CompareFrom(a2, b, i)
    decreases |a| + |a2| + |b| - i
  {
    if i < MaxLen(a, b) || i < MaxLen(a2, b) {
      assert At(a, i) == At(a2, i);
      CompareFromPadding(a, a2, b, i + 1);
    }
  }

  /** Missing components count as 0: appending zero components changes no
      comparison. */
  lemma TrailingZerosIgnored(a: seq<int>, zeros: seq<int>, b: seq<int>)
    requires forall k | 0 <= k < |zeros| :: zeros[k] == 0
    ensures CompareComponents(a + zeros, b) == CompareComponents(a, b)
    ensures CompareComponents(b, a + zeros) == CompareComponents(b, a)
  {
    assert forall j: nat :: At(a + zeros, j) == At(a, j) by {
      forall j: nat ensures At(a + zeros, j) == At(a, j) {
        if |a| <= j < |a| + |zeros| {
          assert (a + zeros)[j] == zeros[j - |a|];
        }
      }
    }
    CompareFromPadding(a + zeros, a, b, 0);
    CompareFromAntisymmetric(a + zeros, b, 0);
    CompareFromAntisymmetric(a, b, 0);
  }

  /** On version strings: `v` and `v + ".0"` compare equal, as `"1.2"` and
      `"1.2.0"` do. */
  lemma DotZeroIgnored(v: string)
    requires v == [] || (!IsSpace(v[0]) && !IsSpace(v[|v| - 1]))
    ensures CompareVersions(v + ".0", v) == 0
  {
    VersionComponentsDotZero(v);
    ExtraZeroEqual(v + ".0", v);
  }

  lemma ExtraZeroEqual(a: string, b: string)
    requires VersionComponents(a) == VersionComponents(b) + [0]
    ensures CompareVersions(a, b) == 0
  {
    var p := VersionComponents(b);
    TrailingZerosIgnored(p, [0], p);
    CompareFromReflexive(p, 0);
  }

  lemma VersionComponentsDotZero(v: string)
    requires v == [] || (!IsSpace(v[0]) && !IsSpace(v[|v| - 1]))
    ensures VersionComponents(v + ".0") == VersionComponents(v) + [0]
  {
    TrimUnchanged(v);
    TrimDotZero(v);
    SplitDotZero(v);
    ComponentsSnoc(Split(v, '.'), "0");
    ComponentOfZero();
  }

  lemma TrimDotZero(v: string)
    requires v == [] || !IsSpace(v[0])
    ensures Trim(v + ".0") == v + ".0"
  {
    var w := v + ".0";
    assert w[|w| - 1] == '0';
    assert w[0] == if v == [] then '.' else v[0];
    TrimUnchanged(w);
  }

  lemma SplitDotZero(v: string)
    ensures Split(v + ".0", '.') == Split(v, '.') + ["0"]
  {
    var parts := Split(v, '.');
    JoinSplit(v, '.');
    var more := parts + ["0"];
    JoinLast(more, '.');
    assert more[..|parts|] == parts;
    assert Join(more, '.') == v + ".0";
    SplitJoin(more, '.');
  }

  lemma ComponentsSnoc(parts: seq<string>, x: string)
    ensures Components(parts + [x]) == Components(parts) + [Component(x)]
  {
  }

  lemma ComponentOfZero()
    ensures Component("0") == 0
  {
    assert DigitPrefix("0") == "0";
  }

  // ---------------------------------------------------------------------------
  // Update decision
  // ---------------------------------------------------------------------------

  /** What `checkForUpdates` ends with. */
  datatype UpdateOutcome =
    | NoLocalVersion            // the local VERSION file cannot be read: silent return
    | CheckFailed(shown: bool)  // no remote version; a dialog only on a manual check
    | UpToDate(shown: bool)     // the remote is not newer; a dialog only on a manual check
    | NoWindow                  // newer, but no live main window to ask in
    | Offered(download: bool)   // newer: the user was asked, `download` opens the page

  /** `checkForUpdates`. `local` is the trimmed local version (`None` when the file
      cannot be read), `remote` the trimmed remote version (`None` when the request
      fails or answers with something other than 200), `windowAlive` whether a main
      window exists and is not destroyed, `response` the button chosen in the offer
      dialog. */
  function CheckForUpdates(local: Option<string>, remote: Option<string>, manual: bool,
                           windowAlive: bool, response: nat): (r: UpdateOutcome)
    ensures r.Offered? <==> (local.Some? && remote.Some? && remote.value != ""
                             && CompareVersions(remote.value, local.value) > 0 && windowAlive)
    ensures r.Offered? ==> (r.download <==> response == 0)
    ensures (r.CheckFailed? && r.shown) || (r.UpToDate? && r.shown) ==> manual && windowAlive
  {
    if local.None? then NoLocalVersion
    else if remote.None? || remote.value == "" then CheckFailed(manual && windowAlive)
    else if CompareVersions(remote.value, local.value) <= 0 then UpToDate(manual && windowAlive)
    else if !windowAlive then NoWindow
    else Offered(response == 0)
  }

  /** Only a strictly newer remote version is ever offered: the same version, or
      one that differs only by trailing zeros, is not. */
  lemma SameVersionNotOffered(v: string, manual: bool, windowAlive: bool, response: nat)
    ensures !CheckForUpdates(Some(v), Some(v), manual, windowAlive, response).Offered?
  {
    CompareVersionsReflexive(v);
  }

  /** If the remote version is newer than the local one, the reverse case is not
      offered. */
  lemma OfferIsOneWay(a: string, b: string, response: nat)
    requires CheckForUpdates(Some(a), Some(b), true, true, response).Offered?
    ensures !CheckForUpdates(Some(b), Some(a), true, true, response).Offered?
  {
    CompareVersionsAntisymmetric(a, b);
  }

  /** `scheduleInitialCheck` runs the automatic, silent check once per process. */
  datatype Scheduler = Scheduler(checkDone: bool)

  function ScheduleInitialCheck(s: Scheduler): (r: (Scheduler, bool))
    ensures r.0.checkDone
    ensures r.1 <==> !s.checkDone
  {
    if s.checkDone then (s, false) else (Scheduler(true), true)
  }

  lemma InitialCheckRunsOnce(s: Scheduler)
    ensures !ScheduleInitialCheck(ScheduleInitialCheck(s).0).1
  {
  }
}

=== FILE: wpm_curve.dfy ===
/** The discrete WPM slider mapping (public/js/wpm_curve.js) with the linear curve.

    A mapper shares `finalPosCount` slider positions out among the WPM values
    `minWpm..maxWpm`: value `minWpm + i` owns a run of `runs[i]` consecutive
    positions. A slider control value `c` sits at position
    `round((c - minControl) / step)`. Arithmetic on control values is exact here. */
module WpmCurve {
  import opened Js

  datatype BuildError = InvalidWpmRange | InvalidControlRange | InvalidStep

  datatype Mapper = Mapper(
    minWpm: int,
    maxWpm: int,
    minControl: real,
    maxControl: real,
    step: real,
    posCount: int,   // positions the control range spans
    runs: seq<nat>)  // runs[i] positions show minWpm + i

  function Min(a: int, b: int): int { if a <= b then a else b }
  function Max(a: int, b: int): int { if a >= b then a else b }

  function WpmCount(m: Mapper): int { m.maxWpm - m.minWpm + 1 }

  function FinalPosCount(m: Mapper): int { Max(m.posCount, WpmCount(m)) }

  function Sum(s: seq<nat>): nat {
    if |s| == 0 then 0 else Sum(s[..|s| - 1]) + s[|s| - 1]
  }

  /** What a successful build guarantees of the runs and the control range. */
  predicate Valid(m: Mapper) {
    && m.minWpm <= m.maxWpm
    && m.minControl <= m.maxControl
    && m.step > 0.0
    && |m.runs| == WpmCount(m)
    && (forall i | 0 <= i < |m.runs| :: m.runs[i] >= 1)
    && Sum(m.runs) == FinalPosCount(m)
  }

  /** `posCount` is the number of positions the control range spans. */
  predicate SpansControl(m: Mapper) {
    m.step > 0.0 && m.posCount == Round((m.maxControl - m.minControl) / m.step) + 1
  }

  // ---------------------------------------------------------------------------
  // Run allocation
  // ---------------------------------------------------------------------------

  /** `n` entries equal to `a`, the first `r` of them one larger. */
  function Piecewise(n: nat, a: nat, r: nat): seq<nat> {
    seq(n, i requires 0 <= i < n => a + (if i < r then 1 else 0))
  }

  /** The runs of the linear curve: every value gets one position plus an equal share
      of the spare ones, and the leftover spare positions go one each to the lowest
      values (all remainders tie, and the ordering sort is stable). */
  function LinearRuns(count: nat, extra: nat): seq<nat>
    requires count >= 1
  {
    Piecewise(count, 1 + extra / count, extra % count)
  }

  lemma {:induction false} PiecewiseSum(n: nat, a: nat, r: nat)
    ensures Sum(Piecewise(n, a, r)) == n * a + Min(n, r)
  {
    if n > 0 {
      PiecewiseSum(n - 1, a, r);
      assert Piecewise(n, a, r)[..n - 1] == Piecewise(n - 1, a, r);
    }
  }

  lemma LinearRunsSum(count: nat, extra: nat)
    requires count >= 1
    ensures Sum(LinearRuns(count, extra)) == count + extra
  {
    PiecewiseSum(count, 1 + extra / count, extra % count);
  }

  /** Every linear run is at least one long, and runs differ by at most one, the longer
      ones first. */
  lemma LinearRunsShape(count: nat, extra: nat)
    requires count >= 1
    ensures forall i | 0 <= i < count :: LinearRuns(count, extra)[i] >= 1
    ensures forall i, j | 0 <= i < j < count ::
      LinearRuns(count, extra)[j] <= LinearRuns(count, extra)[i] <= LinearRuns(count, extra)[j] + 1
  {
  }


  /** The proportional pass: every run grows by `floored`; `used` counts the
      positions handed out. */
  method AddFloored(runs: seq<nat>, floored: nat) returns (grown: seq<nat>, used: nat)
    ensures |grown| == |runs| && used == |runs| * floored
    ensures forall k | 0 <= k < |runs| :: grown[k] == runs[k] + floored
  {
    grown := runs;
    used := 0;
    var idx := 0;
    while idx < |runs|
      invariant 0 <= idx <= |runs| && |grown| == |runs|
      invariant used == idx * floored
      invariant forall k | 0 <= k < idx :: grown[k] == runs[k] + floored
      invariant forall k | idx <= k < |runs| :: grown[k] == runs[k]
    {
      grown := grown[idx := grown[idx] + floored];
      used := used + floored;
      idx := idx + 1;
    }
  }

  /** The remainder pass: the leftover positions go one each to the runs in order,
      the cursor wrapping around (it never needs to, as fewer positions are left than
      there are runs). */
  method HandOutLeftover(runs: seq<nat>, leftover: nat) returns (grown: seq<nat>)
    requires leftover < |runs|
    ensures |grown| == |runs|
    ensures forall k | 0 <= k < |runs| :: grown[k] == runs[k] + (if k < leftover then 1 else 0)
  {
    grown := runs;
    var remaining := leftover;
    var cursor := 0;
    while remaining > 0
      invariant |grown| == |runs|
      invariant 0 <= cursor && 0 <= remaining && cursor + remaining == leftover
      invariant forall k | 0 <= k < |runs| :: grown[k] == runs[k] + (if k < cursor then 1 else 0)
    {
      assert (cursor + 1) % |runs| == cursor + 1;
      grown := grown[cursor := grown[cursor] + 1];
      remaining := remaining - 1;
      cursor := (cursor + 1) % |runs|;
    }
  }

  /** The allocation step of the builder, for the linear curve: each value starts with
      one position, receives `floor(extra / count)` more, and the remaining spare
      positions are handed out round-robin in index order. */
  method AllocateLinearRuns(wpmCount: nat, finalPosCount: nat) returns (runs: seq<nat>)
    requires 1 <= wpmCount <= finalPosCount
    ensures |runs| == wpmCount
    ensures forall i | 0 <= i < wpmCount :: runs[i] >= 1
    ensures forall i, j | 0 <= i < j < wpmCount :: runs[j] <= runs[i] <= runs[j] + 1
    ensures runs == LinearRuns(wpmCount, finalPosCount - wpmCount)
  {
    var extra := finalPosCount - wpmCount;
    var floored := extra / wpmCount;
    var leftover := extra % wpmCount;
    runs := seq(wpmCount, _ => 1);
    if extra > 0 {
      var used;
      runs, used := AddFloored(runs, floored);
      var remaining := extra - used;
      RemainingIsLeftover(extra, wpmCount, used);
      if remaining > 0 {
        runs := HandOutLeftover(runs, remaining);
      }
    } else {
      assert 0 / wpmCount == 0 && 0 % wpmCount == 0;
    }
    AllocationIsLinear(wpmCount, extra, runs);
    LinearRunsShape(wpmCount, extra);
  }

  lemma RemainingIsLeftover(extra: nat, count: nat, used: nat)
    requires count >= 1 && used == count * (extra / count)
    ensures extra - used == extra % count
  {
    assert extra == (extra / count) * count + extra % count && 0 <= extra % count < count;
  }


  lemma AllocationIsLinear(count: nat, extra: nat, runs: seq<nat>)
    requires count >= 1 && |runs| == count
    requires forall k | 0 <= k < count :: runs[k] == 1 + extra / count + (if k < extra % count then 1 else 0)
    ensures runs == LinearRuns(count, extra)
  {
  }

  // ---------------------------------------------------------------------------
  // Position tables
  // ---------------------------------------------------------------------------

  function Repeat(v: int, n: nat): seq<int> { seq(n, _ => v) }

  /** The run-length expansion: `runs[i]` copies of `base + i`, in order. */
  function Expand(runs: seq<nat>, base: int): (r: seq<int>)
    ensures |r| == Sum(runs)
  {
    if |runs| == 0 then []
    else Expand(runs[..|runs| - 1], base) + Repeat(base + |runs| - 1, runs[|runs| - 1])
  }

  /** The prefix sums of `runs`: where each run starts. */
  function Starts(runs: seq<nat>): (r: seq<nat>)
    ensures |r| == |runs|
    ensures forall k | 0 <= k < |runs| :: r[k] == Sum(runs[..k])
  {
    seq(|runs|, k requires 0 <= k < |runs| => Sum(runs[..k]))
  }

  /** The table-building loop of the builder: `wpmByPos` holds the WPM shown at each
      position and `firstPosByWpm` where each WPM's run starts. */
  method BuildTables(runs: seq<nat>, minWpm: int) returns (wpmByPos: seq<int>, firstPosByWpm: seq<nat>)
    ensures wpmByPos == Expand(runs, minWpm)
    ensures firstPosByWpm == Starts(runs)
  {
    wpmByPos := [];
    firstPosByWpm := [];
    var offset := 0;
    var idx := 0;
    while idx < |runs|
      invariant 0 <= idx <= |runs|
      invariant wpmByPos == Expand(runs[..idx], minWpm)
      invariant offset == |wpmByPos|
      invariant firstPosByWpm == Starts(runs[..idx])
    {
      assert runs[..idx + 1][..idx] == runs[..idx];
      assert Starts(runs[..idx + 1]) == Starts(runs[..idx]) + [offset] by {
        forall k | 0 <= k < idx ensures runs[..idx + 1][..k] == runs[..idx][..k] { }
      }
      firstPosByWpm := firstPosByWpm + [offset];
      var run := 0;
      while run < runs[idx]
        invariant 0 <= run <= runs[idx]
        invariant wpmByPos == Expand(runs[..idx], minWpm) + Repeat(minWpm + idx, run)
        invariant offset == |wpmByPos|
      {
        assert Repeat(minWpm + idx, run + 1) == Repeat(minWpm + idx, run) + [minWpm + idx];
        wpmByPos := wpmByPos + [minWpm + idx];
        offset := offset + 1;
        run := run + 1;
      }
      idx := idx + 1;
    }
    assert runs[..idx] == runs;
  }

  lemma PrefixSumStep(s: seq<nat>, k: nat)
    requires k < |s|
    ensures Sum(s[..k + 1]) == Sum(s[..k]) + s[k]
  {
    assert s[..k + 1][..k] == s[..k];
  }

  lemma {:induction false} PrefixSumMonotone(s: seq<nat>, i: nat, j: nat)
    requires i <= j <= |s|
    ensures Sum(s[..i]) <= Sum(s[..j])
    decreases j - i
  {
    if i < j {
      PrefixSumMonotone(s, i, j - 1);
      PrefixSumStep(s, j - 1);
    }
  }

  /** With every run at least one long, the first `k` runs cover at least `k` positions. */
  lemma {:induction false} PrefixSumAtLeastLength(s: seq<nat>, k: nat)
    requires k <= |s|
    requires forall i | 0 <= i < |s| :: s[i] >= 1
    ensures Sum(s[..k]) >= k
  {
    if k > 0 {
      PrefixSumAtLeastLength(s, k - 1);
      PrefixSumStep(s, k - 1);
    }
  }

  /** The run that position `p` falls in. */
  function RunOf(runs: seq<nat>, p: nat): (k: nat)
    requires p < Sum(runs)
    ensures k < |runs|
    ensures Sum(runs[..k]) <= p < Sum(runs[..k + 1])
  {
    var n := |runs|;
    var init := runs[..n - 1];
    assert runs[..n] == runs;
    if p >= Sum(init) then
      n - 1
    else
      var k := RunOf(init, p);
      assert init[..k] == runs[..k] && init[..k + 1] == runs[..k + 1];
      k
  }

  lemma RunOfUnique(runs: seq<nat>, p: nat, k: nat)
    requires p < Sum(runs)
    requires k < |runs| && Sum(runs[..k]) <= p < Sum(runs[..k + 1])
    ensures RunOf(runs, p) == k
  {
    var j := RunOf(runs, p);
    if j < k {
      PrefixSumMonotone(runs, j + 1, k);
    } else if j > k {
      PrefixSumMonotone(runs, k + 1, j);
    }
  }

  lemma RunOfMonotone(runs: seq<nat>, p: nat, q: nat)
    requires p <= q < Sum(runs)
    ensures RunOf(runs, p) <= RunOf(runs, q)
  {
    var i := RunOf(runs, p);
    var j := RunOf(runs, q);
    if j < i {
      PrefixSumMonotone(runs, j + 1, i);
    }
  }

  lemma {:induction false} ExpandAt(runs: seq<nat>, base: int, p: nat)
    requires p < Sum(runs)
    ensures Expand(runs, base)[p] == base + RunOf(runs, p)
  {
    var n := |runs|;
    var init := runs[..n - 1];
    if p >= Sum(init) {
      assert runs[..n] == runs;
      RunOfUnique(runs, p, n - 1);
    } else {
      ExpandAt(init, base, p);
      var k := RunOf(init, p);
      assert init[..k] == runs[..k] && init[..k + 1] == runs[..k + 1];
      RunOfUnique(runs, p, k);
    }
  }

  /** The WPM shown at each slider position. */
  function WpmByPos(m: Mapper): (r: seq<int>)
    requires Valid(m)
    ensures |r| == FinalPosCount(m)
  {
    Expand(m.runs, m.minWpm)
  }

  /** The first position of the run of WPM value `minWpm + idx`. */
  function FirstPosByWpm(m: Mapper, idx: int): (p: nat)
    requires Valid(m) && 0 <= idx < WpmCount(m)
    ensures p < FinalPosCount(m)
  {
    PrefixSumStep(m.runs, idx);
    PrefixSumMonotone(m.runs, idx + 1, |m.runs|);
    assert m.runs[..|m.runs|] == m.runs;
    Sum(m.runs[..idx])
  }

  /** Positions further along never show a smaller WPM. */
  lemma WpmByPosNonDecreasing(m: Mapper, p: nat, q: nat)
    requires Valid(m) && p <= q < FinalPosCount(m)
    ensures WpmByPos(m)[p] <= WpmByPos(m)[q]
  {
    ExpandAt(m.runs, m.minWpm, p);
    ExpandAt(m.runs, m.minWpm, q);
    RunOfMonotone(m.runs, p, q);
  }

  /** Every position shows a WPM inside the range. */
  lemma WpmByPosInRange(m: Mapper, p: nat)
    requires Valid(m) && p < FinalPosCount(m)
    ensures m.minWpm <= WpmByPos(m)[p] <= m.maxWpm
  {
    ExpandAt(m.runs, m.minWpm, p);
  }

  /** Every WPM in the range is shown at `FirstPosByWpm`. */
  lemma FirstPosShowsWpm(m: Mapper, w: int)
    requires Valid(m) && m.minWpm <= w <= m.maxWpm
    ensures WpmByPos(m)[FirstPosByWpm(m, w - m.minWpm)] == w
  {
    var idx := w - m.minWpm;
    var first := FirstPosByWpm(m, idx);
    PrefixSumStep(m.runs, idx);
    RunOfUnique(m.runs, first, idx);
    ExpandAt(m.runs, m.minWpm, first);
  }

  /** No position before `FirstPosByWpm` shows that WPM or a larger one. */
  lemma NothingBeforeFirstPos(m: Mapper, w: int)
    requires Valid(m) && m.minWpm <= w <= m.maxWpm
    ensures forall p | 0 <= p < FirstPosByWpm(m, w - m.minWpm) :: WpmByPos(m)[p] < w
  {
    var idx := w - m.minWpm;
    var first := FirstPosByWpm(m, idx);
    forall p | 0 <= p < first
      ensures WpmByPos(m)[p] < w
    {
      ExpandAt(m.runs, m.minWpm, p);
      var k := RunOf(m.runs, p);
      if k >= idx {
        PrefixSumMonotone(m.runs, idx, k);
      }
    }
  }

  // ---------------------------------------------------------------------------
  // Building
  // ---------------------------------------------------------------------------

  predicate WpmRangeOk(wpmMin: Number, wpmMax: Number) {
    wpmMin.Finite? && wpmMax.Finite? && Round(wpmMin.value) <= Round(wpmMax.value)
  }

  predicate ControlRangeOk(controlMin: Number, controlMax: Number) {
    controlMin.Finite? && controlMax.Finite? && controlMin.value <= controlMax.value
  }

  predicate StepOk(controlStep: Number) {
    controlStep.Finite? && controlStep.value > 0.0
  }

  /** `buildDiscreteWpmMapper` with the linear curve. The checks run in the source's
      order: WPM range, then control range, then step. */
  function Build(wpmMin: Number, wpmMax: Number, controlMin: Number, controlMax: Number, controlStep: Number)
    : (r: Result<Mapper, BuildError>)
    ensures !WpmRangeOk(wpmMin, wpmMax) ==> r == Err(InvalidWpmRange)
    ensures WpmRangeOk(wpmMin, wpmMax) && !ControlRangeOk(controlMin, controlMax) ==> r == Err(InvalidControlRange)
    ensures WpmRangeOk(wpmMin, wpmMax) && ControlRangeOk(controlMin, controlMax) && !StepOk(controlStep)
            ==> r == Err(InvalidStep)
    ensures WpmRangeOk(wpmMin, wpmMax) && ControlRangeOk(controlMin, controlMax) && StepOk(controlStep)
            ==> r.Ok?
    ensures r.Ok? ==> WpmRangeOk(wpmMin, wpmMax) && ControlRangeOk(controlMin, controlMax) && StepOk(controlStep)
    ensures r.Ok? ==> && Valid(r.value) && SpansControl(r.value)
                      && r.value.minWpm == Round(wpmMin.value) && r.value.maxWpm == Round(wpmMax.value)
                      && r.value.minControl == controlMin.value && r.value.maxControl == controlMax.value
                      && r.value.step == controlStep.value
    ensures r.Ok? ==> forall i, j | 0 <= i < j < |r.value.runs| :: r.value.runs[j] <= r.value.runs[i] <= r.value.runs[j] + 1
  {
    if !WpmRangeOk(wpmMin, wpmMax) then Err(InvalidWpmRange)
    else if !ControlRangeOk(controlMin, controlMax) then Err(InvalidControlRange)
    else if !StepOk(controlStep) then Err(InvalidStep)
    else Ok(Assemble(Round(wpmMin.value), Round(wpmMax.value), controlMin.value, controlMax.value, controlStep.value))
  }

  /** The mapper of a checked range: `posCount` from the control range, then the runs
      over at least one position per WPM value. */
  function Assemble(minWpm: int, maxWpm: int, minControl: real, maxControl: real, step: real): (m: Mapper)
    requires minWpm <= maxWpm && minControl <= maxControl && step > 0.0
    ensures Valid(m) && SpansControl(m)
    ensures m.minWpm == minWpm && m.maxWpm == maxWpm
    ensures m.minControl == minControl && m.maxControl == maxControl && m.step == step
    ensures forall i, j | 0 <= i < j < |m.runs| :: m.runs[j] <= m.runs[i] <= m.runs[j] + 1
  {
    var wpmCount := maxWpm - minWpm + 1;
    var posCount := Round((maxControl - minControl) / step) + 1;
    var finalPosCount := Max(posCount, wpmCount);
    var runs := LinearRuns(wpmCount, finalPosCount - wpmCount);
    LinearRunsSum(wpmCount, finalPosCount - wpmCount);
    LinearRunsShape(wpmCount, finalPosCount - wpmCount);
    Mapper(minWpm, maxWpm, minControl, maxControl, step, posCount, runs)
  }

  // ---------------------------------------------------------------------------
  // Control <-> WPM
  // ---------------------------------------------------------------------------

  /** `clampInt`: round a finite input, use `lo` for a non-finite one, then clamp. */
  function ClampInt(value: Number, lo: int, hi: int): (r: int)
    requires lo <= hi
    ensures lo <= r <= hi
    ensures !value.Finite? ==> r == lo
    ensures value.Finite? && lo as real <= value.value <= hi as real ==> r == Round(value.value)
  {
    var safe := if value.Finite? then Round(value.value) else lo;
    Min(Max(safe, lo), hi)
  }

  /** `clampNumber`: like `ClampInt` without rounding. */
  function ClampReal(value: Number, lo: real, hi: real): (r: real)
    requires lo <= hi
    ensures lo <= r <= hi
    ensures !value.Finite? ==> r == lo
    ensures value.Finite? && lo <= value.value <= hi ==> r == value.value
  {
    var safe := if value.Finite? then value.value else lo;
    if safe < lo then lo else if safe > hi then hi else safe
  }

  /** `controlToPosIndex`, with the control clamped to `[minControl, hi]`. */
  function ControlToPosWithin(m: Mapper, hi: real, c: Number): (p: nat)
    requires Valid(m) && m.minControl <= hi
    ensures p < FinalPosCount(m)
  {
    ClampedPos(m.minControl, hi, m.step, FinalPosCount(m) - 1, c)
  }

  /** The position nearest the control clamped to `[lo, hi]`, kept in `[0, top]`. */
  function ClampedPos(lo: real, hi: real, step: real, top: nat, c: Number): (p: nat)
    requires lo <= hi && step > 0.0
    ensures p <= top
  {
    var clamped := ClampReal(c, lo, hi);
    var relative := (clamped - lo) / step;
    Min(Max(Round(relative), 0), top)
  }

  /** `wpmFromControl`: the WPM shown at the control's position. */
  function WpmFromControl(m: Mapper, c: Number): (w: int)
    requires Valid(m)
    ensures m.minWpm <= w <= m.maxWpm
  {
    var p := ControlToPosWithin(m, m.maxControl, c);
    WpmByPosInRange(m, p);
    WpmByPos(m)[p]
  }

  /** `posIndexToControl`, without the decimal rounding to the step's precision. */
  function PosToControl(m: Mapper, pos: int): real
    requires Valid(m)
  {
    m.minControl + Min(Max(pos, 0), FinalPosCount(m) - 1) as real * m.step
  }

  /** `controlFromWpm`: the control of the first position that shows the clamped WPM. */
  function ControlFromWpm(m: Mapper, w: Number): (c: real)
    requires Valid(m)
    ensures var cw := ClampInt(w, m.minWpm, m.maxWpm);
            exists p | 0 <= p < FinalPosCount(m) ::
              && c == m.minControl + p as real * m.step
              && WpmByPos(m)[p] == cw
              && forall q | 0 <= q < p :: WpmByPos(m)[q] < cw
    ensures c >= m.minControl
  {
    var cw := ClampInt(w, m.minWpm, m.maxWpm);
    var c := m.minControl + FirstPosByWpm(m, cw - m.minWpm) as real * m.step;
    FirstShowingControl(m, cw, c);
    c
  }

  /** The control of `FirstPosByWpm` is that of the first position showing the WPM. */
  lemma FirstShowingControl(m: Mapper, cw: int, c: real)
    requires Valid(m) && m.minWpm <= cw <= m.maxWpm
    requires c == m.minControl + FirstPosByWpm(m, cw - m.minWpm) as real * m.step
    ensures exists p | 0 <= p < FinalPosCount(m) ::
              && c == m.minControl + p as real * m.step
              && WpmByPos(m)[p] == cw
              && forall q | 0 <= q < p :: WpmByPos(m)[q] < cw
    ensures c >= m.minControl
  {
    var p := FirstPosByWpm(m, cw - m.minWpm);
    FirstPosShowsWpm(m, cw);
    NothingBeforeFirstPos(m, cw);
    assert p as real * m.step >= 0.0;
  }

  /** A position whose control lies within the clamp maps back to itself. */
  lemma ClampedPosInside(lo: real, hi: real, step: real, top: nat, p: nat)
    requires lo <= hi && step > 0.0 && p <= top
    requires lo + p as real * step <= hi
    ensures ClampedPos(lo, hi, step, top, Finite(lo + p as real * step)) == p
  {
    var c := lo + p as real * step;
    assert p as real * step >= 0.0 by {
      assert 0.0 * step <= p as real * step;
    }
    assert ClampReal(Finite(c), lo, hi) == c;
    assert ((lo + p as real * step) - lo) / step == p as real;
    assert (c - lo) / step == p as real;
    assert Round(p as real) == p;
    assert Round((c - lo) / step) == p;
  }

  /** A position whose control lies beyond the clamp still maps back to itself when
      it is the position the clamp rounds to. */
  lemma ClampedPosAbove(lo: real, hi: real, step: real, top: nat, p: nat)
    requires lo <= hi && step > 0.0 && p <= top
    requires lo + p as real * step > hi
    requires p <= Round((hi - lo) / step)
    ensures ClampedPos(lo, hi, step, top, Finite(lo + p as real * step)) == p
  {
    var ratio := (hi - lo) / step;
    assert ((hi - lo) / step) * step == hi - lo;
    assert p as real > ratio;
    assert Round(ratio) <= Round(p as real);
    assert Round(p as real) == p;
  }

  /** Every position up to the one `hi` rounds to maps back to itself. */
  lemma ClampedPosBack(lo: real, hi: real, step: real, top: nat, p: nat)
    requires lo <= hi && step > 0.0 && p <= top
    requires p <= Round((hi - lo) / step)
    ensures ClampedPos(lo, hi, step, top, Finite(lo + p as real * step)) == p
  {
    if lo + p as real * step <= hi {
      ClampedPosInside(lo, hi, step, top, p);
    } else {
      ClampedPosAbove(lo, hi, step, top, p);
    }
  }

  /** With the clamp at the last position's control, every position maps back to
      itself. */
  lemma ClampedPosUpToTop(lo: real, step: real, top: nat, p: nat)
    requires step > 0.0 && p <= top
    ensures lo <= lo + top as real * step
    ensures ClampedPos(lo, lo + top as real * step, step, top, Finite(lo + p as real * step)) == p
  {
    assert 0.0 * step <= top as real * step;
    assert p as real * step <= top as real * step;
    ClampedPosInside(lo, lo + top as real * step, step, top, p);
  }

  /** No control reaches a position past the one `hi` rounds to. */
  lemma ClampedPosAtMost(lo: real, hi: real, step: real, top: nat, c: Number)
    requires lo <= hi && step > 0.0
    ensures ClampedPos(lo, hi, step, top, c) <= Round((hi - lo) / step)
  {
    var clamped := ClampReal(c, lo, hi);
    assert (0.0) / step <= (hi - lo) / step;
    assert (clamped - lo) / step <= (hi - lo) / step;
    assert Round((clamped - lo) / step) <= Round((hi - lo) / step);
    assert Round(0 as real) == 0;
    assert Round(0.0) <= Round((hi - lo) / step);
  }

  /** The control of position `p` maps back to `p` when `p` lies within the span the
      control range rounds to. */
  lemma ControlOfPosMapsBack(m: Mapper, p: nat)
    requires Valid(m) && SpansControl(m) && p <= m.posCount - 1 && p < FinalPosCount(m)
    ensures ControlToPosWithin(m, m.maxControl, Finite(m.minControl + p as real * m.step)) == p
  {
    ClampedPosBack(m.minControl, m.maxControl, m.step, FinalPosCount(m) - 1, p);
  }

  /** Round trip: when the control range has at least one position per WPM value, the
      control chosen for a WPM shows that WPM (after clamping) again. */
  lemma RoundTrip(m: Mapper, w: Number)
    requires Valid(m) && SpansControl(m) && m.posCount >= WpmCount(m)
    ensures WpmFromControl(m, Finite(ControlFromWpm(m, w))) == ClampInt(w, m.minWpm, m.maxWpm)
  {
    ControlFromWpmIs(m, w);
    WpmOfControlOfWpm(m, ClampInt(w, m.minWpm, m.maxWpm));
  }

  /** The control of a WPM's first position shows that WPM. */
  lemma WpmOfControlOfWpm(m: Mapper, cw: int)
    requires Valid(m) && SpansControl(m) && m.posCount >= WpmCount(m)
    requires m.minWpm <= cw <= m.maxWpm
    ensures WpmFromControl(m, Finite(ControlOfWpm(m, cw))) == cw
  {
    var p := FirstPosByWpm(m, cw - m.minWpm);
    var c := m.minControl + p as real * m.step;
    assert ControlOfWpm(m, cw) == c;
    ShowsPosition(m, p);
    assert WpmFromControl(m, Finite(c)) == WpmByPos(m)[p];
    FirstPosShowsWpm(m, cw);
  }

  lemma ShowsPosition(m: Mapper, p: nat)
    requires Valid(m) && SpansControl(m) && p <= m.posCount - 1 && p < FinalPosCount(m)
    ensures WpmFromControl(m, Finite(m.minControl + p as real * m.step)) == WpmByPos(m)[p]
  {
    ControlOfPosMapsBack(m, p);
  }

  /** The control of the first position of WPM `cw`'s run. */
  function ControlOfWpm(m: Mapper, cw: int): real
    requires Valid(m) && m.minWpm <= cw <= m.maxWpm
  {
    m.minControl + FirstPosByWpm(m, cw - m.minWpm) as real * m.step
  }

  /** The control chosen for a WPM is the control of the clamped WPM's first position. */
  lemma ControlFromWpmIs(m: Mapper, w: Number)
    requires Valid(m)
    ensures ControlFromWpm(m, w) == ControlOfWpm(m, ClampInt(w, m.minWpm, m.maxWpm))
  {
  }

  // ---------------------------------------------------------------------------
  // Finding: with fewer control positions than WPM values the top values are unreachable
  // ---------------------------------------------------------------------------

  /** As written, the control is clamped to `maxControl`, so only the first `posCount`
      positions can be reached; when `posCount < wpmCount` the maximum WPM is never
      shown, although every WPM was given a run. */
  lemma TopWpmUnreachable(m: Mapper, c: Number)
    requires Valid(m) && SpansControl(m) && m.posCount < WpmCount(m)
    ensures WpmFromControl(m, c) < m.maxWpm
  {
    var p := ControlToPosWithin(m, m.maxControl, c);
    ClampedPosAtMost(m.minControl, m.maxControl, m.step, FinalPosCount(m) - 1, c);
    assert p <= m.posCount - 1;
    ExpandAt(m.runs, m.minWpm, p);
    var k := RunOf(m.runs, p);
    PrefixSumAtLeastLength(m.runs, k);
  }

  /** A concrete instance: WPM 50..60 on a control 50..60 with step 2 (six positions
      for eleven values) can never show 60. */
  lemma StepTwoNeverShowsTop(c: Number)
    ensures Build(Finite(50.0), Finite(60.0), Finite(50.0), Finite(60.0), Finite(2.0)).Ok?
    ensures WpmFromControl(Build(Finite(50.0), Finite(60.0), Finite(50.0), Finite(60.0), Finite(2.0)).value, c) < 60
  {
    var m := Build(Finite(50.0), Finite(60.0), Finite(50.0), Finite(60.0), Finite(2.0)).value;
    assert m.posCount == 6;
    TopWpmUnreachable(m, c);
  }

  /** The control value of the last position: the upper clamp that makes every
      position reachable. */
  function CoveringControlMax(m: Mapper): (hi: real)
    requires Valid(m)
    ensures hi >= m.minControl
  {
    m.minControl + (FinalPosCount(m) - 1) as real * m.step
  }

  /** `wpmFromControl` with the control clamped to the last position's control rather
      than to `maxControl`. */
  function WpmFromControlCovering(m: Mapper, c: Number): (w: int)
    requires Valid(m)
    ensures m.minWpm <= w <= m.maxWpm
  {
    var p := ControlToPosWithin(m, CoveringControlMax(m), c);
    WpmByPosInRange(m, p);
    WpmByPos(m)[p]
  }

  lemma ControlOfPosMapsBackCovering(m: Mapper, p: nat)
    requires Valid(m) && p < FinalPosCount(m)
    ensures ControlToPosWithin(m, CoveringControlMax(m), Finite(m.minControl + p as real * m.step)) == p
  {
    ClampedPosUpToTop(m.minControl, m.step, FinalPosCount(m) - 1, p);
  }

  /** With the covering clamp the round trip holds for every mapper, so every WPM in
      the range is reachable. */
  lemma CoveringRoundTrip(m: Mapper, w: Number)
    requires Valid(m)
    ensures WpmFromControlCovering(m, Finite(ControlFromWpm(m, w))) == ClampInt(w, m.minWpm, m.maxWpm)
  {
    ControlFromWpmIs(m, w);
    WpmOfControlOfWpmCovering(m, ClampInt(w, m.minWpm, m.maxWpm));
  }

  lemma WpmOfControlOfWpmCovering(m: Mapper, cw: int)
    requires Valid(m) && m.minWpm <= cw <= m.maxWpm
    ensures WpmFromControlCovering(m, Finite(ControlOfWpm(m, cw))) == cw
  {
    var p := FirstPosByWpm(m, cw - m.minWpm);
    var c := m.minControl + p as real * m.step;
    assert ControlOfWpm(m, cw) == c;
    ShowsPositionCovering(m, p);
    assert WpmFromControlCovering(m, Finite(c)) == WpmByPos(m)[p];
    FirstPosShowsWpm(m, cw);
  }

  lemma ShowsPositionCovering(m: Mapper, p: nat)
    requires Valid(m) && p < FinalPosCount(m)
    ensures WpmFromControlCovering(m, Finite(m.minControl + p as real * m.step)) == WpmByPos(m)[p]
  {
    ControlOfPosMapsBackCovering(m, p);
  }
}
